=== FILE: README.md ===
# provider-harbor reconciliation logic in Dafny

This project models the Crossplane provider for Harbor: the decision logic of its
managed-resource controllers and the helpers they rely on. Each controller's `Observe`
takes the desired record and what Harbor (or the Kubernetes API) answers, and reports
three things: whether the resource exists, whether it is up to date, and how the
record's external-name annotation and status change. `Create`, `Update` and `Delete`
are transitions of the same kind. Every operation is a pure function. Go errors are
`Result.Err` values carrying the exact text `errors.Wrap` would build. A Go nil-pointer
dereference is `Result.Panic(field)`.

What is modelled:

- `UserGen`: the `UserWithGeneratedPassword` controller. It runs a two-phase protocol:
  - the password secret is written first;
  - the child `User` is written on a later pass.
  It also covers password generation over a 70-character charset, and the defaulting of
  the secret's namespace and key.
- `RobotClient` and `RobotController`: the native robot-account controller and its
  client. This covers:
  - the `/robots/<id>` external name and its lenient `fmt.Sscanf` parse;
  - adoption by name;
  - the drift rule;
  - Update, which is refused;
  - Delete, which is a no-op without an external name.
- `UserClient` and `UserController`: the native user controller and its client. This
  covers:
  - the exact-match filter over a substring search;
  - the user ID read from the `Location` header;
  - removing the new user when setting the admin flag fails;
  - the password update that treats 400 as success;
  - the case-insensitive "not found" test.
- `RobotConfig`: the robot account's extra connection details, including the Docker
  basic-auth token. The token is Base64, section 4 of RFC 4648 (`Base64`).
- `HarborClient`: the provider's own Harbor client. This covers configuration checks,
  reading the configuration from a ProviderConfig, and the project and
  scanner-registration calls. Those calls answer with responses shaped from the request.
- `ProjectSetup`: the project controller registered by the top-level setup.
- `ScannerController`: the scanner-registration controller.
- `ProjectController`: the v1alpha1 project controller.
- `UserV1Beta1`: the v1beta1 user controller.
- `RegistryController`: the registry controller.
- Support modules:
  - `Common`: Option, Result and the wrap format;
  - `GoStrings`: `strings.Split`, `strconv.ParseInt`/`FormatInt`/`ParseBool`, `%d` scanning and ASCII `ToLower`;
  - `Kube`: a Kubernetes object store with per-key read and create faults;
  - `UserTypes`: the v1alpha1 User fields.

Stand-ins for things outside the program:

- Harbor's user and robot endpoints are stores with fault fields (`UserApi`, `RobotApi`).
- The calls of the provider's own client reach the controllers as function-valued
  parameters (`ProjectService`, `ScannerService`, `UserService`, `RegistryService`).
  `MockProjects` and `MockScanners` plug in the client's present answers.
- The random bytes behind a generated password are an input sequence.
- JSON encoding and decoding are parameters.
- The Harbor client set is a parameter.
- The current time is a parameter, in whole seconds.

## Model

| member | source | states |
|---|---|---|
| UserGen.SecretNamespace | internal/controller/user/usergen/controller.go:104-111 | The secret namespace is the configured one, else the record's namespace, else "default"; it is never empty. |
| UserGen.SecretKey | internal/controller/user/usergen/controller.go:216-219 | The secret key is the configured key, else "password". |
| UserGen.CharsetShape | internal/controller/user/usergen/controller.go:328-345 | The password charset has 70 characters, all distinct: the lower-case and upper-case letters, the digits and eight symbols, and nothing else. |
| UserGen.EffectiveLength | internal/controller/user/usergen/controller.go:328-333 | A requested length below 8 becomes 16; any other length is kept. |
| UserGen.PasswordOf | internal/controller/user/usergen/controller.go:335-344 | One password character per random byte, each drawn from the charset. |
| UserGen.MapToCharset | internal/controller/user/usergen/controller.go:340-342 | The in-place loop over the random buffer yields exactly the charset mapping of the bytes. |
| UserGen.GenerateSecurePassword | internal/controller/user/usergen/controller.go:328-345 | Succeeds iff enough random bytes are available. The password has exactly the effective length and only charset characters. A short read is the wrapped error. |
| UserGen.PasswordSecretFor | internal/controller/user/usergen/controller.go:348-375 | The secret is Opaque and has exactly one controller owner reference naming the record. Its data holds only the password, under the chosen key. |
| UserGen.PasswordSecretRefFor | internal/controller/user/usergen/controller.go:236-264 | The child's password reference names the generated secret's name, defaulted namespace and defaulted key. Without generation it is the record's own reference. |
| UserGen.ChildUserFor | internal/controller/user/usergen/controller.go:266-298 | The child is named `<name>-user` and is owned by the record. It copies the user fields, the resource spec and the init parameters. |
| UserGen.Observe | internal/controller/user/usergen/controller.go:90-157 | Exists (and is up to date) iff the secret, when one is needed, and the child are both present. Read failures other than not-found are errors, never absence. |
| UserGen.CreatePasswordSecretPhase | internal/controller/user/usergen/controller.go:202-231 | Phase 1 succeeds iff the password can be generated and the secret can be created. A generation failure is wrapped "cannot generate secure password"; a create failure is wrapped "cannot create password secret" around the store's error. On success the users are untouched and exactly the generated secret is added. |
| UserGen.CreateHarborUserPhase | internal/controller/user/usergen/controller.go:233-309 | Phase 2 leaves the secrets untouched and adds exactly the child. It fails iff the child cannot be created. |
| UserGen.Create | internal/controller/user/usergen/controller.go:159-200 | A missing secret selects phase 1; a present secret, or no generation, selects phase 2; a failed secret read is an error. |
| UserGen.Update | internal/controller/user/usergen/controller.go:311-314 | Changes nothing. |
| UserGen.Delete | internal/controller/user/usergen/controller.go:316-320 | Changes nothing. |
| UserGen.ObserveSkipsChildWhileSecretMissing | internal/controller/user/usergen/controller.go:102-129 | While the secret is missing, Observe reports absence whatever the users store holds. |
| UserGen.TwoPhaseCreate | internal/controller/user/usergen/controller.go:159-200 | In a fault-free cluster: absent, then Create writes the secret and it is still absent, then Create writes the child and it exists. |
| UserGen.GeneratedSecretShape | internal/controller/user/usergen/controller.go:348-375 | The phase-1 secret has one controller owner, the record, and holds a charset password of the effective length under the chosen key. |
| UserGen.ChildReferencesGeneratedSecret | internal/controller/user/usergen/controller.go:239-298 | The phase-2 child references the generated secret by name, defaulted namespace and key. |
| RobotClient.ExtractRobotID | internal/controller/robotaccount/native/client.go:195-208 | A name that does not split on '/' into exactly three parts with "robots" in the middle is refused with the format error. Otherwise the result is the `%d` scan of the third part, and a scan failure is wrapped "failed to parse robot ID". |
| RobotClient.NewlineBeforeId | internal/controller/robotaccount/native/client.go:201-205 | `/robots/\n5` is refused with "failed to parse robot ID: unexpected newline", since `fmt.Sscanf` does not skip a newline. |
| RobotClient.ExtractExternalName | internal/controller/robotaccount/native/client.go:195-208 | Round trip: the external name `/robots/<id>` of any 64-bit ID parses back to that ID. |
| RobotClient.ExtractLenient | internal/controller/robotaccount/native/client.go:195-208 | The parse ignores the first part and trailing non-digits: `<p>/robots/<id><junk>` reads as `id`. |
| RobotClient.RobotCreateFor | internal/controller/robotaccount/native/client.go:72-95 | The request carries the spec's name, level, description, duration and permissions unchanged and in order. |
| RobotClient.CreateRobotAccount | internal/controller/robotaccount/native/client.go:72-127 | An empty payload is an error. A created robot has Harbor's ID, name and secret, `disable` false, and the spec's level and description. |
| RobotClient.GetRobotAccount | internal/controller/robotaccount/native/client.go:130-141 | Succeeds iff a robot with this ID exists and no fault is set; the answer has that ID. |
| RobotClient.GetRobotAccountByName | internal/controller/robotaccount/native/client.go:178-191 | The first robot whose name equals the argument exactly, else "robot account <name> not found". |
| RobotClient.UpdateRobotAccount | internal/controller/robotaccount/native/client.go:144-148 | Always fails. |
| RobotClient.DeleteRobotAccount | internal/controller/robotaccount/native/client.go:151-162 | Succeeds iff the robot exists; afterwards no robot has that ID and the others remain. |
| RobotController.ConvertPermissions | internal/controller/robotaccount/native/controller.go:289-306 | Conversion keeps the number and order of permissions and of their access entries. A nil field dereferenced is a panic. |
| RobotController.RobotSpecFor | internal/controller/robotaccount/native/controller.go:199-210 | Defaults are description "", duration -1 and level "project"; set values are kept. The float duration is cut to an integer toward zero. A nil name or a nil permission field is a panic. |
| RobotController.TruncateToInt | internal/controller/robotaccount/native/controller.go:207 | Go's `int64(x)` on a float: the integer with the sign of `x` whose distance to `x` is below one, rounded toward zero. |
| RobotController.DurationTruncatesTowardZero | internal/controller/robotaccount/native/controller.go:207 | A duration of 1.5 days is sent as 1, and -1.5 as -1. |
| RobotController.IsRobotAccountUpToDate | internal/controller/robotaccount/native/controller.go:268-287 | Up to date iff a set name equals `robot$<level>+<name>` (`robot$<name>` without a level) and a set level equals the robot's level. |
| RobotController.Observe | internal/controller/robotaccount/native/controller.go:131-195 | With an external name: a malformed name is the parse error wrapped "cannot extract robot ID from external name", and any lookup error is absence. Without one: lookup by spec name. A found robot sets the name to `/robots/<id>`, fills the status from the robot and reports the up-to-date verdict; otherwise absent. |
| RobotController.Create | internal/controller/robotaccount/native/controller.go:197-233 | For a convertible spec it succeeds iff Harbor's create does, and a failure is wrapped "cannot create robot account". A nil name or permission field panics. Records `/robots/<id>`. Publishes username and password only when Harbor returns a secret. |
| RobotController.Update | internal/controller/robotaccount/native/controller.go:235-239 | Always fails with "robot account updates are not supported". |
| RobotController.Delete | internal/controller/robotaccount/native/controller.go:241-264 | No external name: success and nothing changes. A malformed name is the parse error wrapped "cannot extract robot ID from external name". Otherwise the call succeeds iff the robot exists, removes exactly that ID, and a failure is wrapped "cannot delete robot account". |
| RobotController.AdoptionThenObserveById | internal/controller/robotaccount/native/controller.go:138-178 | After adoption by name, the next Observe finds the same robot through the recorded external name. |
| RobotController.ObserveKeepsExternalName | internal/controller/robotaccount/native/controller.go:138-148 | Observe never rewrites an external name that is already set. |
| RobotController.CreateThenExtract | internal/controller/robotaccount/native/controller.go:212-218 | The external name Create records parses back to the created robot's ID. |
| RobotController.AdoptedNeverUpToDate | internal/controller/robotaccount/native/controller.go:170-178 | As written, a robot adopted by name is never up to date. |
| RobotController.FullNameNotAdopted | internal/controller/robotaccount/native/controller.go:170-176 | As written, a robot Harbor holds under its full name `robot$project+test-robot` is not adopted for spec name `test-robot`. |
| RobotController.ObserveIntended | internal/controller/robotaccount/native/controller.go:170-178 | The corrected adoption looks up Harbor's full name; with an external name set it agrees with Observe. |
| RobotController.IntendedAdoptionUpToDate | internal/controller/robotaccount/native/controller.go:268-287 | Under the corrected adoption, an adopted robot is up to date exactly when its level matches. |
| RobotController.IntendedAdoptsFullName | internal/controller/robotaccount/native/controller.go:170-178 | Under the corrected adoption, the robot `robot$project+test-robot` is adopted, recorded as `/robots/123` and up to date. |
| UserClient.SearchUsers | internal/controller/user/native/client.go:39-47 | A user is in the search result iff it is stored and its username contains the query. |
| UserClient.GetUser | internal/controller/user/native/client.go:38-57 | Only a user whose username equals the query exactly is returned, else "user not found"; a search failure is wrapped. |
| UserClient.SearchKeepsExactMatches | internal/controller/user/native/client.go:39-56 | The substring search keeps every exact match, so the filter finds a user iff one with that exact name is stored. |
| UserClient.UserIdFromLocation | internal/controller/user/native/client.go:88-95 | The ID is the `strconv.ParseInt` value of the last '/' segment. A parse failure is ParseInt's error wrapped "failed to parse user ID from location header". |
| UserClient.PlusSignedLocation | internal/controller/user/native/client.go:91-92 | A signed segment reads as `strconv.ParseInt` reads it: `/api/v2.0/users/+<id>` gives `id` for every non-negative 64-bit `id`. |
| UserClient.UserIdFromLocationFor | internal/controller/user/native/client.go:88-95 | Round trip: the Location `/api/v2.0/users/<id>` gives back `id`. |
| UserClient.CreateUser | internal/controller/user/native/client.go:60-115 | A create error is wrapped. An empty Location header is "no location header in create response". On success the ID is the one parsed from the Location header. Without the admin flag the store is what the create left; with it, the new user is then flagged. |
| UserClient.FailedAdminCreateCleansUp | internal/controller/user/native/client.go:98-112 | When setting the admin flag fails, the just-created user is deleted again and the error is returned. |
| UserClient.CreateUserStoresUser | internal/controller/user/native/client.go:60-115 | A fault-free create appends exactly the new user, with the admin flag requested, and GetUser then finds it. |
| UserClient.UpdateUser | internal/controller/user/native/client.go:118-149 | The profile is sent, then the admin flag; the call succeeds iff both do. A profile failure, including an unknown ID, is wrapped "failed to update user profile" and changes nothing. An admin-flag failure is wrapped "failed to update admin flag" and leaves the new profile stored. |
| UserClient.UpdateUserPassword | internal/controller/user/native/client.go:152-176 | A 400 Bad Request counts as success and changes nothing; any other failure is wrapped. |
| UserClient.DeleteUser | internal/controller/user/native/client.go:179-191 | Removes exactly the users with that ID. An unknown ID is the SDK's not-found error, wrapped. |
| UserController.IsUserNotFound | internal/controller/user/native/controller.go:319-325 | True iff the lower-cased message contains "not found". |
| UserController.GetPassword | internal/controller/user/native/controller.go:276-297 | An empty reference gives "". A missing secret or key is an error. Otherwise the stored value. |
| UserController.ObservedUsername | internal/controller/user/native/controller.go:130-134 | The external name when set, else the spec username. |
| UserController.Observe | internal/controller/user/native/controller.go:123-179 | No username: absent without a call. Not-found: absent. Other errors are wrapped with "cannot get user". Found: drift over the set fields, and the external name is set only when empty. |
| UserController.Create | internal/controller/user/native/controller.go:181-214 | The external name becomes the username and the status ID the created ID; errors are wrapped with "cannot create user". |
| UserController.PasswordToSet | internal/controller/user/native/controller.go:238-248 | No password change when the reference name is empty or the password read is empty. |
| UserController.Update | internal/controller/user/native/controller.go:216-251 | Parses the status ID, then updates the profile and admin flag; a failure is wrapped "cannot update user". A password-read failure is wrapped "cannot get password from secret". With a password to set, it succeeds iff the password update does, and a failure is wrapped "failed to update password". |
| UserController.UpdateStoresPassword | internal/controller/user/native/controller.go:237-247 | A fault-free Update with a password to set succeeds and stores that password on the user. |
| UserController.Delete | internal/controller/user/native/controller.go:253-273 | A not-found error counts as success; other errors are wrapped. |
| UserController.UpdateThenObserveUpToDate | internal/controller/user/native/controller.go:161-173 | After a successful Update, whether or not it also sets a password, the stored user matches every set field of the spec. |
| UserController.DeleteTwice | internal/controller/user/native/controller.go:264-270 | Deleting twice succeeds when Harbor's not-found text says "not found". |
| UserController.CreateThenObserve | internal/controller/user/native/controller.go:181-214 | A fault-free Create is followed by an Observe that finds the user under the recorded external name. |
| RobotConfig.AdditionalConnectionDetails | config/robotaccount/config.go:22-70 | Keys are drawn from the seven named keys. The legacy keys appear iff their attributes are non-empty strings. The docker keys appear iff both username and password do; `docker-auth` is their basic-auth token. |
| RobotConfig.BasicAuth | config/robotaccount/config.go:49 | The token decodes (section 4 of RFC 4648) to `username:password`. |
| RobotConfig.DockerAuthDecodes | config/robotaccount/config.go:44-67 | The published `docker-auth` decodes to the published `docker-username`, ':' and `docker-password`, which equal `username` and `password`. |
| RobotConfig.BasicAuthInjective | config/robotaccount/config.go:49 | Different credentials (usernames without ':') never share a token. |
| RobotConfig.NoDockerWithoutBoth | config/robotaccount/config.go:44-46 | Without a username or a password only the legacy entries are published, whatever the JSON encoder does. |
| Base64.DecodeEncode | config/robotaccount/config.go:49 | Round trip of the standard Base64 encoding (section 4 of RFC 4648). |
| HarborClient.NewHarborClient | internal/clients/harbor.go:97-127 | Refuses a nil config, an empty URL, username or password, in that order; otherwise it is made from those settings. |
| HarborClient.BaseUrlOfNewClient | internal/clients/harbor.go:175-177 | A client made from a configuration reports its URL. |
| HarborClient.NewHarborClientFromProviderConfig | internal/clients/harbor.go:131-172 | A nil reference is refused. Then, in order, each failing step gives its own wrap: "cannot get referenced ProviderConfig", "cannot track ProviderConfig usage", "cannot extract credentials", "cannot unmarshal harbor credentials", and "cannot parse insecure flag" for a non-empty, non-boolean `insecure` entry. Otherwise the result is `NewHarborClient` of the decoded settings. The client is insecure iff the entry is one of `strconv.ParseBool`'s true spellings. |
| HarborClient.BadInsecureFlagRefused | internal/clients/harbor.go:163-169 | An `insecure` entry that is not a boolean spelling refuses the configuration with ParseBool's error. |
| HarborClient.ConnectWith | internal/controller/project/project_controller.go:77-90 | A controller's Connect succeeds iff the ProviderConfig read does, and wraps its error with the controller's context. |
| HarborClient.CreateProject | internal/clients/harbor.go:199-216 | Rejects a nil spec, then an empty name; the status has the spec's name and visibility. |
| HarborClient.GetProject | internal/clients/harbor.go:219-232 | Rejects an empty name; any other name reads as a private project created a day ago. |
| HarborClient.UpdateProject | internal/clients/harbor.go:235-251 | Rejects an empty name, then a nil spec; the status has the name argument and the spec's visibility. |
| HarborClient.DeleteProject | internal/clients/harbor.go:254-261 | Rejects an empty name. |
| HarborClient.ProjectVisibilityNotKept | internal/clients/harbor.go:219-232 | A project created public reads back private. |
| HarborClient.CreateScannerRegistration | internal/clients/harbor.go:293-318 | Rejects a nil spec, an empty name and an empty URL, in that order; the UUID is `mock-uuid-<name>` and the spec's fields come back. |
| HarborClient.GetScannerRegistration | internal/clients/harbor.go:321-338 | Rejects an empty ID; any other ID reads as the fixed Trivy scanner with UUID `mock-uuid-<id>`. |
| HarborClient.UpdateScannerRegistration | internal/clients/harbor.go:341-362 | Rejects an empty ID, then a nil spec; the status carries the ID and the spec's fields. |
| HarborClient.DeleteScannerRegistration | internal/clients/harbor.go:365-372 | Rejects an empty ID. |
| HarborClient.ScannerIdentifierNotStable | internal/clients/harbor.go:321-338 | Looking up a created registration's UUID reports a different UUID. |
| ProjectSetup.Connect | internal/controller/setup.go:100-140 | Errors in order, each with its wrap: usage tracking ("cannot track ProviderConfig usage"), ProviderConfig read ("cannot get ProviderConfig"), credentials ("cannot get credentials"), decoding ("cannot unmarshal credentials"), client ("cannot create new Service"). Otherwise the client is the one `NewHarborClient` makes. Insecure only for the exact text "true". |
| ProjectSetup.InsecureReadingsDiffer | internal/controller/setup.go:127-132 | "True" makes this Connect secure but the client's ProviderConfig reader insecure. |
| ProjectSetup.IsUpToDate | internal/controller/setup.go:197-203 | Up to date iff no field drifts, and only a set visibility that differs from Harbor's drifts; a spec without a visibility is always up to date. |
| ProjectSetup.Observe | internal/controller/setup.go:149-195 | A nil name is an error; any lookup error is absence; otherwise up to date iff a set visibility matches Harbor's. |
| ProjectSetup.SpecFor | internal/controller/setup.go:213-220 | The request has the spec's name, and is public iff the spec says public; a nil name is dereferenced. |
| ProjectSetup.Create | internal/controller/setup.go:205-234 | Succeeds iff the client does; errors are wrapped "cannot create Harbor project". |
| ProjectSetup.Update | internal/controller/setup.go:236-265 | Sends the same request under the spec's name; errors wrapped. |
| ProjectSetup.Delete | internal/controller/setup.go:267-283 | Deletes by the spec's name; errors wrapped. |
| ProjectSetup.MockPublicProjectNeverConverges | internal/controller/setup.go:197-203 | Over the present client, a public project is reported drifted before and after a successful Update. |
| ProjectSetup.MockPrivateProjectSettles | internal/controller/setup.go:197-220 | Over the present client, a private or unset project is created and then reported up to date. |
| ScannerController.Observe | internal/controller/scanner/controller.go:95-137 | A nil name is an error; any lookup error is absence; otherwise the status is Harbor's view and drift follows the comparison rule. |
| ScannerController.IsUpToDate | internal/controller/scanner/controller.go:139-151 | Up to date iff no field drifts: a set URL that differs from Harbor's, or a description or auth that both sides have and that differ. A spec that sets none of them is always up to date. |
| ScannerController.UnreportedFieldsIgnored | internal/controller/scanner/controller.go:139-151 | When Harbor reports no description or auth, only a set URL is compared. |
| ScannerController.SpecFor | internal/controller/scanner/controller.go:161-174 | Name and URL are dereferenced; the optional fields are passed on only as set. |
| ScannerController.OwnRequestUpToDate | internal/controller/scanner/controller.go:139-174 | A status echoing the registration's own request is never drift. |
| ScannerController.TargetId | internal/controller/scanner/controller.go:211-215 | Update and Delete address the status UUID when present, else the spec name. |
| ScannerController.Create | internal/controller/scanner/controller.go:153-186 | Succeeds iff the client does; errors wrapped "cannot create Harbor scanner registration". |
| ScannerController.Update | internal/controller/scanner/controller.go:188-227 | Sends the request to the target identifier; errors wrapped. |
| ScannerController.Delete | internal/controller/scanner/controller.go:229-251 | Deletes the target identifier; errors wrapped. |
| ScannerController.MockObserveThenTarget | internal/controller/scanner/controller.go:211-215 | Over the present client, after Observe the target is `mock-uuid-<name>`, not the name. |
| ScannerController.MockOtherUrlNeverConverges | internal/controller/scanner/controller.go:139-151 | Over the present client, a URL other than the Trivy URL stays drifted after a successful Update. |
| ProjectController.SpecFor | internal/controller/project/project_controller.go:143-146 | The request has the spec's name, and is public iff the spec says public (nil means private). |
| ProjectController.Observe | internal/controller/project/project_controller.go:98-132 | Never an error: a lookup error is absence. Otherwise up to date iff Public is nil or equal; ID 1, repo count 0, creation time unless zero; details carry Harbor's name and ID "1". |
| ProjectController.Create | internal/controller/project/project_controller.go:134-166 | Succeeds iff the client does; errors wrapped. Details carry the created name and "1". |
| ProjectController.Update | internal/controller/project/project_controller.go:168-197 | Sends under the spec's name; update time is now unless Harbor reports the zero creation time; details carry Harbor's name. |
| ProjectController.Delete | internal/controller/project/project_controller.go:199-214 | Deletes by name; errors wrapped "cannot delete Harbor project". |
| ProjectController.OwnRequestUpToDate | internal/controller/project/project_controller.go:122 | A status echoing the request's visibility is never drift. |
| ProjectController.MockCreateThenObserve | internal/controller/project/project_controller.go:106-164 | Over the present client, Create and the next Observe publish the same details, and the project is up to date iff it was not asked to be public. |
| ProjectController.MockEmptyNameRefused | internal/controller/project/project_controller.go:106-151 | Over the present client, an empty name is never created and never found. |
| UserV1Beta1.SpecFor | internal/controller/user/user_controller.go:140-154 | Username and email as given; admin iff the flag is set true; password "mock-password" iff a secret is referenced. |
| UserV1Beta1.Observe | internal/controller/user/user_controller.go:95-129 | Never an error: a lookup error is absence. Otherwise up to date iff the email matches and a set admin flag matches; details carry Harbor's username and ID "1". |
| UserV1Beta1.Create | internal/controller/user/user_controller.go:131-174 | Succeeds iff the client does; errors wrapped "cannot create Harbor user"; details carry the created username. |
| UserV1Beta1.Update | internal/controller/user/user_controller.go:176-215 | Sends under the spec's username; errors wrapped; update time is now unless the creation time is zero. |
| UserV1Beta1.Delete | internal/controller/user/user_controller.go:217-232 | Deletes by username; errors wrapped "cannot delete Harbor user". |
| UserV1Beta1.OwnRequestUpToDate | internal/controller/user/user_controller.go:118-119 | A status echoing the request is never drift. |
| UserV1Beta1.RealnameAndCommentIgnored | internal/controller/user/user_controller.go:118-144 | Real name and comment change neither the request nor the drift verdict. |
| UserV1Beta1.CreateThenObserve | internal/controller/user/user_controller.go:103-172 | Against a Harbor that stores what it is sent, a created user is found up to date with the same details. |
| RegistryController.CredentialFor | internal/controller/registry/registry_controller.go:159-176 | Each credential field is copied only when set (empty otherwise); the secret is "mock-secret" iff referenced. |
| RegistryController.SpecFor | internal/controller/registry/registry_controller.go:145-176 | Name, type and URL as given; description as set; insecure iff set true; a credential iff the spec has one. |
| RegistryController.Observe | internal/controller/registry/registry_controller.go:95-134 | Never an error: a lookup error is absence. Otherwise up to date iff (either description nil or equal) and URL and type equal. Status "healthy"; non-zero times recorded; details carry the name and ID "1". |
| RegistryController.Create | internal/controller/registry/registry_controller.go:136-196 | Succeeds iff the client does; errors wrapped "cannot create Harbor registry"; details carry the created name and "1". |
| RegistryController.Update | internal/controller/registry/registry_controller.go:198-254 | Sends under the spec's name; errors wrapped; update time is now unless the creation time is zero. |
| RegistryController.Delete | internal/controller/registry/registry_controller.go:256-271 | Deletes by name; errors wrapped "cannot delete Harbor registry". |
| RegistryController.UnreportedDescriptionIgnored | internal/controller/registry/registry_controller.go:122-124 | Without a description from Harbor, drift is URL and type alone. |
| RegistryController.CredentialFieldsKept | internal/controller/registry/registry_controller.go:159-176 | The request's credential shows which fields the spec set. |
| RegistryController.CreateThenObserve | internal/controller/registry/registry_controller.go:103-195 | Against a Harbor that stores what it is sent, a created registry is found up to date and healthy, with the same details. |
| GoStrings.ParseFormatInt | internal/controller/user/native/client.go:91 | Round trip: `strconv.ParseInt(strconv.FormatInt(n))` gives back every 64-bit `n`. |
| GoStrings.ParseBool | internal/clients/harbor.go:164 | Accepts exactly "1", "t", "T", "TRUE", "true", "True" as true and "0", "f", "F", "FALSE", "false", "False" as false; anything else is ParseBool's syntax error. |

## Left out

- Logging, event recorders, poll intervals, rate limiting and every `Setup` function: wiring with no decision in it.
- The type check each Go method starts with (`mg.(*T)`): the model's functions take the right type.
- The Connect of the robot-account, native user and generated-password controllers: they call the Harbor SDK and the Kubernetes client, which are not part of this model.
- `crypto/rand`: the random bytes are an input. A pool shorter than the effective length stands for the read failing; the error text used is `unexpected EOF`.
- `json.Marshal` and `json.Unmarshal`: parameters that may fail.
- The Harbor SDK's own error texts are parameters: the text for an unknown user ID (`UserApi.notFoundText`) and for an unknown robot ID (`RobotApi.notFoundText`).
- Times are whole seconds. `metav1.Time` and its RFC 3339 text form are not modelled.
- The v1alpha1 Project's `projectId` is a float in the resource; the model stores the integer 1 it always holds.
- RobotController.RobotSpecFor: the duration is an exact real. The model does not show float64 rounding, or Go's implementation-defined result for a duration outside the `int64` range.
- UserClient.SearchUsers: Harbor's user search returns one page (ten users by default), and the client sets no page size. The model searches every stored user, so `GetUser` and `SearchKeepsExactMatches` assume the match is on the first page.
- RobotClient.GetRobotAccountByName: the robot list uses the SDK's default parameters, which return one page. The model scans every stored robot, so adoption by name assumes the robot is on that page.
- `ListProjects`, `ListScannerRegistrations`, `GetVersion`, `GetMemoryFootprint`, `TestConnection` and `Close` of the provider's client: fixed answers that no modelled controller uses.
- The user and registry calls of the provider's Harbor client (`GetUser`, `CreateUser`, `GetRegistry`, ...) and their `UserSpec`, `UserStatus`, `RegistrySpec` and `RegistryCredential` types are not part of this model. The v1beta1 user and registry controllers take them as parameters shaped by the fields those controllers use. The registry resource's fields are those of the v1alpha1 Registry type.
- The "cannot get password from secret" and "cannot get access secret" errors of the v1beta1 user and registry controllers cannot happen: the helpers they wrap always return a fixed text.
- The scanner, v1alpha1 project, v1beta1 user and registry controllers connect through the client's ProviderConfig reader and wrap its error. `HarborClient.ConnectWith` models that wrapping once for all four. The setup-project Connect reads the ProviderConfig itself, as `ProjectSetup.Connect` models.
- The `Creating` and `Deleting` conditions the v1alpha1 project, v1beta1 user and registry controllers set on the resource before calling Harbor: conditions and the rest of the Crossplane status machinery are not part of this model.
- Go `int64` overflow: IDs are unbounded integers, and the round-trip lemmas require a 64-bit range.

## Findings

| source | as written | input that shows it | evidently intended | confidence | as-written member | corrected member |
|---|---|---|---|---|---|---|
| internal/controller/robotaccount/native/controller.go:170-178 | With no external name, Observe adopts the robot whose Harbor name equals the spec name exactly. `isRobotAccountUpToDate` then requires Harbor's name to be `robot$<level>+<name>`, which no exactly-matching robot has. An adopted robot is therefore never up to date, and the Update it triggers always fails. | A spec with name `test-robot` and level `project`, where Harbor holds `robot$project+test-robot` with ID 123: that robot is not adopted. If Harbor holds `test-robot`, it is adopted but reported drifted. | Look the robot up by Harbor's full name `robot$<level>+<name>`, the name the controller's own up-to-date test returns for a lookup of `test-robot`. | not executed | RobotController.AdoptedNeverUpToDate | RobotController.ObserveIntended |

=== FILE: base64.dfy ===
/**
 The standard Base64 encoding with padding, as defined in section 4 of
 RFC 4648 (the alphabet of its Table 1, with '=' padding), over bytes.
 The encoder is what the provider uses to build a Docker `auth` value; the
 decoder is an independent reference definition that the encoder inverts.
 */
module Base64 {
  import opened Common

  /** The padding character '='. */
  const Pad: byte := 61

  /** Table 1 of RFC 4648: the character that stands for a six-bit value. */
  function Letter(i: int): (c: byte)
    requires 0 <= i < 64
  {
    if i < 26 then 65 + i          // 'A'..'Z'
    else if i < 52 then 97 + i - 26  // 'a'..'z'
    else if i < 62 then 48 + i - 52  // '0'..'9'
    else if i == 62 then 43          // '+'
    else 47                          // '/'
  }

  /** The characters of the alphabet (padding excluded). */
  predicate IsLetter(c: byte) {
    65 <= c <= 90 || 97 <= c <= 122 || 48 <= c <= 57 || c == 43 || c == 47
  }

  /** The six-bit value an alphabet character stands for. */
  function ValueOf(c: byte): (i: int)
    requires IsLetter(c)
    ensures 0 <= i < 64 && Letter(i) == c
  {
    if 65 <= c <= 90 then c - 65
    else if 97 <= c <= 122 then c - 97 + 26
    else if 48 <= c <= 57 then c - 48 + 52
    else if c == 43 then 62
    else 63
  }

  /** Every alphabet character stands for exactly one value, and the padding for none. */
  lemma LetterIsLetter(i: int)
    requires 0 <= i < 64
    ensures IsLetter(Letter(i)) && ValueOf(Letter(i)) == i
    ensures Letter(i) != Pad
  {
  }

  /** The four characters for three bytes. */
  function EncodeTriple(d0: byte, d1: byte, d2: byte): (q: seq<byte>)
    ensures |q| == 4
  {
    [Letter(d0 / 4), Letter(d0 % 4 * 16 + d1 / 16), Letter(d1 % 16 * 4 + d2 / 64), Letter(d2 % 64)]
  }

  /** The final group for two leftover bytes: three characters and one pad. */
  function EncodePair(d0: byte, d1: byte): (q: seq<byte>)
    ensures |q| == 4
  {
    [Letter(d0 / 4), Letter(d0 % 4 * 16 + d1 / 16), Letter(d1 % 16 * 4), Pad]
  }

  /** The final group for one leftover byte: two characters and two pads. */
  function EncodeSingle(d0: byte): (q: seq<byte>)
    ensures |q| == 4
  {
    [Letter(d0 / 4), Letter(d0 % 4 * 16), Pad, Pad]
  }

  /** A Base64 text: alphabet characters, with padding only in the last group. */
  predicate IsEncoding(e: seq<byte>) {
    |e| % 4 == 0
    && (forall i :: 0 <= i < |e| ==> IsLetter(e[i]) || e[i] == Pad)
    && (forall i :: 0 <= i < |e| - 4 ==> e[i] != Pad)
  }

  /** `base64.StdEncoding.EncodeToString`. */
  function Encode(b: seq<byte>): (e: seq<byte>)
    ensures |e| == 4 * ((|b| + 2) / 3)
    decreases |b|
  {
    if |b| == 0 then []
    else if |b| == 1 then EncodeSingle(b[0])
    else if |b| == 2 then EncodePair(b[0], b[1])
    else EncodeTriple(b[0], b[1], b[2]) + Encode(b[3..])
  }

  /** The characters of one encoded group are alphabet letters or padding. */
  lemma GroupCharacters(b: seq<byte>)
    requires 1 <= |b|
    ensures forall i :: 0 <= i < 4 ==> IsLetter(Encode(b)[i]) || Encode(b)[i] == Pad
    ensures |b| >= 3 ==> forall i :: 0 <= i < 4 ==> Encode(b)[i] != Pad
  {
    LetterIsLetter(b[0] / 4);
    if |b| == 1 {
      LetterIsLetter(b[0] % 4 * 16);
    } else {
      LetterIsLetter(b[0] % 4 * 16 + b[1] / 16);
      if |b| == 2 {
        LetterIsLetter(b[1] % 16 * 4);
      } else {
        LetterIsLetter(b[1] % 16 * 4 + b[2] / 64);
        LetterIsLetter(b[2] % 64);
      }
    }
  }

  /** A group without padding in front of a Base64 text is a Base64 text. */
  lemma PrependGroup(e: seq<byte>)
    requires |e| >= 4
    requires forall i :: 0 <= i < 4 ==> IsLetter(e[i])
    requires IsEncoding(e[4..])
    ensures IsEncoding(e)
  {
    forall i | 4 <= i < |e|
      ensures (IsLetter(e[i]) || e[i] == Pad) && (i < |e| - 4 ==> e[i] != Pad)
    {
      assert e[i] == e[4..][i - 4];
    }
  }

  /** An encoding is a Base64 text: alphabet characters, padding only in the last group. */
  lemma {:induction false} EncodeIsEncoding(b: seq<byte>)
    ensures IsEncoding(Encode(b))
    decreases |b|
  {
    if |b| >= 1 {
      GroupCharacters(b);
      if |b| >= 3 {
        EncodeIsEncoding(b[3..]);
        EncodeFront(b);
        PrependGroup(Encode(b));
      }
    }
  }

  /** Decodes one group of four characters into one, two or three bytes. */
  function DecodeGroup(q: seq<byte>, last: bool): (r: Option<seq<byte>>)
    requires |q| == 4
    ensures r.Some? ==> 1 <= |r.value| <= 3
  {
    if !IsLetter(q[0]) || !IsLetter(q[1]) then None
    else
      var i0, i1 := ValueOf(q[0]), ValueOf(q[1]);
      var d0 := i0 * 4 + i1 / 16;
      if last && q[2] == Pad && q[3] == Pad then Some([d0])
      else if !IsLetter(q[2]) then None
      else
        var i2 := ValueOf(q[2]);
        var d1 := i1 % 16 * 16 + i2 / 4;
        if last && q[3] == Pad then Some([d0, d1])
        else if !IsLetter(q[3]) then None
        else
          var i3 := ValueOf(q[3]);
          Some([d0, d1, i2 % 4 * 64 + i3])
  }

  /** The reference decoder: None for a text that is not a padded Base64 encoding. */
  function Decode(e: seq<byte>): (r: Option<seq<byte>>)
    decreases |e|
  {
    if |e| == 0 then Some([])
    else if |e| < 4 then None
    else
      match DecodeGroup(e[..4], |e| == 4)
      case None => None
      case Some(g) =>
        if |e| > 4 && |g| < 3 then None
        else
          match Decode(e[4..])
          case None => None
          case Some(rest) => Some(g + rest)
  }

  /** The six-bit values of three bytes put back together give the bytes. */
  lemma TripleValues(d0: byte, d1: byte, d2: byte)
    ensures var i1, i2 := d0 % 4 * 16 + d1 / 16, d1 % 16 * 4 + d2 / 64;
            d0 / 4 * 4 + i1 / 16 == d0 && i1 % 16 * 16 + i2 / 4 == d1 && i2 % 4 * 64 + d2 % 64 == d2
  {
  }

  lemma DecodeTriple(d0: byte, d1: byte, d2: byte, last: bool)
    ensures DecodeGroup(EncodeTriple(d0, d1, d2), last) == Some([d0, d1, d2])
  {
    var i0, i1, i2, i3 := d0 / 4, d0 % 4 * 16 + d1 / 16, d1 % 16 * 4 + d2 / 64, d2 % 64;
    var q := EncodeTriple(d0, d1, d2);
    LetterIsLetter(i0);
    LetterIsLetter(i1);
    LetterIsLetter(i2);
    LetterIsLetter(i3);
    assert q == [Letter(i0), Letter(i1), Letter(i2), Letter(i3)];
    assert ValueOf(q[0]) == i0 && ValueOf(q[1]) == i1 && ValueOf(q[2]) == i2 && ValueOf(q[3]) == i3;
    TripleValues(d0, d1, d2);
  }

  lemma DecodePair(d0: byte, d1: byte)
    ensures DecodeGroup(EncodePair(d0, d1), true) == Some([d0, d1])
  {
    LetterIsLetter(d0 / 4);
    LetterIsLetter(d0 % 4 * 16 + d1 / 16);
    LetterIsLetter(d1 % 16 * 4);
  }

  lemma DecodeSingle(d0: byte)
    ensures DecodeGroup(EncodeSingle(d0), true) == Some([d0])
  {
    LetterIsLetter(d0 / 4);
    LetterIsLetter(d0 % 4 * 16);
  }

  /** Decoding a text whose first group is full and whose remainder decodes. */
  lemma DecodeFront(e: seq<byte>, g: seq<byte>, r: seq<byte>)
    requires |e| >= 4 && |g| == 3
    requires DecodeGroup(e[..4], |e| == 4) == Some(g)
    requires Decode(e[4..]) == Some(r)
    ensures Decode(e) == Some(g + r)
  {
  }

  /** The encoding of three or more bytes: the group of the first three, then the encoding of the rest. */
  lemma EncodeFront(b: seq<byte>)
    requires |b| >= 3
    ensures |Encode(b)| >= 4
    ensures Encode(b)[..4] == EncodeTriple(b[0], b[1], b[2])
    ensures Encode(b)[4..] == Encode(b[3..])
  {
    assert Encode(b) == EncodeTriple(b[0], b[1], b[2]) + Encode(b[3..]);
  }

  /** Decoding a text that is one last group. */
  lemma DecodeLast(q: seq<byte>, g: seq<byte>)
    requires |q| == 4
    requires DecodeGroup(q, true) == Some(g)
    ensures Decode(q) == Some(g)
  {
    assert q[..4] == q;
    assert q[4..] == [];
    assert g + [] == g;
  }

  /** The round trip for one trailing byte. */
  lemma DecodeEncodeSingle(d0: byte)
    ensures Decode(Encode([d0])) == Some([d0])
  {
    assert Encode([d0]) == EncodeSingle(d0);
    DecodeSingle(d0);
    DecodeLast(EncodeSingle(d0), [d0]);
  }

  /** The round trip for two trailing bytes. */
  lemma DecodeEncodePair(d0: byte, d1: byte)
    ensures Decode(Encode([d0, d1])) == Some([d0, d1])
  {
    assert Encode([d0, d1]) == EncodePair(d0, d1);
    DecodePair(d0, d1);
    DecodeLast(EncodePair(d0, d1), [d0, d1]);
  }

  /** Three or more bytes are their first three followed by the rest. */
  lemma SplitFront(b: seq<byte>)
    requires |b| >= 3
    ensures b == [b[0], b[1], b[2]] + b[3..]
  {
  }

  /** One step of the round trip: a full first group in front of a rest that round-trips. */
  lemma DecodeEncodeStep(b: seq<byte>)
    requires |b| >= 3
    requires Decode(Encode(b[3..])) == Some(b[3..])
    ensures Decode(Encode(b)) == Some(b)
  {
    SplitFront(b);
    EncodeFront(b);
    DecodeTriple(b[0], b[1], b[2], |b| == 3);
    DecodeFront(Encode(b), [b[0], b[1], b[2]], b[3..]);
  }

  /** Round trip: decoding an encoding gives back the bytes. */
  lemma {:induction false} DecodeEncode(b: seq<byte>)
    ensures Decode(Encode(b)) == Some(b)
    decreases |b|
  {
    if |b| == 1 {
      DecodeEncodeSingle(b[0]);
      assert [b[0]] == b;
    } else if |b| == 2 {
      DecodeEncodePair(b[0], b[1]);
      assert [b[0], b[1]] == b;
    } else if |b| >= 3 {
      DecodeEncode(b[3..]);
      DecodeEncodeStep(b);
    }
  }

  /** Encoding is injective: different bytes never share an encoding. */
  lemma EncodeInjective(a: seq<byte>, b: seq<byte>)
    requires Encode(a) == Encode(b)
    ensures a == b
  {
    DecodeEncode(a);
    DecodeEncode(b);
  }
}

=== FILE: common.dfy ===
/**
 Shared shapes for the Harbor provider model: optional values (Go pointers),
 results carrying the Go error text, and the `errors.Wrap` message format.
 */
module Common {

  /** A Go `byte`. */
  type byte = b: int | 0 <= b < 256

  /** A Go pointer field: `None` is nil. */
  datatype Option<+T> = None | Some(value: T) {

    /** The dereferenced value, or the given default when nil. */
    function GetOr(default: T): T {
      match this
      case Some(v) => v
      case None => default
    }
  }

  /**
   A Go `(value, error)` pair. `Err` carries the error text; `Panic` stands
   for a nil-pointer dereference the Go code would crash on, naming the field.
   */
  datatype Result<+T> = Ok(value: T) | Err(msg: string) | Panic(field: string) {

    predicate IsFailure() {
      !Ok?
    }

    function PropagateFailure<U>(): Result<U>
      requires IsFailure()
    {
      if Err? then Err(msg) else Panic(field)
    }

    function Extract(): T
      requires Ok?
    {
      value
    }

    /** `errors.Wrap(err, context)`: prefixes an error's text; a panic stays a panic. */
    function Wrap(context: string): (r: Result<T>)
      ensures Ok? ==> r == this
      ensures Err? ==> r == Err(WrapMsg(context, msg))
      ensures Panic? ==> r == this
    {
      if Err? then Err(WrapMsg(context, msg)) else this
    }
  }

  /** The text `errors.Wrap` produces: the context, a colon and a space, then the cause. */
  function WrapMsg(context: string, cause: string): string {
    context + ": " + cause
  }

  /** A single-object read from a store: found, absent, or failed for another reason. */
  datatype Lookup<+T> = Found(value: T) | NotFound | Failed(msg: string)

  /** Reading a Go `map[string]string`: a missing key reads as the empty string. */
  function MapGet(m: map<string, string>, key: string): (v: string)
    ensures key in m ==> v == m[key]
    ensures key !in m ==> v == ""
  {
    if key in m then m[key] else ""
  }

  /** `ptrValue`: the string behind a pointer, or "" when nil. */
  function StringValue(p: Option<string>): (v: string)
    ensures p.Some? ==> v == p.value
    ensures p.None? ==> v == ""
  {
    p.GetOr("")
  }

  /** `getBoolValue` / `ptrValueBool`: the bool behind a pointer, or false when nil. */
  function BoolValue(p: Option<bool>): (v: bool)
    ensures v <==> p == Some(true)
  {
    p.GetOr(false)
  }

  /** Managed-resource connection details: secret key to value. */
  type ConnectionDetails = map<string, string>

  /** What an external client's Observe reports to the managed reconciler. */
  datatype Observation = Observation(resourceExists: bool, upToDate: bool, details: ConnectionDetails)

  /** The observation for a resource that does not exist. */
  const Absent: Observation := Observation(false, false, map[])
}

=== FILE: gostrings.dfy ===
/**
 The pieces of Go's `strings`, `strconv` and `fmt` packages the provider
 relies on: splitting on a separator, decimal formatting of 64-bit integers,
 the strict `strconv.ParseInt(s, 10, 64)` and the lenient `fmt.Sscanf(s, "%d")`,
 prefix and substring tests, and lower-casing.
 */
module GoStrings {
  import opened Common

  // ---------------------------------------------------------------------------
  // Splitting

  /**
   `strings.Split(s, sep)` for a one-character separator: the pieces between
   separators, so there is always at least one piece.
   */
  function Split(s: string, sep: char): (parts: seq<string>)
    ensures |parts| >= 1
  {
    SplitFrom(s, sep, "")
  }

  /** Splitting the rest of a string when `cur` is the piece collected so far. */
  function SplitFrom(s: string, sep: char, cur: string): (parts: seq<string>)
    ensures |parts| >= 1
    decreases |s|
  {
    if |s| == 0 then [cur]
    else if s[0] == sep then [cur] + SplitFrom(s[1..], sep, "")
    else SplitFrom(s[1..], sep, cur + [s[0]])
  }

  /** `strings.Join(parts, sep)`, the partner of `Split`. */
  function Join(parts: seq<string>, sep: char): string
    requires |parts| >= 1
    decreases |parts|
  {
    if |parts| == 1 then parts[0] else parts[0] + [sep] + Join(parts[1..], sep)
  }

  /** No piece of a split contains the separator. */
  lemma SplitPiecesHaveNoSep(s: string, sep: char)
    ensures forall i :: 0 <= i < |Split(s, sep)| ==> sep !in Split(s, sep)[i]
  {
    SplitFromPiecesHaveNoSep(s, sep, "");
  }

  lemma {:induction false} SplitFromPiecesHaveNoSep(s: string, sep: char, cur: string)
    requires sep !in cur
    ensures forall i :: 0 <= i < |SplitFrom(s, sep, cur)| ==> sep !in SplitFrom(s, sep, cur)[i]
    decreases |s|
  {
    if |s| > 0 {
      if s[0] == sep {
        SplitFromPiecesHaveNoSep(s[1..], sep, "");
      } else {
        assert sep !in cur + [s[0]];
        SplitFromPiecesHaveNoSep(s[1..], sep, cur + [s[0]]);
      }
    }
  }

  /** Joining the pieces of a split gives back the original string. */
  lemma JoinSplit(s: string, sep: char)
    ensures Join(Split(s, sep), sep) == s
  {
    JoinSplitFrom(s, sep, "");
  }

  lemma {:induction false} JoinSplitFrom(s: string, sep: char, cur: string)
    ensures Join(SplitFrom(s, sep, cur), sep) == cur + s
    decreases |s|
  {
    if |s| == 0 {
      assert cur + s == cur;
    } else if s[0] == sep {
      JoinSplitFrom(s[1..], sep, "");
      assert "" + s[1..] == s[1..];
      assert cur + s == cur + [sep] + s[1..];
    } else {
      JoinSplitFrom(s[1..], sep, cur + [s[0]]);
      assert cur + s == cur + [s[0]] + s[1..];
    }
  }

  /** A separator splits a string into the pieces of its two sides. */
  lemma SplitAroundSep(a: string, b: string, sep: char)
    ensures Split(a + [sep] + b, sep) == Split(a, sep) + Split(b, sep)
  {
    SplitFromAroundSep(a, b, sep, "");
  }

  lemma {:induction false} SplitFromAroundSep(a: string, b: string, sep: char, cur: string)
    ensures SplitFrom(a + [sep] + b, sep, cur) == SplitFrom(a, sep, cur) + SplitFrom(b, sep, "")
    decreases |a|
  {
    var s := a + [sep] + b;
    if |a| == 0 {
      assert s[1..] == b;
    } else {
      assert s[1..] == a[1..] + [sep] + b;
      if a[0] == sep {
        SplitFromAroundSep(a[1..], b, sep, "");
      } else {
        SplitFromAroundSep(a[1..], b, sep, cur + [a[0]]);
      }
    }
  }

  /** A string without the separator splits into itself alone. */
  lemma SplitNoSep(s: string, sep: char)
    requires sep !in s
    ensures Split(s, sep) == [s]
  {
    SplitFromNoSep(s, sep, "");
    assert "" + s == s;
  }

  lemma {:induction false} SplitFromNoSep(s: string, sep: char, cur: string)
    requires sep !in s
    ensures SplitFrom(s, sep, cur) == [cur + s]
    decreases |s|
  {
    if |s| == 0 {
      assert cur + s == cur;
    } else {
      assert sep !in s[1..];
      SplitFromNoSep(s[1..], sep, cur + [s[0]]);
      assert cur + [s[0]] + s[1..] == cur + s;
    }
  }

  /** The last piece after the final separator is the text that follows it. */
  lemma SplitLastAfterSep(a: string, b: string, sep: char)
    requires sep !in b
    ensures var parts := Split(a + [sep] + b, sep); parts[|parts| - 1] == b
  {
    SplitAroundSep(a, b, sep);
    SplitNoSep(b, sep);
  }

  // ---------------------------------------------------------------------------
  // Prefixes, substrings and case

  predicate HasPrefix(s: string, prefix: string) {
    |prefix| <= |s| && s[..|prefix|] == prefix
  }

  /** `strings.Contains`: `sub` occurs somewhere in `s` (the empty string occurs everywhere). */
  predicate Contains(s: string, sub: string)
    decreases |s|
  {
    HasPrefix(s, sub) || (|s| > 0 && Contains(s[1..], sub))
  }

  /** A string contains every string it is a prefix-extension or suffix-extension of. */
  lemma {:induction false} ContainsInfix(pre: string, sub: string, post: string)
    ensures Contains(pre + sub + post, sub)
    decreases |pre|
  {
    if |pre| == 0 {
      assert (pre + sub + post)[..|sub|] == sub;
    } else {
      ContainsInfix(pre[1..], sub, post);
      assert (pre + sub + post)[1..] == pre[1..] + sub + post;
    }
  }

  /** A string too short to hold `sub` does not contain it. */
  lemma {:induction false} ShortDoesNotContain(s: string, sub: string)
    requires |s| < |sub|
    ensures !Contains(s, sub)
    decreases |s|
  {
    if |s| > 0 {
      ShortDoesNotContain(s[1..], sub);
    }
  }

  function LowerChar(c: char): char {
    if 'A' <= c <= 'Z' then (c as int - 'A' as int + 'a' as int) as char else c
  }

  /** `strings.ToLower` on the ASCII letters; every other character is kept. */
  function ToLower(s: string): (r: string)
    ensures |r| == |s|
    ensures forall i :: 0 <= i < |s| ==> r[i] == LowerChar(s[i])
    ensures forall i :: 0 <= i < |s| ==> !('A' <= r[i] <= 'Z')
  {
    seq(|s|, i requires 0 <= i < |s| => LowerChar(s[i]))
  }

  /** Lower-casing works character by character, so it distributes over concatenation. */
  lemma ToLowerConcat(a: string, b: string)
    ensures ToLower(a + b) == ToLower(a) + ToLower(b)
  {
  }

  /** A string without upper-case ASCII letters is its own lower case. */
  lemma ToLowerNoUpper(s: string)
    requires forall i :: 0 <= i < |s| ==> !('A' <= s[i] <= 'Z')
    ensures ToLower(s) == s
  {
  }

  // ---------------------------------------------------------------------------
  // Decimal integers

  const MinInt64: int := -0x8000_0000_0000_0000
  const MaxInt64: int := 0x7FFF_FFFF_FFFF_FFFF

  /** The values a Go `int64` can hold. */
  predicate IsInt64(n: int) {
    MinInt64 <= n <= MaxInt64
  }

  predicate IsDigit(c: char) {
    '0' <= c <= '9'
  }

  predicate AllDigits(s: string) {
    forall i :: 0 <= i < |s| ==> IsDigit(s[i])
  }

  function DigitChar(d: int): (c: char)
    requires 0 <= d < 10
    ensures IsDigit(c)
  {
    ('0' as int + d) as char
  }

  function DigitValue(c: char): (d: int)
    requires IsDigit(c)
    ensures 0 <= d < 10
  {
    c as int - '0' as int
  }

  /** The decimal digits of a natural number, most significant first, no leading zeros. */
  function FormatNat(n: nat): (s: string)
    ensures |s| >= 1 && AllDigits(s)
    ensures |s| > 1 ==> s[0] != '0'
    decreases n
  {
    if n < 10 then [DigitChar(n)] else FormatNat(n / 10) + [DigitChar(n % 10)]
  }

  /** `strconv.FormatInt(n, 10)` and `fmt.Sprintf("%d", n)`: an optional minus sign, then the digits. */
  function FormatInt(n: int): (s: string)
    ensures |s| >= 1
    ensures n >= 0 ==> AllDigits(s)
    ensures n < 0 ==> s[0] == '-' && AllDigits(s[1..]) && |s| >= 2
  {
    if n < 0 then "-" + FormatNat(-n) else FormatNat(n)
  }

  /** The value of a run of decimal digits. */
  function DigitsValue(s: string): nat
    requires AllDigits(s)
    decreases |s|
  {
    if |s| == 0 then 0 else DigitsValue(s[..|s| - 1]) * 10 + DigitValue(s[|s| - 1])
  }

  lemma {:induction false} DigitsValueOfFormatNat(n: nat)
    ensures DigitsValue(FormatNat(n)) == n
    decreases n
  {
    if n >= 10 {
      DigitsValueOfFormatNat(n / 10);
      var s := FormatNat(n);
      assert s[..|s| - 1] == FormatNat(n / 10);
    }
  }

  /** Formatted integers never contain a slash. */
  lemma FormatIntHasNoSlash(n: int)
    ensures '/' !in FormatInt(n)
  {
  }

  /** Splits an optional leading sign off a numeral: (is it negative, the rest). */
  function SplitSign(s: string): (r: (bool, string))
    ensures |r.1| <= |s|
  {
    if |s| > 0 && (s[0] == '+' || s[0] == '-') then (s[0] == '-', s[1..]) else (false, s)
  }

  /** The value of a digit run under a sign. */
  function SignedValue(negative: bool, digits: string): int
    requires AllDigits(digits)
  {
    if negative then -(DigitsValue(digits) as int) else DigitsValue(digits)
  }

  /**
   `strconv.ParseInt(s, 10, 64)`: the whole string must be an optional sign
   followed by at least one decimal digit, and the value must fit in 64 bits.
   */
  function ParseInt(s: string): (r: Result<int>)
    ensures r.Ok? <==> |SplitSign(s).1| > 0 && AllDigits(SplitSign(s).1)
                       && IsInt64(SignedValue(SplitSign(s).0, SplitSign(s).1))
    ensures r.Ok? ==> IsInt64(r.value)
    ensures !r.Panic?
  {
    var (neg, body) := SplitSign(s);
    if |body| == 0 || !AllDigits(body) then
      Err("strconv.ParseInt: parsing \"" + s + "\": invalid syntax")
    else
      var v := SignedValue(neg, body);
      if IsInt64(v) then Ok(v) else Err("strconv.ParseInt: parsing \"" + s + "\": value out of range")
  }

  /** Round trip: parsing the decimal form of any 64-bit integer gives it back. */
  lemma ParseFormatInt(n: int)
    requires IsInt64(n)
    ensures ParseInt(FormatInt(n)) == Ok(n)
  {
    var s := FormatInt(n);
    if n < 0 {
      DigitsValueOfFormatNat(-n);
      assert SplitSign(s) == (true, FormatNat(-n));
    } else {
      DigitsValueOfFormatNat(n);
      assert SplitSign(s) == (false, FormatNat(n));
    }
  }

  /** The spellings `strconv.ParseBool` reads as true and as false. */
  const TrueWords: set<string> := {"1", "t", "T", "TRUE", "true", "True"}
  const FalseWords: set<string> := {"0", "f", "F", "FALSE", "false", "False"}

  /** `strconv.ParseBool`: one of twelve fixed spellings, anything else is a syntax error. */
  function ParseBool(s: string): (r: Result<bool>)
    ensures r == Ok(true) <==> s in TrueWords
    ensures r == Ok(false) <==> s in FalseWords
    ensures r.Err? <==> s !in TrueWords && s !in FalseWords
    ensures r.Err? ==> r.msg == "strconv.ParseBool: parsing \"" + s + "\": invalid syntax"
    ensures !r.Panic?
  {
    if s in TrueWords then Ok(true)
    else if s in FalseWords then Ok(false)
    else Err("strconv.ParseBool: parsing \"" + s + "\": invalid syntax")
  }

  /** `strconv.FormatBool`. */
  function FormatBool(b: bool): string {
    if b then "true" else "false"
  }

  /** Round trip: parsing a formatted boolean gives it back. */
  lemma ParseFormatBool(b: bool)
    ensures ParseBool(FormatBool(b)) == Ok(b)
  {
  }

  /** The empty string is not a number. */
  lemma ParseIntEmpty()
    ensures ParseInt("").Err?
  {
  }

  /** The characters `fmt`'s scanner skips before a number (Go's `isSpace`, less the newline it refuses). */
  predicate IsScanSpace(c: char) {
    c == ' ' || c == '\t' || c == '\r' || c == '\U{000B}' || c == '\U{000C}'
    || c == '\U{0085}' || c == '\U{00A0}' || c == '\U{1680}'
    || ('\U{2000}' <= c <= '\U{200A}') || c == '\U{2028}' || c == '\U{2029}'
    || c == '\U{202F}' || c == '\U{205F}' || c == '\U{3000}'
  }

  /** Drops the leading scanner spaces. */
  function SkipSpaces(s: string): (t: string)
    ensures |t| <= |s|
    ensures |t| > 0 ==> !IsScanSpace(t[0])
    ensures t == s[|s| - |t|..]
    decreases |s|
  {
    if |s| > 0 && IsScanSpace(s[0]) then SkipSpaces(s[1..]) else s
  }

  /** The length of the run of digits that starts the string. */
  function LeadingDigits(s: string): (n: nat)
    ensures n <= |s|
    ensures AllDigits(s[..n])
    ensures n < |s| ==> !IsDigit(s[n])
    decreases |s|
  {
    if |s| > 0 && IsDigit(s[0]) then
      var k := LeadingDigits(s[1..]);
      assert s[..k + 1] == [s[0]] + s[1..][..k];
      k + 1
    else 0
  }

  /**
   `fmt.Sscanf(s, "%d", &v)` into an `int64`: leading spaces are skipped, an
   optional sign and the longest run of digits are read, and whatever follows
   is ignored; the token must fit in 64 bits. `Sscanf` does not count a
   newline as space, so one before the number stops the scan.
   */
  function ScanInt(s: string): (r: Result<int>)
    ensures r.Ok? ==> IsInt64(r.value)
    ensures |SkipSpaces(s)| > 0 && SkipSpaces(s)[0] == '\n' ==> r == Err("unexpected newline")
    ensures !r.Panic?
  {
    var t := SkipSpaces(s);
    if |t| == 0 then Err("unexpected EOF")
    else if t[0] == '\n' then Err("unexpected newline")
    else
      var signLen := if t[0] == '+' || t[0] == '-' then 1 else 0;
      var body := t[signLen..];
      if |body| == 0 then Err("unexpected EOF")
      else
        var n := LeadingDigits(body);
        if n == 0 then Err("expected integer") else ParseInt(t[..signLen + n])
  }

  /** A string that starts with a digit or a sign starts with no scanner space. */
  lemma NoLeadingSpace(s: string)
    requires |s| > 0 && (IsDigit(s[0]) || s[0] == '-')
    ensures SkipSpaces(s) == s
  {
    var c := s[0];
    assert !IsScanSpace(c) by {
      assert '0' <= c <= '9' || c == '-';
    }
  }

  /** Sscanf reads a run of digits as the token, whatever non-digit text follows it. */
  lemma ScanDigits(d: string, rest: string)
    requires |d| > 0 && AllDigits(d)
    requires |rest| > 0 ==> !IsDigit(rest[0])
    ensures ScanInt(d + rest) == ParseInt(d)
  {
    var s := d + rest;
    assert s[0] == d[0];
    NoLeadingSpace(s);
    LeadingDigitsOfDigits(d, rest);
    assert s[..|d|] == d;
  }

  /** Sscanf reads a minus sign and a run of digits as the token, whatever non-digit text follows it. */
  lemma ScanNegativeDigits(d: string, rest: string)
    requires |d| > 0 && AllDigits(d)
    requires |rest| > 0 ==> !IsDigit(rest[0])
    ensures ScanInt("-" + d + rest) == ParseInt("-" + d)
  {
    var s := "-" + d + rest;
    NoLeadingSpace(s);
    assert s[1..] == d + rest;
    LeadingDigitsOfDigits(d, rest);
    assert s[..1 + |d|] == "-" + d;
  }

  /** Sscanf reads back every formatted 64-bit integer, whatever non-digit text follows it. */
  lemma ScanFormatInt(n: int, rest: string)
    requires IsInt64(n)
    requires |rest| > 0 ==> !IsDigit(rest[0])
    ensures ScanInt(FormatInt(n) + rest) == Ok(n)
  {
    ParseFormatInt(n);
    if n < 0 {
      ScanNegativeDigits(FormatNat(-n), rest);
    } else {
      ScanDigits(FormatNat(n), rest);
    }
  }

  lemma {:induction false} LeadingDigitsOfDigits(d: string, rest: string)
    requires AllDigits(d)
    requires |rest| > 0 ==> !IsDigit(rest[0])
    ensures LeadingDigits(d + rest) == |d|
    decreases |d|
  {
    if |d| > 0 {
      assert (d + rest)[1..] == d[1..] + rest;
      LeadingDigitsOfDigits(d[1..], rest);
    } else {
      assert d + rest == rest;
    }
  }

  /** Sscanf reads back every formatted 64-bit integer. */
  lemma ScanFormatIntExact(n: int)
    requires IsInt64(n)
    ensures ScanInt(FormatInt(n)) == Ok(n)
  {
    ScanFormatInt(n, "");
    assert FormatInt(n) + "" == FormatInt(n);
  }
}

=== FILE: harborclient.dfy ===
/**
 The provider's own Harbor client: configuration checks when a client is
 made, reading the configuration from a ProviderConfig's credentials, and
 the project and scanner-registration calls. Those calls do not reach
 Harbor yet: after checking their arguments they answer with responses
 shaped from the request, which is what is modelled here.

 The Harbor client set the configuration is handed to, the Kubernetes
 reads behind a ProviderConfig and the JSON decoder are parameters. Times
 are whole seconds, and the current time is a parameter.
 */
module HarborClient {
  import opened Common
  import opened GoStrings

  /** `HarborConfig`: where Harbor is and how to log in. */
  datatype HarborConfig = HarborConfig(url: string, username: string, password: string, insecure: bool)

  /** A client; the client set behind it is not modelled, only the configuration it was made with. */
  datatype Client = Client(config: HarborConfig)

  datatype ProjectSpec = ProjectSpec(name: string, public: bool)

  datatype ProjectStatus = ProjectStatus(name: string, public: bool, createdAt: int)

  datatype ScannerSpec = ScannerSpec(
    name: string,
    description: Option<string>,
    url: string,
    auth: Option<string>,
    accessCredential: Option<string>)

  datatype ScannerStatus = ScannerStatus(
    uuid: string,
    name: string,
    description: Option<string>,
    url: string,
    auth: Option<string>,
    accessCredential: Option<string>,
    createTime: int,
    updateTime: int)

  /** One day, in seconds. */
  const Day: int := 24 * 60 * 60

  /** Go's zero `time.Time` (January 1 of year 1, UTC), in seconds from the Unix epoch. */
  const ZeroTime: int := -62135596800

  /** The prefix of the identifier a registration is given. */
  const MockUuidPrefix: string := "mock-uuid-"

  // ---------------------------------------------------------------------------
  // Making a client

  /**
   `NewHarborClient`: a missing configuration, then an empty URL, username or
   password is refused, in that order; otherwise the client set is made from
   the same four settings, and its error is wrapped.
   */
  function NewHarborClient(config: Option<HarborConfig>, newClientSet: HarborConfig -> Option<string>): (r: Result<Client>)
    ensures config.None? ==> r == Err("config is required")
    ensures config.Some? && config.value.url == "" ==> r == Err("harbor URL is required")
    ensures config.Some? && config.value.url != "" && config.value.username == "" ==> r == Err("username is required")
    ensures config.Some? && config.value.url != "" && config.value.username != "" && config.value.password == "" ==>
              r == Err("password is required")
    ensures r.Ok? <==> config.Some? && config.value.url != "" && config.value.username != ""
                       && config.value.password != "" && newClientSet(config.value).None?
    ensures r.Ok? ==> r.value.config == config.value
    ensures !r.Panic?
  {
    if config.None? then Err("config is required")
    else
      var c := config.value;
      if c.url == "" then Err("harbor URL is required")
      else if c.username == "" then Err("username is required")
      else if c.password == "" then Err("password is required")
      else
        match newClientSet(c)
        case Some(m) => Err(WrapMsg("failed to create Harbor client set", m))
        case None => Ok(Client(c))
  }

  /** `GetBaseURL`. */
  function GetBaseURL(c: Client): (url: string)
    ensures url == c.config.url
  {
    c.config.url
  }

  /** A client made from a configuration reports that configuration's URL. */
  lemma BaseUrlOfNewClient(config: HarborConfig, newClientSet: HarborConfig -> Option<string>)
    requires NewHarborClient(Some(config), newClientSet).Ok?
    ensures GetBaseURL(NewHarborClient(Some(config), newClientSet).value) == config.url
    ensures config.url != "" && config.username != "" && config.password != ""
  {
  }

  /**
   What reading a ProviderConfig's credentials involves, each step's outcome
   given: the read of the ProviderConfig, usage tracking, credential
   extraction, and the JSON decoding of the extracted bytes.
   */
  datatype CredentialSource = CredentialSource(
    getFault: Option<string>,
    trackFault: Option<string>,
    credentials: Result<string>,
    unmarshal: string -> Result<map<string, string>>)

  /** The configuration a credentials map describes, before the insecure flag is read. */
  function ConfigFromCredentials(creds: map<string, string>): (c: HarborConfig)
    ensures c.url == MapGet(creds, "url") && c.username == MapGet(creds, "username")
    ensures c.password == MapGet(creds, "password") && !c.insecure
  {
    HarborConfig(MapGet(creds, "url"), MapGet(creds, "username"), MapGet(creds, "password"), false)
  }

  /**
   `NewHarborClientFromProviderConfig`: each step's failure is wrapped with
   its own context; the `insecure` entry is parsed with `strconv.ParseBool`
   only when present and non-empty.
   */
  function NewHarborClientFromProviderConfig(configRef: Option<string>, src: CredentialSource,
                                             newClientSet: HarborConfig -> Option<string>): (r: Result<Client>)
    ensures configRef.None? ==> r == Err("no providerConfigRef provided")
    ensures configRef.Some? && src.getFault.Some? ==> r == Err(WrapMsg("cannot get referenced ProviderConfig", src.getFault.value))
    ensures configRef.Some? && src.getFault.None? && src.trackFault.Some? ==>
              r == Err(WrapMsg("cannot track ProviderConfig usage", src.trackFault.value))
    ensures configRef.Some? && src.getFault.None? && src.trackFault.None? && src.credentials.Err? ==>
              r == Err(WrapMsg("cannot extract credentials", src.credentials.msg))
    ensures configRef.Some? && src.getFault.None? && src.trackFault.None? && src.credentials.Ok?
            && src.unmarshal(src.credentials.value).Err? ==>
              r == Err(WrapMsg("cannot unmarshal harbor credentials", src.unmarshal(src.credentials.value).msg))
    ensures configRef.Some? && src.getFault.None? && src.trackFault.None? && src.credentials.Ok?
            && src.unmarshal(src.credentials.value).Ok? ==>
              var flag := MapGet(src.unmarshal(src.credentials.value).value, "insecure");
              (flag != "" && ParseBool(flag).Err? ==> r == Err(WrapMsg("cannot parse insecure flag", ParseBool(flag).msg)))
              && (flag == "" || ParseBool(flag).Ok? ==>
                    r == NewHarborClient(Some(ConfigFromCredentials(src.unmarshal(src.credentials.value).value)
                                                .(insecure := flag in TrueWords)), newClientSet))
    ensures r.Ok? ==> configRef.Some? && src.getFault.None? && src.trackFault.None? && src.credentials.Ok?
                      && src.unmarshal(src.credentials.value).Ok?
    ensures r.Ok? ==>
              var creds := src.unmarshal(src.credentials.value).value;
              r.value.config.url == MapGet(creds, "url")
              && r.value.config.username == MapGet(creds, "username")
              && r.value.config.password == MapGet(creds, "password")
              && (r.value.config.insecure <==> MapGet(creds, "insecure") in TrueWords)
    ensures !r.Panic? || src.credentials.Panic? || (src.credentials.Ok? && src.unmarshal(src.credentials.value).Panic?)
  {
    if configRef.None? then Err("no providerConfigRef provided")
    else if src.getFault.Some? then Err(WrapMsg("cannot get referenced ProviderConfig", src.getFault.value))
    else if src.trackFault.Some? then Err(WrapMsg("cannot track ProviderConfig usage", src.trackFault.value))
    else
      match src.credentials
      case Err(m) => Err(WrapMsg("cannot extract credentials", m))
      case Panic(f) => Panic(f)
      case Ok(data) =>
        match src.unmarshal(data)
        case Err(m) => Err(WrapMsg("cannot unmarshal harbor credentials", m))
        case Panic(f) => Panic(f)
        case Ok(creds) =>
          var config := ConfigFromCredentials(creds);
          var flag := MapGet(creds, "insecure");
          if flag == "" then NewHarborClient(Some(config), newClientSet)
          else
            match ParseBool(flag)
            case Err(m) => Err(WrapMsg("cannot parse insecure flag", m))
            case Panic(f) => Panic(f)
            case Ok(insecure) => NewHarborClient(Some(config.(insecure := insecure)), newClientSet)
  }

  /**
   The `Connect` of the project, user, registry and scanner controllers: a
   client from the ProviderConfig, its failure wrapped once more with the
   controller's own context.
   */
  function ConnectWith(context: string, configRef: Option<string>, src: CredentialSource,
                       newClientSet: HarborConfig -> Option<string>): (r: Result<Client>)
    ensures r.Ok? <==> NewHarborClientFromProviderConfig(configRef, src, newClientSet).Ok?
    ensures r.Ok? ==> r == NewHarborClientFromProviderConfig(configRef, src, newClientSet)
    ensures r.Err? <==> NewHarborClientFromProviderConfig(configRef, src, newClientSet).Err?
    ensures r.Err? ==> r.msg == WrapMsg(context, NewHarborClientFromProviderConfig(configRef, src, newClientSet).msg)
  {
    NewHarborClientFromProviderConfig(configRef, src, newClientSet).Wrap(context)
  }

  /** A resource without a ProviderConfig reference is never connected, and the error says why. */
  lemma ConnectWithoutReference(context: string, src: CredentialSource, newClientSet: HarborConfig -> Option<string>)
    ensures ConnectWith(context, None, src, newClientSet) == Err(context + ": no providerConfigRef provided")
  {
  }

  /** An `insecure` entry that is not one of `strconv.ParseBool`'s spellings refuses the configuration. */
  lemma BadInsecureFlagRefused(configRef: Option<string>, src: CredentialSource, newClientSet: HarborConfig -> Option<string>)
    requires configRef.Some? && src.getFault.None? && src.trackFault.None? && src.credentials.Ok?
    requires src.unmarshal(src.credentials.value).Ok?
    requires var flag := MapGet(src.unmarshal(src.credentials.value).value, "insecure");
             flag != "" && flag !in TrueWords && flag !in FalseWords
    ensures NewHarborClientFromProviderConfig(configRef, src, newClientSet).Err?
    ensures NewHarborClientFromProviderConfig(configRef, src, newClientSet).msg ==
              WrapMsg("cannot parse insecure flag", "strconv.ParseBool: parsing \"" +
                      MapGet(src.unmarshal(src.credentials.value).value, "insecure") + "\": invalid syntax")
  {
  }

  // ---------------------------------------------------------------------------
  // Projects

  /** `CreateProject`: a missing spec, then an empty name, is refused; otherwise the spec comes back, created now. */
  function CreateProject(spec: Option<ProjectSpec>, now: int): (r: Result<ProjectStatus>)
    ensures spec.None? ==> r == Err("project spec is required")
    ensures spec.Some? && spec.value.name == "" ==> r == Err("project name is required")
    ensures r.Ok? <==> spec.Some? && spec.value.name != ""
    ensures r.Ok? ==> r.value.name == spec.value.name && r.value.public == spec.value.public && r.value.createdAt == now
  {
    if spec.None? then Err("project spec is required")
    else if spec.value.name == "" then Err("project name is required")
    else Ok(ProjectStatus(spec.value.name, spec.value.public, now))
  }

  /** `GetProject`: any non-empty name is a private project created a day ago. */
  function GetProject(name: string, now: int): (r: Result<ProjectStatus>)
    ensures r.Ok? <==> name != ""
    ensures r.Err? ==> r.msg == "project name is required"
    ensures r.Ok? ==> r.value.name == name && !r.value.public && r.value.createdAt == now - Day
  {
    if name == "" then Err("project name is required") else Ok(ProjectStatus(name, false, now - Day))
  }

  /** `UpdateProject`: the name argument (not the spec's) with the spec's visibility. */
  function UpdateProject(name: string, spec: Option<ProjectSpec>, now: int): (r: Result<ProjectStatus>)
    ensures name == "" ==> r == Err("project name is required")
    ensures name != "" && spec.None? ==> r == Err("project spec is required")
    ensures r.Ok? <==> name != "" && spec.Some?
    ensures r.Ok? ==> r.value.name == name && r.value.public == spec.value.public && r.value.createdAt == now - Day
  {
    if name == "" then Err("project name is required")
    else if spec.None? then Err("project spec is required")
    else Ok(ProjectStatus(name, spec.value.public, now - Day))
  }

  /** `DeleteProject`: succeeds for any non-empty name. */
  function DeleteProject(name: string): (r: Result<()>)
    ensures r.Ok? <==> name != ""
    ensures r.Err? ==> r.msg == "project name is required"
  {
    if name == "" then Err("project name is required") else Ok(())
  }

  /** Whatever visibility a project is created or updated with, reading it back reports it private. */
  lemma ProjectVisibilityNotKept(spec: ProjectSpec, now: int, later: int)
    requires CreateProject(Some(spec), now).Ok?
    ensures UpdateProject(spec.name, Some(spec), now).Ok?
    ensures GetProject(spec.name, later) == Ok(ProjectStatus(spec.name, false, later - Day))
    ensures spec.public ==> GetProject(spec.name, later).value.public != CreateProject(Some(spec), now).value.public
  {
  }

  /** The project calls of the Harbor client. */
  datatype ProjectService = ProjectService(
    get: string -> Result<ProjectStatus>,
    create: ProjectSpec -> Result<ProjectStatus>,
    update: (string, ProjectSpec) -> Result<ProjectStatus>,
    delete: string -> Result<()>)

  /** The client's present project calls, at time `now`. */
  function MockProjects(now: int): ProjectService {
    ProjectService(
      name => GetProject(name, now),
      spec => CreateProject(Some(spec), now),
      (name, spec) => UpdateProject(name, Some(spec), now),
      name => DeleteProject(name))
  }

  // ---------------------------------------------------------------------------
  // Scanner registrations

  /**
   `CreateScannerRegistration`: a missing spec, then an empty name, then an
   empty URL is refused; otherwise the spec comes back with an identifier
   made from its name.
   */
  function CreateScannerRegistration(spec: Option<ScannerSpec>, now: int): (r: Result<ScannerStatus>)
    ensures spec.None? ==> r == Err("scanner spec is required")
    ensures spec.Some? && spec.value.name == "" ==> r == Err("scanner name is required")
    ensures spec.Some? && spec.value.name != "" && spec.value.url == "" ==> r == Err("scanner URL is required")
    ensures r.Ok? <==> spec.Some? && spec.value.name != "" && spec.value.url != ""
    ensures r.Ok? ==> var s := spec.value;
                      r.value.uuid == MockUuidPrefix + s.name && r.value.name == s.name && r.value.url == s.url
                      && r.value.description == s.description && r.value.auth == s.auth
                      && r.value.accessCredential == s.accessCredential
                      && r.value.createTime == now && r.value.updateTime == now
  {
    if spec.None? then Err("scanner spec is required")
    else
      var s := spec.value;
      if s.name == "" then Err("scanner name is required")
      else if s.url == "" then Err("scanner URL is required")
      else Ok(ScannerStatus(MockUuidPrefix + s.name, s.name, s.description, s.url, s.auth, s.accessCredential, now, now))
  }

  /** The scanner every lookup reports. */
  const TrivyName: string := "Trivy Scanner"
  const TrivyDescription: string := "External Trivy vulnerability scanner"
  const TrivyUrl: string := "http://trivy.trivy.svc.cluster.local:4954"
  const TrivyAuth: string := "Bearer"

  /** `GetScannerRegistration`: any non-empty identifier names the same Trivy scanner, updated a day ago. */
  function GetScannerRegistration(id: string, now: int): (r: Result<ScannerStatus>)
    ensures r.Ok? <==> id != ""
    ensures r.Err? ==> r.msg == "scanner ID is required"
    ensures r.Ok? ==> r.value.uuid == MockUuidPrefix + id && r.value.name == TrivyName && r.value.url == TrivyUrl
                      && r.value.description == Some(TrivyDescription) && r.value.auth == Some(TrivyAuth)
                      && r.value.accessCredential.None?
                      && r.value.createTime == now - Day && r.value.updateTime == now - Day
  {
    if id == "" then Err("scanner ID is required")
    else Ok(ScannerStatus(MockUuidPrefix + id, TrivyName, Some(TrivyDescription), TrivyUrl, Some(TrivyAuth), None,
                          now - Day, now - Day))
  }

  /** `UpdateScannerRegistration`: the identifier argument with the spec's fields, updated now. */
  function UpdateScannerRegistration(id: string, spec: Option<ScannerSpec>, now: int): (r: Result<ScannerStatus>)
    ensures id == "" ==> r == Err("scanner ID is required")
    ensures id != "" && spec.None? ==> r == Err("scanner spec is required")
    ensures r.Ok? <==> id != "" && spec.Some?
    ensures r.Ok? ==> var s := spec.value;
                      r.value.uuid == id && r.value.name == s.name && r.value.url == s.url
                      && r.value.description == s.description && r.value.auth == s.auth
                      && r.value.accessCredential == s.accessCredential
                      && r.value.createTime == now - Day && r.value.updateTime == now
  {
    if id == "" then Err("scanner ID is required")
    else if spec.None? then Err("scanner spec is required")
    else
      var s := spec.value;
      Ok(ScannerStatus(id, s.name, s.description, s.url, s.auth, s.accessCredential, now - Day, now))
  }

  /** `DeleteScannerRegistration`: succeeds for any non-empty identifier. */
  function DeleteScannerRegistration(id: string): (r: Result<()>)
    ensures r.Ok? <==> id != ""
    ensures r.Err? ==> r.msg == "scanner ID is required"
  {
    if id == "" then Err("scanner ID is required") else Ok(())
  }

  /**
   The identifier a registration is created with is not the one a lookup by
   it reports: looking up "mock-uuid-<name>" answers "mock-uuid-mock-uuid-<name>".
   */
  lemma ScannerIdentifierNotStable(spec: ScannerSpec, now: int)
    requires CreateScannerRegistration(Some(spec), now).Ok?
    ensures var uuid := CreateScannerRegistration(Some(spec), now).value.uuid;
            GetScannerRegistration(uuid, now).value.uuid == MockUuidPrefix + uuid != uuid
  {
    var uuid := CreateScannerRegistration(Some(spec), now).value.uuid;
    assert |MockUuidPrefix + uuid| > |uuid|;
  }

  // ---------------------------------------------------------------------------
  // The calls as controllers see them

  /** The scanner calls of the Harbor client. */
  datatype ScannerService = ScannerService(
    get: string -> Result<ScannerStatus>,
    create: ScannerSpec -> Result<ScannerStatus>,
    update: (string, ScannerSpec) -> Result<ScannerStatus>,
    delete: string -> Result<()>)

  /** The client's present scanner calls, at time `now`. */
  function MockScanners(now: int): ScannerService {
    ScannerService(
      id => GetScannerRegistration(id, now),
      spec => CreateScannerRegistration(Some(spec), now),
      (id, spec) => UpdateScannerRegistration(id, Some(spec), now),
      id => DeleteScannerRegistration(id))
  }
}

=== FILE: kube.dfy ===
/**
 The slice of the Kubernetes API the controllers use: object metadata with
 owner references and labels, Secrets, and a store of one kind of object
 that answers `Get` with found / not found / failed and `Create` with
 success or an error. Objects are addressed by namespace and name.
 */
module Kube {
  import opened Common

  datatype ObjectKey = ObjectKey(namespace: string, name: string)

  /** A `metav1.OwnerReference`; `controller` stands for the `Controller` pointer being set to true. */
  datatype OwnerRef = OwnerRef(apiVersion: string, kind: string, name: string, uid: string, controller: bool)

  datatype Meta = Meta(name: string, namespace: string, owners: seq<OwnerRef>, labels: map<string, string>)

  /** A `corev1.Secret`; `data` maps each key to the text stored under it. */
  datatype Secret = Secret(meta: Meta, secretType: string, data: map<string, string>)

  const SecretTypeOpaque: string := "Opaque"

  /** A crossplane `SecretKeySelector`: a key within a named secret. */
  datatype SecretKeySelector = SecretKeySelector(name: string, namespace: string, key: string)

  /**
   The objects of one kind in the cluster. `getFaults` and `createFaults`
   name the keys whose read or write fails with an error other than
   not-found or already-exists (a permission error, an unreachable API server).
   */
  datatype Store<T> = Store(objects: map<ObjectKey, T>, getFaults: map<ObjectKey, string>, createFaults: map<ObjectKey, string>)

  /** `client.Get`: a failure, the stored object, or not found. */
  function Get<T>(s: Store<T>, key: ObjectKey): (r: Lookup<T>)
    ensures r.Failed? <==> key in s.getFaults
    ensures r.Found? <==> key !in s.getFaults && key in s.objects
    ensures r.Found? ==> r.value == s.objects[key]
  {
    if key in s.getFaults then Failed(s.getFaults[key])
    else if key in s.objects then Found(s.objects[key])
    else NotFound
  }

  /** `client.Create`: stores a new object; an existing key or a fault is an error and changes nothing. */
  function Create<T>(s: Store<T>, resource: string, key: ObjectKey, obj: T): (r: Result<Store<T>>)
    ensures r.Ok? <==> key !in s.createFaults && key !in s.objects
    ensures r.Ok? ==> r.value.objects == s.objects[key := obj]
    ensures r.Ok? ==> r.value.getFaults == s.getFaults && r.value.createFaults == s.createFaults
    ensures !r.Panic?
  {
    if key in s.createFaults then Err(s.createFaults[key])
    else if key in s.objects then Err(resource + " \"" + key.name + "\" already exists")
    else Ok(s.(objects := s.objects[key := obj]))
  }

  /** A store without faults. */
  predicate Healthy<T>(s: Store<T>) {
    s.getFaults == map[] && s.createFaults == map[]
  }

  /** After a successful create, a read of the same key finds the new object. */
  lemma GetAfterCreate<T>(s: Store<T>, resource: string, key: ObjectKey, obj: T)
    requires Create(s, resource, key, obj).Ok?
    requires key !in s.getFaults
    ensures Get(Create(s, resource, key, obj).value, key) == Found(obj)
  {
  }
}

=== FILE: project.dfy ===
/**
 The v1alpha1 Project controller: it observes a project by the name in its
 spec, reports drift only in visibility, and creates, updates and deletes
 through the provider's own Harbor client. Every project it sees is given
 the identifier 1 and a repository count of 0.

 The client's project calls are a parameter (`HarborClient.ProjectService`)
 and the current time is a parameter of Update.
 */
module ProjectController {
  import opened Common
  import HarborClient

  datatype ProjectParameters = ProjectParameters(name: string, public: Option<bool>)

  /** The status fields this controller writes. */
  datatype ProjectObservation = ProjectObservation(
    id: Option<int>,
    creationTime: Option<int>,
    updateTime: Option<int>,
    repoCount: Option<int>)

  datatype Project = Project(forProvider: ProjectParameters, atProvider: ProjectObservation)

  /** What Observe reports, with the resource as Observe leaves it. */
  datatype Observed = Observed(obs: Observation, cr: Project)

  /** What Create and Update report: the connection details, with the resource as they leave it. */
  datatype Written = Written(details: ConnectionDetails, cr: Project)

  /** The identifier every project is given. */
  const MockId: int := 1

  /** The published details: the project's name as Harbor reports it, and the identifier "1". */
  function Details(name: string): (d: ConnectionDetails)
    ensures d.Keys == {"project_name", "project_id"}
    ensures d["project_name"] == name && d["project_id"] == "1"
  {
    map["project_name" := name, "project_id" := "1"]
  }

  /** `upToDate`: only a set visibility that differs from Harbor's is drift. */
  predicate IsUpToDate(p: ProjectParameters, status: HarborClient.ProjectStatus) {
    p.public.None? || p.public.value == status.public
  }

  /** The request Create and Update send: the spec's name, and its visibility with private as the default. */
  function SpecFor(p: ProjectParameters): (s: HarborClient.ProjectSpec)
    ensures s.name == p.name
    ensures s.public <==> p.public == Some(true)
  {
    HarborClient.ProjectSpec(p.name, BoolValue(p.public))
  }

  /**
   `Observe`: any error from the lookup means the project does not exist;
   otherwise the identifier, the creation time (unless zero) and the
   repository count are recorded.
   */
  function Observe(cr: Project, svc: HarborClient.ProjectService): (r: Result<Observed>)
    ensures !r.Err?
    ensures svc.get(cr.forProvider.name).Err? ==> r == Ok(Observed(Absent, cr))
    ensures svc.get(cr.forProvider.name).Ok? ==>
              var status := svc.get(cr.forProvider.name).value;
              r.Ok? && r.value.obs.resourceExists
              && (r.value.obs.upToDate <==> IsUpToDate(cr.forProvider, status))
              && r.value.obs.details == Details(status.name)
              && r.value.cr.atProvider.id == Some(MockId) && r.value.cr.atProvider.repoCount == Some(0)
              && (status.createdAt != HarborClient.ZeroTime ==> r.value.cr.atProvider.creationTime == Some(status.createdAt))
              && (status.createdAt == HarborClient.ZeroTime ==> r.value.cr.atProvider.creationTime == cr.atProvider.creationTime)
              && r.value.cr.atProvider.updateTime == cr.atProvider.updateTime
    ensures r.Ok? ==> r.value.cr.forProvider == cr.forProvider
  {
    match svc.get(cr.forProvider.name)
    case Err(_) => Ok(Observed(Absent, cr))
    case Panic(f) => Panic(f)
    case Ok(status) =>
      var creationTime := if status.createdAt != HarborClient.ZeroTime then Some(status.createdAt) else cr.atProvider.creationTime;
      var seen := cr.atProvider.(id := Some(MockId), creationTime := creationTime, repoCount := Some(0));
      Ok(Observed(Observation(true, IsUpToDate(cr.forProvider, status), Details(status.name)), cr.(atProvider := seen)))
  }

  /** `Create`: the request is sent; the created project's name is published. */
  function Create(cr: Project, svc: HarborClient.ProjectService): (r: Result<Written>)
    ensures var sent := svc.create(SpecFor(cr.forProvider));
            (r.Ok? <==> sent.Ok?)
            && (sent.Err? ==> r == Err(WrapMsg("cannot create Harbor project", sent.msg)))
            && (sent.Ok? ==> r.value.details == Details(sent.value.name)
                             && r.value.cr.atProvider.id == Some(MockId)
                             && (sent.value.createdAt != HarborClient.ZeroTime ==>
                                   r.value.cr.atProvider.creationTime == Some(sent.value.createdAt)))
    ensures r.Ok? ==> r.value.cr.forProvider == cr.forProvider
  {
    match svc.create(SpecFor(cr.forProvider))
    case Err(m) => Err(WrapMsg("cannot create Harbor project", m))
    case Panic(f) => Panic(f)
    case Ok(status) =>
      var creationTime := if status.createdAt != HarborClient.ZeroTime then Some(status.createdAt) else cr.atProvider.creationTime;
      var written := cr.atProvider.(id := Some(MockId), creationTime := creationTime);
      Ok(Written(Details(status.name), cr.(atProvider := written)))
  }

  /** `Update`: the request is sent under the spec's name; the update time is now, unless Harbor reports no creation time. */
  function Update(cr: Project, svc: HarborClient.ProjectService, now: int): (r: Result<Written>)
    ensures var sent := svc.update(cr.forProvider.name, SpecFor(cr.forProvider));
            (r.Ok? <==> sent.Ok?)
            && (sent.Err? ==> r == Err(WrapMsg("cannot update Harbor project", sent.msg)))
            && (sent.Ok? ==> r.value.details == Details(sent.value.name)
                             && (sent.value.createdAt != HarborClient.ZeroTime ==> r.value.cr.atProvider.updateTime == Some(now))
                             && (sent.value.createdAt == HarborClient.ZeroTime ==>
                                   r.value.cr.atProvider.updateTime == cr.atProvider.updateTime))
    ensures r.Ok? ==> r.value.cr.forProvider == cr.forProvider
  {
    match svc.update(cr.forProvider.name, SpecFor(cr.forProvider))
    case Err(m) => Err(WrapMsg("cannot update Harbor project", m))
    case Panic(f) => Panic(f)
    case Ok(status) =>
      var updateTime := if status.createdAt != HarborClient.ZeroTime then Some(now) else cr.atProvider.updateTime;
      Ok(Written(Details(status.name), cr.(atProvider := cr.atProvider.(updateTime := updateTime))))
  }

  /** `Delete`. */
  function Delete(cr: Project, svc: HarborClient.ProjectService): (r: Result<()>)
    ensures var sent := svc.delete(cr.forProvider.name);
            (r.Ok? <==> sent.Ok?) && (sent.Err? ==> r == Err(WrapMsg("cannot delete Harbor project", sent.msg)))
  {
    match svc.delete(cr.forProvider.name)
    case Err(m) => Err(WrapMsg("cannot delete Harbor project", m))
    case Panic(f) => Panic(f)
    case Ok(_) => Ok(())
  }

  // ---------------------------------------------------------------------------
  // Properties

  /** Harbor echoing the request back is never drift: the visibility sent is the one compared. */
  lemma OwnRequestUpToDate(p: ProjectParameters, createdAt: int)
    ensures IsUpToDate(p, HarborClient.ProjectStatus(p.name, SpecFor(p).public, createdAt))
  {
  }

  /** An unset visibility is never drift, whatever Harbor reports. */
  lemma UnsetVisibilityUpToDate(p: ProjectParameters, status: HarborClient.ProjectStatus)
    requires p.public.None?
    ensures IsUpToDate(p, status)
    ensures !SpecFor(p).public
  {
  }

  /**
   Over the present client, a project with a name is created, then found,
   and both publish the same details; it is up to date exactly when it was
   not asked to be public.
   */
  lemma MockCreateThenObserve(cr: Project, now: int, later: int)
    requires cr.forProvider.name != ""
    ensures var made := Create(cr, HarborClient.MockProjects(now));
            var seen := Observe(made.value.cr, HarborClient.MockProjects(later));
            made.Ok? && seen.Ok? && seen.value.obs.resourceExists
            && made.value.details == seen.value.obs.details
            && made.value.details["project_name"] == cr.forProvider.name
            && (seen.value.obs.upToDate <==> cr.forProvider.public != Some(true))
  {
  }

  /** Over the present client, a project without a name is never created and never found. */
  lemma MockEmptyNameRefused(cr: Project, now: int)
    requires cr.forProvider.name == ""
    ensures Create(cr, HarborClient.MockProjects(now)) == Err(WrapMsg("cannot create Harbor project", "project name is required"))
    ensures Observe(cr, HarborClient.MockProjects(now)) == Ok(Observed(Absent, cr))
  {
  }
}

=== FILE: projectsetup.dfy ===
/**
 The Project controller registered by the provider's top-level setup: it
 connects with credentials read from a ProviderConfig, observes a project
 by the name in its spec, and creates, updates and deletes it through the
 provider's own Harbor client.

 The client's project calls are a parameter (`HarborClient.ProjectService`);
 `HarborClient.MockProjects` plugs in the client's present answers, and the
 lemmas at the end state what the controller does with them.
 */
module ProjectSetup {
  import opened Common
  import opened GoStrings
  import HarborClient

  /** The Project's parameters as this controller reads them. */
  datatype ProjectParameters = ProjectParameters(name: Option<string>, public: Option<bool>)

  /** The status fields this controller writes; `projectId` is a float in the resource, always 1 here. */
  datatype ProjectObservation = ProjectObservation(id: Option<string>, name: Option<string>, public: Option<bool>, projectId: Option<int>)

  datatype Project = Project(forProvider: ProjectParameters, atProvider: ProjectObservation)

  /** What Observe reports, with the resource as Observe leaves it. */
  datatype Observed = Observed(obs: Observation, cr: Project)

  // ---------------------------------------------------------------------------
  // Connecting

  /**
   The configuration `Connect` builds from the credentials: the three
   settings as given, and `insecure` only for the exact text "true".
   */
  function ConnectConfig(creds: map<string, string>): (c: HarborClient.HarborConfig)
    ensures c.url == MapGet(creds, "url") && c.username == MapGet(creds, "username")
    ensures c.password == MapGet(creds, "password")
    ensures c.insecure <==> MapGet(creds, "insecure") == "true"
  {
    HarborClient.HarborConfig(MapGet(creds, "url"), MapGet(creds, "username"), MapGet(creds, "password"),
                              MapGet(creds, "insecure") == "true")
  }

  /**
   `connector.Connect`: usage tracking, then the ProviderConfig read, then
   credential extraction and decoding, then the client; each failure
   wrapped with its own context.
   */
  function Connect(src: HarborClient.CredentialSource, newClientSet: HarborClient.HarborConfig -> Option<string>): (r: Result<HarborClient.Client>)
    ensures src.trackFault.Some? ==> r == Err(WrapMsg("cannot track ProviderConfig usage", src.trackFault.value))
    ensures src.trackFault.None? && src.getFault.Some? ==> r == Err(WrapMsg("cannot get ProviderConfig", src.getFault.value))
    ensures src.trackFault.None? && src.getFault.None? && src.credentials.Err? ==>
              r == Err(WrapMsg("cannot get credentials", src.credentials.msg))
    ensures src.trackFault.None? && src.getFault.None? && src.credentials.Ok?
            && src.unmarshal(src.credentials.value).Err? ==>
              r == Err(WrapMsg("cannot unmarshal credentials", src.unmarshal(src.credentials.value).msg))
    ensures src.trackFault.None? && src.getFault.None? && src.credentials.Ok?
            && src.unmarshal(src.credentials.value).Ok? ==>
              var made := HarborClient.NewHarborClient(Some(ConnectConfig(src.unmarshal(src.credentials.value).value)),
                                                       newClientSet);
              (made.Ok? ==> r == made)
              && (made.Err? ==> r == Err(WrapMsg("cannot create new Service", made.msg)))
    ensures r.Ok? ==> src.trackFault.None? && src.getFault.None? && src.credentials.Ok?
                      && src.unmarshal(src.credentials.value).Ok?
                      && r.value.config == ConnectConfig(src.unmarshal(src.credentials.value).value)
    ensures !r.Panic? || src.credentials.Panic? || (src.credentials.Ok? && src.unmarshal(src.credentials.value).Panic?)
  {
    if src.trackFault.Some? then Err(WrapMsg("cannot track ProviderConfig usage", src.trackFault.value))
    else if src.getFault.Some? then Err(WrapMsg("cannot get ProviderConfig", src.getFault.value))
    else
      match src.credentials
      case Err(m) => Err(WrapMsg("cannot get credentials", m))
      case Panic(f) => Panic(f)
      case Ok(data) =>
        match src.unmarshal(data)
        case Err(m) => Err(WrapMsg("cannot unmarshal credentials", m))
        case Panic(f) => Panic(f)
        case Ok(creds) =>
          match HarborClient.NewHarborClient(Some(ConnectConfig(creds)), newClientSet)
          case Err(m) => Err(WrapMsg("cannot create new Service", m))
          case Panic(f) => Panic(f)
          case Ok(c) => Ok(c)
  }

  /**
   This controller and the ProviderConfig reader of the Harbor client read
   the same `insecure` entry differently: only "true" counts here, while
   the client also accepts "1", "t", "T", "TRUE" and "True".
   */
  lemma InsecureReadingsDiffer(src: HarborClient.CredentialSource, newClientSet: HarborClient.HarborConfig -> Option<string>)
    requires src.trackFault.None? && src.getFault.None? && src.credentials.Ok?
    requires src.unmarshal(src.credentials.value).Ok?
    requires MapGet(src.unmarshal(src.credentials.value).value, "insecure") == "True"
    requires Connect(src, newClientSet).Ok?
    ensures !Connect(src, newClientSet).value.config.insecure
    ensures HarborClient.NewHarborClientFromProviderConfig(Some("default"), src, newClientSet).Ok? ==>
              HarborClient.NewHarborClientFromProviderConfig(Some("default"), src, newClientSet).value.config.insecure
  {
  }

  // ---------------------------------------------------------------------------
  // Controller

  /** `isUpToDate`: only a set visibility that differs from Harbor's is drift. */
  function IsUpToDate(p: ProjectParameters, status: HarborClient.ProjectStatus): (upToDate: bool)
    ensures upToDate <==> DriftedFields(p, status) == {}
    ensures p.public.None? ==> upToDate
  {
    p.public.None? || p.public.value == status.public
  }

  /** The spec fields whose set value disagrees with what Harbor reports. */
  function DriftedFields(p: ProjectParameters, status: HarborClient.ProjectStatus): set<string> {
    if p.public.Some? && p.public.value != status.public then {"public"} else {}
  }

  /** The status Observe records. */
  function StatusFor(name: string, status: HarborClient.ProjectStatus): (o: ProjectObservation)
    ensures o.id == Some(name) && o.name == Some(status.name) && o.public == Some(status.public)
    ensures o.projectId == Some(1)
  {
    ProjectObservation(Some(name), Some(status.name), Some(status.public), Some(1))
  }

  /**
   `Observe`: a missing name is an error; any error from the lookup means
   the project does not exist; otherwise the status is filled in.
   */
  function Observe(cr: Project, svc: HarborClient.ProjectService): (r: Result<Observed>)
    ensures cr.forProvider.name.None? ==> r == Err("project name is required")
    ensures cr.forProvider.name.Some? && svc.get(cr.forProvider.name.value).Err? ==> r == Ok(Observed(Absent, cr))
    ensures cr.forProvider.name.Some? && svc.get(cr.forProvider.name.value).Ok? ==>
              var status := svc.get(cr.forProvider.name.value).value;
              r == Ok(Observed(Observation(true, IsUpToDate(cr.forProvider, status), map[]),
                               cr.(atProvider := StatusFor(cr.forProvider.name.value, status))))
    ensures r.Ok? && r.value.obs.resourceExists ==> cr.forProvider.name.Some? && svc.get(cr.forProvider.name.value).Ok?
    ensures r.Ok? ==> r.value.cr.forProvider == cr.forProvider
  {
    if cr.forProvider.name.None? then Err("project name is required")
    else
      var name := cr.forProvider.name.value;
      match svc.get(name)
      case Err(_) => Ok(Observed(Absent, cr))
      case Panic(f) => Panic(f)
      case Ok(status) =>
        Ok(Observed(Observation(true, IsUpToDate(cr.forProvider, status), map[]), cr.(atProvider := StatusFor(name, status))))
  }

  /** The request Create and Update send: the spec's name, and its visibility with private as the default. */
  function SpecFor(p: ProjectParameters): (r: Result<HarborClient.ProjectSpec>)
    ensures p.name.None? ==> r.Panic?
    ensures p.name.Some? ==> r.Ok? && r.value.name == p.name.value && (r.value.public <==> p.public == Some(true))
  {
    if p.name.None? then Panic("Spec.ForProvider.Name")
    else Ok(HarborClient.ProjectSpec(p.name.value, BoolValue(p.public)))
  }

  /** `Create`. */
  function Create(cr: Project, svc: HarborClient.ProjectService): (r: Result<()>)
    ensures cr.forProvider.name.None? ==> r.Panic?
    ensures cr.forProvider.name.Some? ==>
              var sent := svc.create(SpecFor(cr.forProvider).value);
              (r.Ok? <==> sent.Ok?) && (sent.Err? ==> r == Err(WrapMsg("cannot create Harbor project", sent.msg)))
  {
    var spec :- SpecFor(cr.forProvider);
    match svc.create(spec)
    case Err(m) => Err(WrapMsg("cannot create Harbor project", m))
    case Panic(f) => Panic(f)
    case Ok(_) => Ok(())
  }

  /** `Update`: the same request, sent under the spec's name. */
  function Update(cr: Project, svc: HarborClient.ProjectService): (r: Result<()>)
    ensures cr.forProvider.name.None? ==> r.Panic?
    ensures cr.forProvider.name.Some? ==>
              var sent := svc.update(cr.forProvider.name.value, SpecFor(cr.forProvider).value);
              (r.Ok? <==> sent.Ok?) && (sent.Err? ==> r == Err(WrapMsg("cannot update Harbor project", sent.msg)))
  {
    var spec :- SpecFor(cr.forProvider);
    match svc.update(cr.forProvider.name.value, spec)
    case Err(m) => Err(WrapMsg("cannot update Harbor project", m))
    case Panic(f) => Panic(f)
    case Ok(_) => Ok(())
  }

  /** `Delete`. */
  function Delete(cr: Project, svc: HarborClient.ProjectService): (r: Result<()>)
    ensures cr.forProvider.name.None? ==> r.Panic?
    ensures cr.forProvider.name.Some? ==>
              var sent := svc.delete(cr.forProvider.name.value);
              (r.Ok? <==> sent.Ok?) && (sent.Err? ==> r == Err(WrapMsg("cannot delete Harbor project", sent.msg)))
  {
    if cr.forProvider.name.None? then Panic("Spec.ForProvider.Name")
    else
      match svc.delete(cr.forProvider.name.value)
      case Err(m) => Err(WrapMsg("cannot delete Harbor project", m))
      case Panic(f) => Panic(f)
      case Ok(_) => Ok(())
  }

  // ---------------------------------------------------------------------------
  // With the client's present answers

  /** Over the present client a named project exists exactly when its name is non-empty. */
  lemma MockObserveExists(cr: Project, now: int)
    requires cr.forProvider.name.Some?
    ensures Observe(cr, HarborClient.MockProjects(now)).Ok?
    ensures Observe(cr, HarborClient.MockProjects(now)).value.obs.resourceExists <==> cr.forProvider.name.value != ""
  {
  }

  /**
   Over the present client a public project never settles: Observe reports
   drift, Update succeeds, and the next Observe reports the same drift.
   */
  lemma MockPublicProjectNeverConverges(cr: Project, now: int, later: int)
    requires cr.forProvider.name.Some? && cr.forProvider.name.value != ""
    requires cr.forProvider.public == Some(true)
    ensures var seen := Observe(cr, HarborClient.MockProjects(now));
            seen.Ok? && seen.value.obs.resourceExists && !seen.value.obs.upToDate
            && Update(seen.value.cr, HarborClient.MockProjects(now)).Ok?
            && var again := Observe(seen.value.cr, HarborClient.MockProjects(later));
               again.Ok? && again.value.obs.resourceExists && !again.value.obs.upToDate
  {
  }

  /** A private or unset visibility is up to date as soon as the project is created. */
  lemma MockPrivateProjectSettles(cr: Project, now: int, later: int)
    requires cr.forProvider.name.Some? && cr.forProvider.name.value != ""
    requires cr.forProvider.public != Some(true)
    ensures Create(cr, HarborClient.MockProjects(now)).Ok?
    ensures var seen := Observe(cr, HarborClient.MockProjects(later)); seen.Ok? && seen.value.obs.upToDate
  {
  }
}

=== FILE: registry.dfy ===
/**
 The Registry controller: it observes a Harbor registry endpoint by the
 name in its spec, reports drift in description, URL and type, and
 creates, updates and deletes through the provider's Harbor client,
 attaching a credential built from whatever credential fields the spec
 sets. Every registry it sees is given the identifier 1 and the status
 "healthy".

 The client's registry calls, and the `RegistrySpec`, `RegistryCredential`
 and registry status types they exchange, are not part of the provider's
 Harbor client file; their shapes here are the fields this controller reads
 and writes, and the calls are a parameter (`RegistryService`). The
 resource's fields are those of the v1alpha1 Registry type. The access
 secret read from the referenced secret is the fixed text the controller
 supplies in place of a secret read.
 */
module RegistryController {
  import opened Common
  import Kube
  import HarborClient

  datatype CredentialParameters = CredentialParameters(
    credType: Option<string>,
    accessKey: Option<string>,
    accessSecretRef: Option<Kube.SecretKeySelector>)

  datatype RegistryParameters = RegistryParameters(
    name: string,
    description: Option<string>,
    registryType: string,
    url: string,
    insecure: Option<bool>,
    credential: Option<CredentialParameters>)

  /** The status fields this controller writes. */
  datatype RegistryObservation = RegistryObservation(
    id: Option<int>,
    creationTime: Option<int>,
    updateTime: Option<int>,
    status: Option<string>)

  datatype Registry = Registry(forProvider: RegistryParameters, atProvider: RegistryObservation)

  /** The credential a request carries; an unset field is empty. */
  datatype RegistryCredential = RegistryCredential(credType: string, accessKey: string, accessSecret: string)

  /** The request the client's registry calls take. */
  datatype RegistrySpec = RegistrySpec(
    name: string,
    registryType: string,
    url: string,
    description: Option<string>,
    insecure: bool,
    credential: Option<RegistryCredential>)

  /** What the client's registry calls answer. */
  datatype RegistryStatus = RegistryStatus(
    name: string,
    description: Option<string>,
    registryType: string,
    url: string,
    createdAt: int,
    updatedAt: int)

  /** The registry calls of the Harbor client. */
  datatype RegistryService = RegistryService(
    get: string -> Result<RegistryStatus>,
    create: RegistrySpec -> Result<RegistryStatus>,
    update: (string, RegistrySpec) -> Result<RegistryStatus>,
    delete: string -> Result<()>)

  /** What Observe reports, with the resource as Observe leaves it. */
  datatype Observed = Observed(obs: Observation, cr: Registry)

  /** What Create and Update report: the connection details, with the resource as they leave it. */
  datatype Written = Written(details: ConnectionDetails, cr: Registry)

  /** The identifier every registry is given. */
  const MockId: int := 1

  /** The status every observed registry is given. */
  const Healthy: string := "healthy"

  /** The access secret `getSecretFromRef` supplies for any reference. */
  const MockSecret: string := "mock-secret"

  /** The published details: the registry's name as Harbor reports it, and the identifier "1". */
  function Details(name: string): (d: ConnectionDetails)
    ensures d.Keys == {"registry_name", "registry_id"}
    ensures d["registry_name"] == name && d["registry_id"] == "1"
  {
    map["registry_name" := name, "registry_id" := "1"]
  }

  /**
   `upToDate`: URL and type must match; the description is compared only
   when both the spec and Harbor have one.
   */
  predicate IsUpToDate(p: RegistryParameters, status: RegistryStatus) {
    (p.description.None? || status.description.None? || p.description.value == status.description.value)
    && p.url == status.url
    && p.registryType == status.registryType
  }

  /** The credential a request carries: each field the spec sets, and the fixed secret when one is referenced. */
  function CredentialFor(c: CredentialParameters): (cred: RegistryCredential)
    ensures c.credType.Some? ==> cred.credType == c.credType.value
    ensures c.credType.None? ==> cred.credType == ""
    ensures c.accessKey.Some? ==> cred.accessKey == c.accessKey.value
    ensures c.accessKey.None? ==> cred.accessKey == ""
    ensures c.accessSecretRef.Some? ==> cred.accessSecret == MockSecret
    ensures c.accessSecretRef.None? ==> cred.accessSecret == ""
  {
    RegistryCredential(c.credType.GetOr(""), c.accessKey.GetOr(""),
                       if c.accessSecretRef.Some? then MockSecret else "")
  }

  /**
   The request Create and Update send: name, type and URL as given, the
   description when set, `insecure` with false as the default, and a
   credential only when the spec has one.
   */
  function SpecFor(p: RegistryParameters): (s: RegistrySpec)
    ensures s.name == p.name && s.registryType == p.registryType && s.url == p.url
    ensures s.description == p.description
    ensures s.insecure <==> p.insecure == Some(true)
    ensures s.credential.Some? <==> p.credential.Some?
    ensures p.credential.Some? ==> s.credential.value == CredentialFor(p.credential.value)
  {
    var credential := if p.credential.Some? then Some(CredentialFor(p.credential.value)) else None;
    RegistrySpec(p.name, p.registryType, p.url, p.description, BoolValue(p.insecure), credential)
  }

  /**
   `Observe`: any error from the lookup means the registry does not exist;
   otherwise the identifier, the creation and update times (unless zero)
   and the status "healthy" are recorded.
   */
  function Observe(cr: Registry, svc: RegistryService): (r: Result<Observed>)
    ensures !r.Err?
    ensures svc.get(cr.forProvider.name).Err? ==> r == Ok(Observed(Absent, cr))
    ensures svc.get(cr.forProvider.name).Ok? ==>
              var status := svc.get(cr.forProvider.name).value;
              r.Ok? && r.value.obs.resourceExists
              && (r.value.obs.upToDate <==> IsUpToDate(cr.forProvider, status))
              && r.value.obs.details == Details(status.name)
              && r.value.cr.atProvider.id == Some(MockId) && r.value.cr.atProvider.status == Some(Healthy)
              && (status.createdAt != HarborClient.ZeroTime ==> r.value.cr.atProvider.creationTime == Some(status.createdAt))
              && (status.createdAt == HarborClient.ZeroTime ==> r.value.cr.atProvider.creationTime == cr.atProvider.creationTime)
              && (status.updatedAt != HarborClient.ZeroTime ==> r.value.cr.atProvider.updateTime == Some(status.updatedAt))
              && (status.updatedAt == HarborClient.ZeroTime ==> r.value.cr.atProvider.updateTime == cr.atProvider.updateTime)
    ensures r.Ok? ==> r.value.cr.forProvider == cr.forProvider
  {
    match svc.get(cr.forProvider.name)
    case Err(_) => Ok(Observed(Absent, cr))
    case Panic(f) => Panic(f)
    case Ok(status) =>
      var creationTime := if status.createdAt != HarborClient.ZeroTime then Some(status.createdAt) else cr.atProvider.creationTime;
      var updateTime := if status.updatedAt != HarborClient.ZeroTime then Some(status.updatedAt) else cr.atProvider.updateTime;
      var seen := RegistryObservation(Some(MockId), creationTime, updateTime, Some(Healthy));
      Ok(Observed(Observation(true, IsUpToDate(cr.forProvider, status), Details(status.name)), cr.(atProvider := seen)))
  }

  /** `Create`: the request is sent; the created registry's name is published. */
  function Create(cr: Registry, svc: RegistryService): (r: Result<Written>)
    ensures var sent := svc.create(SpecFor(cr.forProvider));
            (r.Ok? <==> sent.Ok?)
            && (sent.Err? ==> r == Err(WrapMsg("cannot create Harbor registry", sent.msg)))
            && (sent.Ok? ==> r.value.details == Details(sent.value.name)
                             && r.value.cr.atProvider.id == Some(MockId)
                             && (sent.value.createdAt != HarborClient.ZeroTime ==>
                                   r.value.cr.atProvider.creationTime == Some(sent.value.createdAt)))
    ensures r.Ok? ==> r.value.cr.forProvider == cr.forProvider
  {
    match svc.create(SpecFor(cr.forProvider))
    case Err(m) => Err(WrapMsg("cannot create Harbor registry", m))
    case Panic(f) => Panic(f)
    case Ok(status) =>
      var creationTime := if status.createdAt != HarborClient.ZeroTime then Some(status.createdAt) else cr.atProvider.creationTime;
      var written := cr.atProvider.(id := Some(MockId), creationTime := creationTime);
      Ok(Written(Details(status.name), cr.(atProvider := written)))
  }

  /** `Update`: the request is sent under the spec's name; the update time is now, unless Harbor reports no creation time. */
  function Update(cr: Registry, svc: RegistryService, now: int): (r: Result<Written>)
    ensures var sent := svc.update(cr.forProvider.name, SpecFor(cr.forProvider));
            (r.Ok? <==> sent.Ok?)
            && (sent.Err? ==> r == Err(WrapMsg("cannot update Harbor registry", sent.msg)))
            && (sent.Ok? ==> r.value.details == Details(sent.value.name)
                             && (sent.value.createdAt != HarborClient.ZeroTime ==> r.value.cr.atProvider.updateTime == Some(now))
                             && (sent.value.createdAt == HarborClient.ZeroTime ==>
                                   r.value.cr.atProvider.updateTime == cr.atProvider.updateTime))
    ensures r.Ok? ==> r.value.cr.forProvider == cr.forProvider
  {
    match svc.update(cr.forProvider.name, SpecFor(cr.forProvider))
    case Err(m) => Err(WrapMsg("cannot update Harbor registry", m))
    case Panic(f) => Panic(f)
    case Ok(status) =>
      var updateTime := if status.createdAt != HarborClient.ZeroTime then Some(now) else cr.atProvider.updateTime;
      Ok(Written(Details(status.name), cr.(atProvider := cr.atProvider.(updateTime := updateTime))))
  }

  /** `Delete`. */
  function Delete(cr: Registry, svc: RegistryService): (r: Result<()>)
    ensures var sent := svc.delete(cr.forProvider.name);
            (r.Ok? <==> sent.Ok?) && (sent.Err? ==> r == Err(WrapMsg("cannot delete Harbor registry", sent.msg)))
  {
    match svc.delete(cr.forProvider.name)
    case Err(m) => Err(WrapMsg("cannot delete Harbor registry", m))
    case Panic(f) => Panic(f)
    case Ok(_) => Ok(())
  }

  // ---------------------------------------------------------------------------
  // Properties

  /** Harbor echoing the request back is never drift. */
  lemma OwnRequestUpToDate(p: RegistryParameters, createdAt: int, updatedAt: int)
    ensures var s := SpecFor(p);
            IsUpToDate(p, RegistryStatus(s.name, s.description, s.registryType, s.url, createdAt, updatedAt))
  {
  }

  /** What Harbor leaves out is never drift: a registry without a description matches on URL and type alone. */
  lemma UnreportedDescriptionIgnored(p: RegistryParameters, status: RegistryStatus)
    requires status.description.None?
    ensures IsUpToDate(p, status) <==> p.url == status.url && p.registryType == status.registryType
  {
  }

  /**
   The request's credential reveals exactly which credential fields the
   spec sets: a set type or key is non-empty in the request exactly when it
   was non-empty in the spec, and a secret is sent exactly when one is
   referenced.
   */
  lemma CredentialFieldsKept(c: CredentialParameters)
    ensures CredentialFor(c).accessSecret != "" <==> c.accessSecretRef.Some?
    ensures CredentialFor(c).credType != "" <==> c.credType.Some? && c.credType.value != ""
    ensures CredentialFor(c).accessKey != "" <==> c.accessKey.Some? && c.accessKey.value != ""
  {
  }

  /**
   Against a Harbor that stores what it is sent, a created registry is
   found up to date and publishes the details its creation published.
   */
  lemma CreateThenObserve(cr: Registry, svc: RegistryService)
    requires svc.create(SpecFor(cr.forProvider)).Ok?
    requires svc.get(cr.forProvider.name) == svc.create(SpecFor(cr.forProvider))
    requires var s := SpecFor(cr.forProvider); var st := svc.create(s).value;
             st.name == s.name && st.description == s.description && st.registryType == s.registryType && st.url == s.url
    ensures var made := Create(cr, svc);
            var seen := Observe(made.value.cr, svc);
            made.Ok? && seen.Ok? && seen.value.obs.resourceExists && seen.value.obs.upToDate
            && seen.value.obs.details == made.value.details
            && made.value.details["registry_name"] == cr.forProvider.name
            && seen.value.cr.atProvider.status == Some(Healthy)
  {
  }
}

=== FILE: robotclient.dfy ===
/**
 The robot-account client the native robot controller talks to: the request
 it builds for Harbor, the shaping of Harbor's answer, the lookups by ID and
 by name, and the `/robots/<id>` external-name format it parses.

 Harbor itself is a list of robots in the order its list endpoint returns
 them, plus an optional fault that makes every call fail; robot creation is
 Harbor's answer to the request, given as a function.
 */
module RobotClient {
  import opened Common
  import opened GoStrings

  /** A `models.Robot` as Harbor reports it. */
  datatype Robot = Robot(
    id: int,
    name: string,
    secret: string,
    level: string,
    description: string,
    disable: bool,
    expiresAt: int)

  datatype Access = Access(resource: string, action: string)

  datatype Permission = Permission(kind: string, namespace: string, access: seq<Access>)

  /** The client-side `RobotAccountSpec`. */
  datatype RobotAccountSpec = RobotAccountSpec(
    name: string,
    description: string,
    duration: int,
    level: string,
    permissions: seq<Permission>)

  /** The `models.RobotCreate` request body. */
  datatype RobotCreate = RobotCreate(
    name: string,
    description: string,
    duration: int,
    level: string,
    permissions: seq<Permission>)

  /** The `models.RobotCreated` payload of Harbor's create response. */
  datatype RobotCreated = RobotCreated(id: int, name: string, secret: string, expiresAt: int)

  /**
   Harbor's robot endpoints: the robots in list order, a fault every call
   hits, and the error text the SDK gives for a robot ID Harbor does not know.
   */
  datatype RobotApi = RobotApi(robots: seq<Robot>, fault: Option<string>, notFoundText: string)

  // ---------------------------------------------------------------------------
  // External name

  /** The external name the controller writes for a robot. */
  function ExternalNameFor(id: int): string {
    "/robots/" + FormatInt(id)
  }

  /**
   `ExtractRobotID`: the name must split on '/' into exactly three parts whose
   middle one is "robots"; the third is read with `fmt.Sscanf("%d")`.
   */
  function ExtractRobotID(externalName: string): (r: Result<int>)
    ensures r.Ok? ==> |Split(externalName, '/')| == 3 && Split(externalName, '/')[1] == "robots"
                      && ScanInt(Split(externalName, '/')[2]) == Ok(r.value)
    ensures (|Split(externalName, '/')| != 3 || Split(externalName, '/')[1] != "robots") ==>
              r == Err("invalid external name format: " + externalName)
    ensures |Split(externalName, '/')| == 3 && Split(externalName, '/')[1] == "robots"
            && ScanInt(Split(externalName, '/')[2]).Err? ==>
              r == Err(WrapMsg("failed to parse robot ID", ScanInt(Split(externalName, '/')[2]).msg))
    ensures !r.Panic?
  {
    var parts := Split(externalName, '/');
    if |parts| != 3 || parts[1] != "robots" then Err("invalid external name format: " + externalName)
    else ScanInt(parts[2]).Wrap("failed to parse robot ID")
  }

  /** A newline before the ID is refused, since `Sscanf` does not skip newlines. */
  lemma NewlineBeforeId()
    ensures ExtractRobotID("/robots/\n5") == Err(WrapMsg("failed to parse robot ID", "unexpected newline"))
  {
    var name := "/robots/\n5";
    assert name == "" + "/" + "robots" + "/" + "\n5";
    SplitPieces3("", "robots", "\n5");
    var parts := Split(name, '/');
    assert |parts| == 3 && parts[1] == "robots" && parts[2] == "\n5";
    NewlineScan();
    assert ExtractRobotID(name) == Err(WrapMsg("failed to parse robot ID", "unexpected newline"));
  }

  lemma NewlineScan()
    ensures ScanInt("\n5") == Err("unexpected newline")
  {
    assert !IsScanSpace('\n');
    assert SkipSpaces("\n5") == "\n5";
  }

  /** The external name of any 64-bit ID parses back to that ID. */
  lemma ExtractExternalName(id: int)
    requires IsInt64(id)
    ensures ExtractRobotID(ExternalNameFor(id)) == Ok(id)
  {
    var f := FormatInt(id);
    FormatIntHasNoSlash(id);
    SplitPieces3("", "robots", f);
    assert ExternalNameFor(id) == "" + "/" + "robots" + "/" + f;
    ScanFormatIntExact(id);
  }

  /** A name with two slashes around "robots" splits into its three pieces. */
  lemma SplitPieces3(a: string, b: string, c: string)
    requires '/' !in a && '/' !in b && '/' !in c
    ensures Split(a + "/" + b + "/" + c, '/') == [a, b, c]
  {
    SplitAroundSep(b, c, '/');
    SplitNoSep(b, '/');
    SplitNoSep(c, '/');
    assert a + "/" + b + "/" + c == a + ['/'] + (b + ['/'] + c);
    SplitAroundSep(a, b + ['/'] + c, '/');
    SplitNoSep(a, '/');
  }

  /**
   The parse is lenient: anything before the first slash is ignored, and so
   is whatever follows the digits, as long as it holds no slash.
   */
  lemma ExtractLenient(prefix: string, id: int, suffix: string)
    requires IsInt64(id)
    requires '/' !in prefix && '/' !in suffix
    requires |suffix| > 0 ==> !IsDigit(suffix[0])
    ensures ExtractRobotID(prefix + "/robots/" + FormatInt(id) + suffix) == Ok(id)
  {
    var f := FormatInt(id);
    FormatIntHasNoSlash(id);
    assert '/' !in f + suffix;
    SplitPieces3(prefix, "robots", f + suffix);
    var name := prefix + "/robots/" + f + suffix;
    assert name == prefix + "/" + "robots" + "/" + (f + suffix);
    var parts := Split(name, '/');
    assert |parts| == 3 && parts[1] == "robots" && parts[2] == f + suffix;
    ScanFormatInt(id, suffix);
    assert ScanInt(parts[2]) == Ok(id);
  }

  // ---------------------------------------------------------------------------
  // Client operations

  /** The request body: the spec's fields and permissions, unchanged and in order. */
  function RobotCreateFor(spec: RobotAccountSpec): (req: RobotCreate)
    ensures req.name == spec.name && req.level == spec.level && req.description == spec.description
    ensures req.duration == spec.duration
    ensures req.permissions == spec.permissions
  {
    RobotCreate(spec.name, spec.description, spec.duration, spec.level, spec.permissions)
  }

  /**
   `CreateRobotAccount`: sends the request and shapes the answer into a
   robot that takes ID, name, secret and expiry from Harbor, level and
   description from the spec, and is enabled.
   */
  function CreateRobotAccount(spec: RobotAccountSpec, harbor: RobotCreate -> Result<Option<RobotCreated>>): (r: Result<Robot>)
    ensures !r.Panic? || harbor(RobotCreateFor(spec)).Panic?
    ensures r.Ok? <==> harbor(RobotCreateFor(spec)).Ok? && harbor(RobotCreateFor(spec)).value.Some?
    ensures r.Ok? ==> var p := harbor(RobotCreateFor(spec)).value.value;
                      r.value == Robot(p.id, p.name, p.secret, spec.level, spec.description, false, p.expiresAt)
    ensures harbor(RobotCreateFor(spec)) == Ok(None) ==> r == Err("empty response from Harbor API")
  {
    match harbor(RobotCreateFor(spec))
    case Err(m) => Err(WrapMsg("failed to create robot account", m))
    case Panic(f) => Panic(f)
    case Ok(None) => Err("empty response from Harbor API")
    case Ok(Some(p)) => Ok(Robot(p.id, p.name, p.secret, spec.level, spec.description, false, p.expiresAt))
  }

  /** The position of the first robot satisfying a test, if any. */
  function FindFirst(robots: seq<Robot>, id: Option<int>, name: Option<string>): (i: int)
    ensures -1 <= i < |robots|
    ensures i >= 0 ==> Matches(robots[i], id, name)
    ensures forall k :: 0 <= k < (if i < 0 then |robots| else i) ==> !Matches(robots[k], id, name)
    decreases |robots|
  {
    if |robots| == 0 then -1
    else if Matches(robots[0], id, name) then 0
    else
      var k := FindFirst(robots[1..], id, name);
      if k < 0 then -1 else k + 1
  }

  predicate Matches(r: Robot, id: Option<int>, name: Option<string>) {
    (id.None? || r.id == id.value) && (name.None? || r.name == name.value)
  }

  /** `GetRobotAccount`: the robot with this ID. */
  function GetRobotAccount(api: RobotApi, id: int): (r: Result<Robot>)
    ensures r.Ok? <==> api.fault.None? && exists k :: 0 <= k < |api.robots| && api.robots[k].id == id
    ensures r.Ok? ==> r.value.id == id && r.value in api.robots
    ensures !r.Panic?
  {
    if api.fault.Some? then Err(WrapMsg("failed to get robot account", api.fault.value))
    else
      var k := FindFirst(api.robots, Some(id), None);
      if k < 0 then Err(WrapMsg("failed to get robot account", api.notFoundText)) else Ok(api.robots[k])
  }

  /** `GetRobotAccountByName`: the first robot in list order whose name is exactly `name`. */
  function GetRobotAccountByName(api: RobotApi, name: string): (r: Result<Robot>)
    ensures r.Ok? <==> api.fault.None? && exists k :: 0 <= k < |api.robots| && api.robots[k].name == name
    ensures r.Ok? ==> exists k :: 0 <= k < |api.robots| && api.robots[k] == r.value && r.value.name == name
                        && forall j :: 0 <= j < k ==> api.robots[j].name != name
    ensures api.fault.None? && r.Err? ==> r.msg == "robot account " + name + " not found"
    ensures !r.Panic?
  {
    if api.fault.Some? then Err(WrapMsg("failed to list robot accounts", api.fault.value))
    else
      var k := FindFirst(api.robots, None, Some(name));
      if k < 0 then Err("robot account " + name + " not found") else Ok(api.robots[k])
  }

  /** `UpdateRobotAccount`: Harbor cannot update robots, so this always fails. */
  function UpdateRobotAccount(id: int, spec: RobotAccountSpec): (r: Result<()>)
    ensures r == Err("robot account updates not supported by Harbor API")
  {
    Err("robot account updates not supported by Harbor API")
  }

  /** The robots left after removing every robot with this ID. */
  function Without(robots: seq<Robot>, id: int): (rest: seq<Robot>)
    ensures forall r :: r in rest <==> r in robots && r.id != id
    decreases |robots|
  {
    if |robots| == 0 then []
    else if robots[0].id == id then Without(robots[1..], id)
    else [robots[0]] + Without(robots[1..], id)
  }

  /** `DeleteRobotAccount`: removes the robot; an unknown ID is Harbor's not-found error. */
  function DeleteRobotAccount(api: RobotApi, id: int): (r: Result<RobotApi>)
    ensures r.Ok? <==> GetRobotAccount(api, id).Ok?
    ensures r.Ok? ==> r.value.fault == api.fault
                      && forall x :: x in r.value.robots <==> x in api.robots && x.id != id
    ensures !r.Panic?
  {
    if api.fault.Some? then Err(WrapMsg("failed to delete robot account", api.fault.value))
    else if FindFirst(api.robots, Some(id), None) < 0 then Err(WrapMsg("failed to delete robot account", api.notFoundText))
    else Ok(api.(robots := Without(api.robots, id)))
  }
}

=== FILE: robotconfig.dfy ===
/**
 The connection details the Terraform-based robot account resource
 publishes: the legacy `username`, `password` and `robot_id` entries, and,
 when both username and password are known, the pieces of a Docker
 registry login: the two values, their basic-auth token (Base64 of
 "username:password", section 4 of RFC 4648) and a Docker config JSON
 template for a placeholder registry.

 Terraform attribute values are Go strings, which are byte strings, so
 they are sequences of bytes here. The JSON encoder is a parameter.
 */
module RobotConfig {
  import opened Common
  import Base64

  /** A Terraform attribute value: a string, or anything else. */
  datatype AttrValue = Str(bytes: seq<byte>) | NonString

  /** The Docker config template's content, before JSON encoding. */
  datatype DockerConfig = DockerConfig(registry: string, username: seq<byte>, password: seq<byte>, auth: seq<byte>)

  /** The registry key of the template, for consumers to replace. */
  const RegistryPlaceholder: string := "REGISTRY_URL_PLACEHOLDER"

  /** The byte ':' between username and password in a basic-auth token. */
  const Colon: byte := 58

  /** Every key the details can hold. */
  const DetailKeys: set<string> :=
    {"username", "password", "robot_id", "docker-username", "docker-password", "docker-auth", "docker-config-template"}

  /** The keys that are present exactly when both username and password are. */
  const DockerKeys: set<string> := {"docker-username", "docker-password", "docker-auth", "docker-config-template"}

  /** An attribute read as a string: missing or non-string attributes read as empty. */
  function StringAttr(attrs: map<string, AttrValue>, key: string): (v: seq<byte>)
    ensures v != [] <==> key in attrs && attrs[key].Str? && attrs[key].bytes != []
    ensures v != [] ==> v == attrs[key].bytes
  {
    if key in attrs && attrs[key].Str? then attrs[key].bytes else []
  }

  /** The Docker `auth` value: Base64 of username, ':' and password. */
  function BasicAuth(username: seq<byte>, password: seq<byte>): (token: seq<byte>)
    ensures Base64.Decode(token) == Some(username + [Colon] + password)
  {
    Base64.DecodeEncode(username + [Colon] + password);
    Base64.Encode(username + [Colon] + password)
  }

  /** The legacy entries: each non-empty attribute under its own key. */
  function LegacyDetails(attrs: map<string, AttrValue>): (conn: map<string, seq<byte>>)
    ensures conn.Keys <= {"username", "password", "robot_id"}
    ensures "username" in conn <==> StringAttr(attrs, "full_name") != []
    ensures "password" in conn <==> StringAttr(attrs, "secret") != []
    ensures "robot_id" in conn <==> StringAttr(attrs, "robot_id") != []
    ensures "username" in conn ==> conn["username"] == StringAttr(attrs, "full_name")
    ensures "password" in conn ==> conn["password"] == StringAttr(attrs, "secret")
    ensures "robot_id" in conn ==> conn["robot_id"] == StringAttr(attrs, "robot_id")
  {
    var username := StringAttr(attrs, "full_name");
    var password := StringAttr(attrs, "secret");
    var robotId := StringAttr(attrs, "robot_id");
    var c0: map<string, seq<byte>> := map[];
    var c1 := if username != [] then c0["username" := username] else c0;
    var c2 := if password != [] then c1["password" := password] else c1;
    if robotId != [] then c2["robot_id" := robotId] else c2
  }

  /**
   `AdditionalConnectionDetailsFn`: the legacy entries, plus the Docker
   entries when both username and password are non-empty; a JSON encoding
   failure fails the whole call.
   */
  function AdditionalConnectionDetails(attrs: map<string, AttrValue>,
                                       marshal: DockerConfig -> Result<seq<byte>>): (r: Result<map<string, seq<byte>>>)
    ensures r.Ok? ==> r.value.Keys <= DetailKeys
    ensures var u := StringAttr(attrs, "full_name"); var p := StringAttr(attrs, "secret");
            var json := marshal(DockerConfig(RegistryPlaceholder, u, p, BasicAuth(u, p)));
            (r.Ok? <==> u == [] || p == [] || json.Ok?)
            && (u != [] && p != [] && json.Err? ==> r == Err("failed to marshal docker config JSON template: " + json.msg))
            && (r.Ok? ==> (forall k :: k in DockerKeys ==> (k in r.value <==> u != [] && p != []))
                          && (u != [] && p != [] ==>
                                r.value["docker-username"] == u && r.value["docker-password"] == p
                                && r.value["docker-auth"] == BasicAuth(u, p)
                                && r.value["docker-config-template"] == json.value))
    ensures r.Ok? ==> forall k :: k in r.value && k !in DockerKeys ==> k in LegacyDetails(attrs) && r.value[k] == LegacyDetails(attrs)[k]
    ensures r.Ok? ==> forall k :: k in LegacyDetails(attrs) ==> k in r.value
    ensures !r.Panic? || marshal(DockerConfig(RegistryPlaceholder, StringAttr(attrs, "full_name"), StringAttr(attrs, "secret"),
                                              BasicAuth(StringAttr(attrs, "full_name"), StringAttr(attrs, "secret")))).Panic?
  {
    var conn := LegacyDetails(attrs);
    var username := StringAttr(attrs, "full_name");
    var password := StringAttr(attrs, "secret");
    if username == [] || password == [] then Ok(conn)
    else
      var auth := BasicAuth(username, password);
      match marshal(DockerConfig(RegistryPlaceholder, username, password, auth))
      case Err(m) => Err("failed to marshal docker config JSON template: " + m)
      case Panic(f) => Panic(f)
      case Ok(json) =>
        Ok(conn["docker-username" := username]["docker-password" := password]["docker-auth" := auth]
               ["docker-config-template" := json])
  }

  /**
   The published `docker-auth` decodes to the published username and
   password joined by ':', which is what a registry login needs.
   */
  lemma DockerAuthDecodes(attrs: map<string, AttrValue>, marshal: DockerConfig -> Result<seq<byte>>)
    requires AdditionalConnectionDetails(attrs, marshal).Ok?
    requires "docker-auth" in AdditionalConnectionDetails(attrs, marshal).value
    ensures var conn := AdditionalConnectionDetails(attrs, marshal).value;
            Base64.Decode(conn["docker-auth"]) == Some(conn["docker-username"] + [Colon] + conn["docker-password"])
            && conn["docker-username"] == conn["username"] && conn["docker-password"] == conn["password"]
  {
  }

  /** Different credentials never share a basic-auth token. */
  lemma BasicAuthInjective(u1: seq<byte>, p1: seq<byte>, u2: seq<byte>, p2: seq<byte>)
    requires Colon !in u1 && Colon !in u2
    requires BasicAuth(u1, p1) == BasicAuth(u2, p2)
    ensures u1 == u2 && p1 == p2
  {
    var a := u1 + [Colon] + p1;
    var b := u2 + [Colon] + p2;
    assert Base64.Decode(BasicAuth(u1, p1)) == Some(a);
    assert a == b;
    ColonSplit(u1, p1, u2, p2);
  }

  /** A username without ':' is recovered from "username:password" as the part before the first ':'. */
  lemma {:induction false} ColonSplit(u1: seq<byte>, p1: seq<byte>, u2: seq<byte>, p2: seq<byte>)
    requires Colon !in u1 && Colon !in u2
    requires u1 + [Colon] + p1 == u2 + [Colon] + p2
    ensures u1 == u2 && p1 == p2
    decreases |u1|
  {
    if |u1| == 0 || |u2| == 0 {
      assert (u1 + [Colon] + p1)[0] == (u2 + [Colon] + p2)[0];
      if |u1| == 0 && |u2| == 0 {
        assert p1 == (u1 + [Colon] + p1)[1..];
        assert p2 == (u2 + [Colon] + p2)[1..];
      } else if |u1| == 0 {
        assert false;
      } else {
        assert false;
      }
    } else {
      assert u1[0] == u2[0] by {
        assert (u1 + [Colon] + p1)[0] == (u2 + [Colon] + p2)[0];
      }
      assert u1[1..] + [Colon] + p1 == (u1 + [Colon] + p1)[1..];
      assert u2[1..] + [Colon] + p2 == (u2 + [Colon] + p2)[1..];
      ColonSplit(u1[1..], p1, u2[1..], p2);
      assert u1 == [u1[0]] + u1[1..];
      assert u2 == [u2[0]] + u2[1..];
    }
  }

  /** Without a username or a password no Docker entry is published, and the encoder is never consulted. */
  lemma NoDockerWithoutBoth(attrs: map<string, AttrValue>, m1: DockerConfig -> Result<seq<byte>>,
                            m2: DockerConfig -> Result<seq<byte>>)
    requires StringAttr(attrs, "full_name") == [] || StringAttr(attrs, "secret") == []
    ensures AdditionalConnectionDetails(attrs, m1) == AdditionalConnectionDetails(attrs, m2) == Ok(LegacyDetails(attrs))
  {
  }
}

=== FILE: robotcontroller.dfy ===
/**
 The native RobotAccount controller. A robot's identity in Kubernetes is the
 external name `/robots/<id>`; with no external name the controller adopts a
 robot by name. Harbor cannot update robots, so Update always fails; Delete
 without an external name has nothing to delete.
 */
module RobotController {
  import opened Common
  import opened GoStrings
  import opened RobotClient

  datatype AccessParameters = AccessParameters(resource: Option<string>, action: Option<string>)

  datatype PermissionsParameters = PermissionsParameters(
    kind: Option<string>,
    namespace: Option<string>,
    access: seq<AccessParameters>)

  /**
   The desired state; `duration` is the number of days, -1 for never
   expiring, held as a float in the resource.
   */
  datatype RobotAccountParameters = RobotAccountParameters(
    name: Option<string>,
    description: Option<string>,
    duration: Option<real>,
    level: Option<string>,
    permissions: seq<PermissionsParameters>)

  datatype RobotAccountObservation = RobotAccountObservation(
    id: Option<string>,
    fullName: Option<string>,
    robotId: Option<string>,
    disable: Option<bool>,
    level: Option<string>)

  /** A RobotAccount managed resource: its external-name annotation, spec and status. */
  datatype RobotAccount = RobotAccount(
    externalName: string,
    forProvider: RobotAccountParameters,
    atProvider: RobotAccountObservation)

  /** What Observe reports, with the resource as Observe leaves it. */
  datatype Observed = Observed(obs: Observation, cr: RobotAccount)

  /** What Create returns, with the resource as Create leaves it. */
  datatype Created = Created(cr: RobotAccount, details: ConnectionDetails)

  const DefaultDescription: string := ""
  const DefaultDuration: real := -1.0
  const DefaultLevel: string := "project"

  // ---------------------------------------------------------------------------
  // Helpers

  /** The converted permission carries the same kind, namespace and access entries, in order. */
  predicate Converts(p: PermissionsParameters, q: Permission) {
    p.kind == Some(q.kind) && p.namespace == Some(q.namespace)
    && |q.access| == |p.access|
    && forall j :: 0 <= j < |p.access| ==>
         p.access[j].resource == Some(q.access[j].resource) && p.access[j].action == Some(q.access[j].action)
  }

  /** A permission whose every field is set, so converting it does not dereference nil. */
  predicate Complete(p: PermissionsParameters) {
    p.kind.Some? && p.namespace.Some?
    && forall j :: 0 <= j < |p.access| ==> p.access[j].resource.Some? && p.access[j].action.Some?
  }

  function ConvertAccess(a: seq<AccessParameters>): (r: Result<seq<Access>>)
    ensures !r.Err?
    ensures r.Ok? <==> forall j :: 0 <= j < |a| ==> a[j].resource.Some? && a[j].action.Some?
    ensures r.Ok? ==> |r.value| == |a|
                      && forall j :: 0 <= j < |a| ==>
                           a[j].resource == Some(r.value[j].resource) && a[j].action == Some(r.value[j].action)
    decreases |a|
  {
    if |a| == 0 then Ok([])
    else if a[0].resource.None? then Panic("Resource")
    else if a[0].action.None? then Panic("Action")
    else
      match ConvertAccess(a[1..])
      case Ok(rest) => Ok([Access(a[0].resource.value, a[0].action.value)] + rest)
      case Err(m) => Err(m)
      case Panic(f) => Panic(f)
  }

  function ConvertPermission(p: PermissionsParameters): (r: Result<Permission>)
    ensures !r.Err?
    ensures r.Ok? <==> Complete(p)
    ensures r.Ok? ==> Converts(p, r.value)
  {
    match ConvertAccess(p.access)
    case Ok(access) =>
      if p.kind.None? then Panic("Kind")
      else if p.namespace.None? then Panic("Namespace")
      else Ok(Permission(p.kind.value, p.namespace.value, access))
    case Err(m) => Err(m)
    case Panic(f) => Panic(f)
  }

  /**
   `convertPermissions`: the same number of permissions, in the same order,
   each with its access entries in order; a nil field is a nil dereference.
   */
  function ConvertPermissions(perms: seq<PermissionsParameters>): (r: Result<seq<Permission>>)
    ensures !r.Err?
    ensures r.Ok? <==> forall i :: 0 <= i < |perms| ==> Complete(perms[i])
    ensures r.Ok? ==> |r.value| == |perms| && forall i :: 0 <= i < |perms| ==> Converts(perms[i], r.value[i])
    decreases |perms|
  {
    if |perms| == 0 then Ok([])
    else
      match ConvertPermission(perms[0])
      case Panic(f) => Panic(f)
      case Err(m) => Err(m)
      case Ok(p) =>
        match ConvertPermissions(perms[1..])
        case Ok(rest) => Ok([p] + rest)
        case Err(m) => Err(m)
        case Panic(f) => Panic(f)
  }

  /** Go's `int64(x)` on a float: the fraction is dropped, rounding toward zero. */
  function TruncateToInt(x: real): (t: int)
    ensures 0.0 <= x ==> 0 <= t && t as real <= x < t as real + 1.0
    ensures x < 0.0 ==> t <= 0 && t as real - 1.0 < x <= t as real
  {
    if x >= 0.0 then x.Floor else -((-x).Floor)
  }

  /** The client spec Create sends: the defaults fill in a nil description, duration and level. */
  function RobotSpecFor(fp: RobotAccountParameters): (r: Result<RobotAccountSpec>)
    ensures !r.Err?
    ensures fp.name.None? ==> r.Panic?
    ensures r.Ok? <==> fp.name.Some? && ConvertPermissions(fp.permissions).Ok?
    ensures r.Ok? ==> r.value.name == fp.name.value
                      && r.value.description == fp.description.GetOr(DefaultDescription)
                      && r.value.duration == TruncateToInt(fp.duration.GetOr(DefaultDuration))
                      && r.value.level == fp.level.GetOr(DefaultLevel)
                      && r.value.permissions == ConvertPermissions(fp.permissions).value
    ensures fp.description.None? && r.Ok? ==> r.value.description == ""
    ensures fp.duration.None? && r.Ok? ==> r.value.duration == -1
    ensures fp.level.None? && r.Ok? ==> r.value.level == "project"
  {
    if fp.name.None? then Panic("Name")
    else
      match ConvertPermissions(fp.permissions)
      case Ok(perms) =>
        Ok(RobotAccountSpec(fp.name.value, fp.description.GetOr(DefaultDescription),
                            TruncateToInt(fp.duration.GetOr(DefaultDuration)), fp.level.GetOr(DefaultLevel), perms))
      case Err(m) => Err(m)
      case Panic(f) => Panic(f)
  }

  /** A fractional duration loses its fraction toward zero: 1.5 days become 1, -1.5 become -1. */
  lemma DurationTruncatesTowardZero(fp: RobotAccountParameters)
    requires RobotSpecFor(fp).Ok?
    ensures RobotSpecFor(fp.(duration := Some(1.5))).value.duration == 1
    ensures RobotSpecFor(fp.(duration := Some(-1.5))).value.duration == -1
  {
  }

  /** The full name Harbor gives a robot: `robot$<level>+<name>`, or `robot$<name>` without a level. */
  function ExpectedRobotName(name: string, level: Option<string>): (full: string)
    ensures |full| > |name|
    ensures full[|full| - |name|..] == name
  {
    (if level.Some? then "robot$" + level.value + "+" else "robot$") + name
  }

  /**
   `isRobotAccountUpToDate`: a set name must match Harbor's full name and a
   set level must match the robot's level; nothing else is compared.
   */
  function IsRobotAccountUpToDate(fp: RobotAccountParameters, robot: Robot): (b: bool)
    ensures b <==> (fp.name.None? || robot.name == ExpectedRobotName(fp.name.value, fp.level))
                   && (fp.level.None? || fp.level.value == robot.level)
  {
    var nameOk :=
      if fp.name.None? then true
      else
        var prefix := if fp.level.Some? then "robot$" + fp.level.value + "+" else "robot$";
        HasPrefix(robot.name, prefix) && robot.name == prefix + fp.name.value;
    nameOk && (fp.level.None? || fp.level.value == robot.level)
  }

  /** The status Observe records for a robot. */
  function ObservationFor(robot: Robot): (o: RobotAccountObservation)
    ensures o.id == o.robotId == Some(FormatInt(robot.id))
    ensures o.fullName == Some(robot.name) && o.disable == Some(robot.disable) && o.level == Some(robot.level)
  {
    var idText := FormatInt(robot.id);
    RobotAccountObservation(Some(idText), Some(robot.name), Some(idText), Some(robot.disable), Some(robot.level))
  }

  // ---------------------------------------------------------------------------
  // The external client

  /** The report for a robot Harbor has. */
  function Found(cr: RobotAccount, robot: Robot): Observed {
    Observed(Observation(true, IsRobotAccountUpToDate(cr.forProvider, robot), map[]),
             cr.(atProvider := ObservationFor(robot)))
  }

  /**
   Observe, parameterised by the name adoption looks up: `lookupName` maps
   the spec name to the name searched for.
   */
  function ObserveBy(cr: RobotAccount, api: RobotApi, lookupName: string -> string): (r: Result<Observed>)
  {
    if cr.externalName != "" then
      match ExtractRobotID(cr.externalName)
      case Err(m) => Err(WrapMsg("cannot extract robot ID from external name", m))
      case Panic(f) => Panic(f)
      case Ok(id) =>
        match GetRobotAccount(api, id)
        case Ok(robot) => Ok(Found(cr, robot))
        case _ => Ok(Observed(Absent, cr))
    else if cr.forProvider.name.None? then Panic("Name")
    else
      match GetRobotAccountByName(api, lookupName(cr.forProvider.name.value))
      case Ok(robot) => Ok(Found(cr.(externalName := ExternalNameFor(robot.id)), robot))
      case _ => Ok(Observed(Absent, cr))
  }

  /**
   `Observe`: with an external name, parse it and read the robot by ID (a
   malformed name is an error, any read error is absence); without one,
   adopt the robot whose name equals the spec name exactly.
   */
  function Observe(cr: RobotAccount, api: RobotApi): (r: Result<Observed>)
    ensures cr.externalName != "" && ExtractRobotID(cr.externalName).Err? ==>
              r == Err(WrapMsg("cannot extract robot ID from external name", ExtractRobotID(cr.externalName).msg))
    ensures cr.externalName != "" && ExtractRobotID(cr.externalName).Ok? ==>
              var read := GetRobotAccount(api, ExtractRobotID(cr.externalName).value);
              r.Ok? && (r.value.obs.resourceExists <==> read.Ok?)
              && (read.Ok? ==> r.value == Found(cr, read.value))
    ensures cr.externalName == "" && cr.forProvider.name.None? ==> r.Panic?
    ensures cr.externalName == "" && cr.forProvider.name.Some? ==>
              var found := GetRobotAccountByName(api, cr.forProvider.name.value);
              r.Ok? && (r.value.obs.resourceExists <==> found.Ok?)
              && (found.Ok? ==> r.value.cr.externalName == ExternalNameFor(found.value.id))
              && (found.Ok? ==> r.value == Found(cr.(externalName := ExternalNameFor(found.value.id)), found.value))
    ensures r.Ok? && cr.externalName != "" ==> r.value.cr.externalName == cr.externalName
    ensures r.Ok? && !r.value.obs.resourceExists ==> r.value == Observed(Absent, cr)
  {
    ObserveBy(cr, api, name => name)
  }

  /** `Create`: send the defaulted spec; record `/robots/<id>`; publish the credentials when Harbor returns a secret. */
  function Create(cr: RobotAccount, harbor: RobotCreate -> Result<Option<RobotCreated>>): (r: Result<Created>)
    ensures cr.forProvider.name.None? ==> r.Panic?
    ensures RobotSpecFor(cr.forProvider).Panic? ==> r.Panic?
    ensures RobotSpecFor(cr.forProvider).Ok? ==>
              var made := CreateRobotAccount(RobotSpecFor(cr.forProvider).value, harbor);
              (r.Ok? <==> made.Ok?)
              && (made.Err? ==> r == Err(WrapMsg("cannot create robot account", made.msg)))
    ensures r.Ok? ==> RobotSpecFor(cr.forProvider).Ok?
                      && CreateRobotAccount(RobotSpecFor(cr.forProvider).value, harbor).Ok?
    ensures r.Ok? ==>
              var robot := CreateRobotAccount(RobotSpecFor(cr.forProvider).value, harbor).value;
              r.value.cr == cr.(externalName := ExternalNameFor(robot.id))
              && (robot.secret != "" ==> r.value.details == map["password" := robot.secret, "username" := robot.name])
              && (robot.secret == "" ==> r.value.details == map[])
    ensures r.Err? ==> HasPrefix(r.msg, "cannot create robot account: ")
  {
    match RobotSpecFor(cr.forProvider)
    case Panic(f) => Panic(f)
    case Err(m) => Err(m)
    case Ok(spec) =>
      match CreateRobotAccount(spec, harbor)
      case Panic(f) => Panic(f)
      case Err(m) => Err(WrapMsg("cannot create robot account", m))
      case Ok(robot) =>
        var details := if robot.secret != "" then map["password" := robot.secret, "username" := robot.name] else map[];
        Ok(Created(cr.(externalName := ExternalNameFor(robot.id)), details))
  }

  /** `Update`: always refused, without calling Harbor. */
  function Update(cr: RobotAccount): (r: Result<()>)
    ensures r.Err? && r.msg == "robot account updates are not supported"
  {
    Err("robot account updates are not supported")
  }

  /** `Delete`: nothing to do without an external name; otherwise delete the robot it names. */
  function Delete(cr: RobotAccount, api: RobotApi): (r: Result<RobotApi>)
    ensures cr.externalName == "" ==> r == Ok(api)
    ensures cr.externalName != "" && ExtractRobotID(cr.externalName).Err? ==>
              r == Err(WrapMsg("cannot extract robot ID from external name", ExtractRobotID(cr.externalName).msg))
    ensures cr.externalName != "" && ExtractRobotID(cr.externalName).Ok? ==>
              var id := ExtractRobotID(cr.externalName).value;
              (r.Ok? <==> GetRobotAccount(api, id).Ok?)
              && (r.Ok? ==> forall x :: x in r.value.robots <==> x in api.robots && x.id != id)
              && (r.Err? ==> HasPrefix(r.msg, "cannot delete robot account: "))
    ensures !r.Panic?
  {
    if cr.externalName == "" then Ok(api)
    else
      match ExtractRobotID(cr.externalName)
      case Err(m) => Err(WrapMsg("cannot extract robot ID from external name", m))
      case Panic(f) => Panic(f)
      case Ok(id) => DeleteRobotAccount(api, id).Wrap("cannot delete robot account")
  }

  // ---------------------------------------------------------------------------
  // Properties

  /** IDs identify robots: no two robots in Harbor share one. */
  predicate UniqueIds(api: RobotApi) {
    forall i, j :: 0 <= i < |api.robots| && 0 <= j < |api.robots| && api.robots[i].id == api.robots[j].id ==> i == j
  }

  /**
   Adoption is stable: once Observe has adopted a robot by name, the next
   Observe finds the same robot through the external name it wrote.
   */
  lemma AdoptionThenObserveById(cr: RobotAccount, api: RobotApi)
    requires cr.externalName == "" && cr.forProvider.name.Some?
    requires UniqueIds(api)
    requires Observe(cr, api).Ok? && Observe(cr, api).value.obs.resourceExists
    requires IsInt64(GetRobotAccountByName(api, cr.forProvider.name.value).value.id)
    ensures var next := Observe(cr, api).value.cr;
            Observe(next, api).Ok? && Observe(next, api).value.obs == Observe(cr, api).value.obs
            && Observe(next, api).value.cr == next
  {
    var robot := GetRobotAccountByName(api, cr.forProvider.name.value).value;
    ExtractExternalName(robot.id);
    var read := GetRobotAccount(api, robot.id);
    assert read.Ok?;
    assert read.value == robot;
  }

  /** Observe never rewrites an external name that is already set. */
  lemma ObserveKeepsExternalName(cr: RobotAccount, api: RobotApi)
    requires cr.externalName != ""
    ensures Observe(cr, api).Ok? ==> Observe(cr, api).value.cr.externalName == cr.externalName
    ensures !Observe(cr, api).Panic?
  {
  }

  /** Create's external name is read back by the next Observe as the created robot's ID. */
  lemma CreateThenExtract(cr: RobotAccount, harbor: RobotCreate -> Result<Option<RobotCreated>>)
    requires Create(cr, harbor).Ok?
    requires IsInt64(CreateRobotAccount(RobotSpecFor(cr.forProvider).value, harbor).value.id)
    ensures ExtractRobotID(Create(cr, harbor).value.cr.externalName)
            == Ok(CreateRobotAccount(RobotSpecFor(cr.forProvider).value, harbor).value.id)
  {
    ExtractExternalName(CreateRobotAccount(RobotSpecFor(cr.forProvider).value, harbor).value.id);
  }

  // ---------------------------------------------------------------------------
  // Adoption by name: as written and as intended

  /**
   As written, adoption looks up the bare spec name, but the up-to-date test
   demands Harbor's longer full name; so an adopted robot is never up to date.
   */
  lemma AdoptedNeverUpToDate(cr: RobotAccount, api: RobotApi)
    requires cr.externalName == "" && cr.forProvider.name.Some?
    requires Observe(cr, api).Ok? && Observe(cr, api).value.obs.resourceExists
    ensures !Observe(cr, api).value.obs.upToDate
  {
    var name := cr.forProvider.name.value;
    var robot := GetRobotAccountByName(api, name).value;
    assert robot.name == name;
    assert |ExpectedRobotName(name, cr.forProvider.level)| > |name|;
  }

  /** The spec of the controller's own test case: robot "test-robot" at level "project". */
  const TestSpec: RobotAccountParameters :=
    RobotAccountParameters(Some("test-robot"), None, None, Some("project"), [])

  /** Harbor holding that robot under its full name, as it names project robots. */
  const TestHarbor: RobotApi :=
    RobotApi([Robot(123, "robot$project+test-robot", "", "project", "", false, 0)], None, "not found")

  /** As written, the robot Harbor holds under its full name is not adopted. */
  lemma FullNameNotAdopted()
    ensures Observe(RobotAccount("", TestSpec, RobotAccountObservation(None, None, None, None, None)), TestHarbor)
            == Ok(Observed(Absent, RobotAccount("", TestSpec, RobotAccountObservation(None, None, None, None, None))))
  {
    var cr := RobotAccount("", TestSpec, RobotAccountObservation(None, None, None, None, None));
    assert TestHarbor.robots[0].name != "test-robot";
    assert GetRobotAccountByName(TestHarbor, "test-robot").Err?;
  }

  /** The adoption the up-to-date test is written for: look up Harbor's full name. */
  function ObserveIntended(cr: RobotAccount, api: RobotApi): (r: Result<Observed>)
    ensures cr.externalName != "" ==> r == Observe(cr, api)
    ensures cr.externalName == "" && cr.forProvider.name.Some? ==>
              var full := ExpectedRobotName(cr.forProvider.name.value, cr.forProvider.level);
              var found := GetRobotAccountByName(api, full);
              r.Ok? && (r.value.obs.resourceExists <==> found.Ok?)
              && (found.Ok? ==> r.value == Found(cr.(externalName := ExternalNameFor(found.value.id)), found.value))
  {
    ObserveBy(cr, api, name => ExpectedRobotName(name, cr.forProvider.level))
  }

  /** As intended, an adopted robot is up to date exactly when its level matches the spec. */
  lemma IntendedAdoptionUpToDate(cr: RobotAccount, api: RobotApi)
    requires cr.externalName == "" && cr.forProvider.name.Some?
    requires ObserveIntended(cr, api).Ok? && ObserveIntended(cr, api).value.obs.resourceExists
    ensures var robot := GetRobotAccountByName(api, ExpectedRobotName(cr.forProvider.name.value, cr.forProvider.level)).value;
            ObserveIntended(cr, api).value.obs.upToDate <==> (cr.forProvider.level.None? || cr.forProvider.level.value == robot.level)
  {
  }

  /** The test's robot is found under the full name its spec expects. */
  lemma TestLookupByFullName()
    ensures ExpectedRobotName("test-robot", Some("project")) == "robot$project+test-robot"
    ensures GetRobotAccountByName(TestHarbor, "robot$project+test-robot") == Ok(TestHarbor.robots[0])
  {
    assert TestHarbor.robots[0].name == "robot$project+test-robot";
  }

  /** As intended, the test's robot is adopted, recorded as `/robots/123` and up to date. */
  lemma IntendedAdoptsFullName()
    ensures var cr := RobotAccount("", TestSpec, RobotAccountObservation(None, None, None, None, None));
            ObserveIntended(cr, TestHarbor).Ok?
            && ObserveIntended(cr, TestHarbor).value.obs == Observation(true, true, map[])
            && ObserveIntended(cr, TestHarbor).value.cr.externalName == ExternalNameFor(123)
  {
    var cr := RobotAccount("", TestSpec, RobotAccountObservation(None, None, None, None, None));
    TestLookupByFullName();
    var r := ObserveIntended(cr, TestHarbor);
    assert r.Ok? && r.value.obs.resourceExists;
    IntendedAdoptionUpToDate(cr, TestHarbor);
  }
}

=== FILE: scanner.dfy ===
/**
 The ScannerRegistration controller: it observes a registration by the
 name in its spec, compares URL, description and auth, and creates,
 updates and deletes through the provider's own Harbor client, addressing
 updates and deletes by the UUID in the status when there is one.

 The client's scanner calls are a parameter (`HarborClient.ScannerService`);
 `HarborClient.MockScanners` plugs in the client's present answers. Times stay whole
 seconds; their RFC 3339 text form is not modelled.
 */
module ScannerController {
  import opened Common
  import HarborClient

  datatype ScannerParameters = ScannerParameters(
    name: Option<string>,
    url: Option<string>,
    description: Option<string>,
    auth: Option<string>,
    accessCredential: Option<string>)

  datatype ScannerObservation = ScannerObservation(
    uuid: Option<string>,
    name: Option<string>,
    description: Option<string>,
    url: Option<string>,
    auth: Option<string>,
    accessCredential: Option<string>,
    createTime: Option<int>,
    updateTime: Option<int>)

  datatype ScannerRegistration = ScannerRegistration(forProvider: ScannerParameters, atProvider: ScannerObservation)

  /** What Observe reports, with the resource as Observe leaves it. */
  datatype Observed = Observed(obs: Observation, cr: ScannerRegistration)

  /**
   `isUpToDate`: a set URL must match; description and auth are compared
   only when both the spec and Harbor have one.
   */
  function IsUpToDate(p: ScannerParameters, status: HarborClient.ScannerStatus): (upToDate: bool)
    ensures upToDate <==> DriftedFields(p, status) == {}
    ensures p.url.None? && p.description.None? && p.auth.None? ==> upToDate
  {
    (p.url.None? || p.url.value == status.url)
    && (p.description.None? || status.description.None? || p.description.value == status.description.value)
    && (p.auth.None? || status.auth.None? || p.auth.value == status.auth.value)
  }

  /** The spec fields whose set value disagrees with what Harbor reports. */
  function DriftedFields(p: ScannerParameters, status: HarborClient.ScannerStatus): set<string> {
    var url := if p.url.Some? && p.url.value != status.url then {"url"} else {};
    var description := if p.description.Some? && status.description.Some?
                          && p.description.value != status.description.value then {"description"} else {};
    var auth := if p.auth.Some? && status.auth.Some? && p.auth.value != status.auth.value then {"auth"} else {};
    url + description + auth
  }

  /** The status Observe records: Harbor's view of the registration. */
  function StatusFor(s: HarborClient.ScannerStatus): (o: ScannerObservation)
    ensures o.uuid == Some(s.uuid) && o.name == Some(s.name) && o.url == Some(s.url)
    ensures o.description == s.description && o.auth == s.auth && o.accessCredential == s.accessCredential
    ensures o.createTime == Some(s.createTime) && o.updateTime == Some(s.updateTime)
  {
    ScannerObservation(Some(s.uuid), Some(s.name), s.description, Some(s.url), s.auth, s.accessCredential,
                       Some(s.createTime), Some(s.updateTime))
  }

  /**
   `Observe`: a missing name is an error; any error from the lookup by name
   means the registration does not exist; otherwise the status is filled in.
   */
  function Observe(cr: ScannerRegistration, svc: HarborClient.ScannerService): (r: Result<Observed>)
    ensures cr.forProvider.name.None? ==> r == Err("scanner name is required")
    ensures cr.forProvider.name.Some? && svc.get(cr.forProvider.name.value).Err? ==> r == Ok(Observed(Absent, cr))
    ensures cr.forProvider.name.Some? && svc.get(cr.forProvider.name.value).Ok? ==>
              var status := svc.get(cr.forProvider.name.value).value;
              r.Ok? && r.value.obs.resourceExists
              && (r.value.obs.upToDate <==> IsUpToDate(cr.forProvider, status))
              && r.value.cr == cr.(atProvider := StatusFor(status))
    ensures r.Ok? ==> r.value.cr.forProvider == cr.forProvider
  {
    if cr.forProvider.name.None? then Err("scanner name is required")
    else
      match svc.get(cr.forProvider.name.value)
      case Err(_) => Ok(Observed(Absent, cr))
      case Panic(f) => Panic(f)
      case Ok(status) =>
        Ok(Observed(Observation(true, IsUpToDate(cr.forProvider, status), map[]), cr.(atProvider := StatusFor(status))))
  }

  /**
   The request Create and Update send. Name and URL are read through their
   pointers, so a missing one is a nil dereference; the optional fields are
   passed on as they are.
   */
  function SpecFor(p: ScannerParameters): (r: Result<HarborClient.ScannerSpec>)
    ensures p.name.None? ==> r == Panic("Spec.ForProvider.Name")
    ensures p.name.Some? && p.url.None? ==> r == Panic("Spec.ForProvider.URL")
    ensures r.Ok? <==> p.name.Some? && p.url.Some?
    ensures r.Ok? ==> r.value.name == p.name.value && r.value.url == p.url.value
                      && r.value.description == p.description && r.value.auth == p.auth
                      && r.value.accessCredential == p.accessCredential
  {
    if p.name.None? then Panic("Spec.ForProvider.Name")
    else if p.url.None? then Panic("Spec.ForProvider.URL")
    else Ok(HarborClient.ScannerSpec(p.name.value, p.description, p.url.value, p.auth, p.accessCredential))
  }

  /** The identifier Update and Delete address: the status UUID, else the spec's name. */
  function TargetId(cr: ScannerRegistration): (r: Result<string>)
    ensures cr.forProvider.name.None? ==> r == Panic("Spec.ForProvider.Name")
    ensures cr.forProvider.name.Some? && cr.atProvider.uuid.Some? ==> r == Ok(cr.atProvider.uuid.value)
    ensures cr.forProvider.name.Some? && cr.atProvider.uuid.None? ==> r == Ok(cr.forProvider.name.value)
  {
    if cr.forProvider.name.None? then Panic("Spec.ForProvider.Name")
    else Ok(cr.atProvider.uuid.GetOr(cr.forProvider.name.value))
  }

  /** `Create`. */
  function Create(cr: ScannerRegistration, svc: HarborClient.ScannerService): (r: Result<()>)
    ensures SpecFor(cr.forProvider).Panic? ==> r == Panic(SpecFor(cr.forProvider).field)
    ensures SpecFor(cr.forProvider).Ok? ==>
              var sent := svc.create(SpecFor(cr.forProvider).value);
              (r.Ok? <==> sent.Ok?) && (sent.Err? ==> r == Err(WrapMsg("cannot create Harbor scanner registration", sent.msg)))
  {
    var spec :- SpecFor(cr.forProvider);
    match svc.create(spec)
    case Err(m) => Err(WrapMsg("cannot create Harbor scanner registration", m))
    case Panic(f) => Panic(f)
    case Ok(_) => Ok(())
  }

  /** `Update`: the request, sent to the target identifier. */
  function Update(cr: ScannerRegistration, svc: HarborClient.ScannerService): (r: Result<()>)
    ensures SpecFor(cr.forProvider).Panic? ==> r == Panic(SpecFor(cr.forProvider).field)
    ensures SpecFor(cr.forProvider).Ok? ==>
              var sent := svc.update(TargetId(cr).value, SpecFor(cr.forProvider).value);
              (r.Ok? <==> sent.Ok?) && (sent.Err? ==> r == Err(WrapMsg("cannot update Harbor scanner registration", sent.msg)))
  {
    var spec :- SpecFor(cr.forProvider);
    match svc.update(TargetId(cr).value, spec)
    case Err(m) => Err(WrapMsg("cannot update Harbor scanner registration", m))
    case Panic(f) => Panic(f)
    case Ok(_) => Ok(())
  }

  /** `Delete`: the target identifier is deleted. */
  function Delete(cr: ScannerRegistration, svc: HarborClient.ScannerService): (r: Result<()>)
    ensures TargetId(cr).Panic? ==> r == Panic(TargetId(cr).field)
    ensures TargetId(cr).Ok? ==>
              var sent := svc.delete(TargetId(cr).value);
              (r.Ok? <==> sent.Ok?) && (sent.Err? ==> r == Err(WrapMsg("cannot delete Harbor scanner registration", sent.msg)))
  {
    var id :- TargetId(cr);
    match svc.delete(id)
    case Err(m) => Err(WrapMsg("cannot delete Harbor scanner registration", m))
    case Panic(f) => Panic(f)
    case Ok(_) => Ok(())
  }

  // ---------------------------------------------------------------------------
  // Properties

  /** What Harbor leaves out is never drift: a registration without description or auth matches on URL alone. */
  lemma UnreportedFieldsIgnored(p: ScannerParameters, status: HarborClient.ScannerStatus)
    requires status.description.None? && status.auth.None?
    ensures IsUpToDate(p, status) <==> p.url.None? || p.url.value == status.url
  {
  }

  /** A registration matches a status made from its own request. */
  lemma OwnRequestUpToDate(p: ScannerParameters, uuid: string, t1: int, t2: int)
    requires SpecFor(p).Ok?
    ensures var s := SpecFor(p).value;
            IsUpToDate(p, HarborClient.ScannerStatus(uuid, s.name, s.description, s.url, s.auth, s.accessCredential, t1, t2))
  {
  }

  /**
   Over the present client, after an observation the status holds the
   UUID "mock-uuid-<name>", and Update and Delete address that UUID
   rather than the name.
   */
  lemma MockObserveThenTarget(cr: ScannerRegistration, now: int)
    requires cr.forProvider.name.Some? && cr.forProvider.name.value != ""
    ensures var seen := Observe(cr, HarborClient.MockScanners(now));
            seen.Ok? && seen.value.obs.resourceExists
            && TargetId(seen.value.cr) == Ok(HarborClient.MockUuidPrefix + cr.forProvider.name.value)
            && Delete(seen.value.cr, HarborClient.MockScanners(now)).Ok?
  {
  }

  /** Over the present client, a registration whose URL is not the fixed Trivy URL never settles. */
  lemma MockOtherUrlNeverConverges(cr: ScannerRegistration, now: int)
    requires cr.forProvider.name.Some? && cr.forProvider.name.value != ""
    requires cr.forProvider.url.Some? && cr.forProvider.url.value != HarborClient.TrivyUrl
    ensures var seen := Observe(cr, HarborClient.MockScanners(now));
            seen.Ok? && seen.value.obs.resourceExists && !seen.value.obs.upToDate
            && Update(seen.value.cr, HarborClient.MockScanners(now)).Ok?
            && !Observe(seen.value.cr, HarborClient.MockScanners(now)).value.obs.upToDate
  {
  }
}

=== FILE: userclient.dfy ===
/**
 The native User controller's Harbor client: user search with an exact
 filter, creation that reads the new ID from the Location header and sets
 the admin flag in a second call (deleting the user again if that fails),
 profile and admin updates, password changes that accept a 400 answer, and
 deletion.

 Harbor is a list of users plus the outcome each kind of call has. Every
 call returns the new state of Harbor together with its result, because
 some calls fail after having changed Harbor.
 */
module UserClient {
  import opened Common
  import opened GoStrings

  /** A Harbor user (`models.UserResp` plus the password Harbor keeps). */
  datatype HarborUser = HarborUser(
    userId: int,
    username: string,
    email: string,
    realname: string,
    sysadminFlag: bool,
    comment: string,
    password: string)

  /** How Harbor answers a password change it refuses. */
  datatype PasswordRefusal = BadRequest(text: string) | OtherFailure(text: string)

  /**
   The outcome of each kind of call: None when Harbor serves it, else the
   error text. `location` overrides the Location header of a create answer.
   */
  datatype Faults = Faults(
    search: Option<string>,
    create: Option<string>,
    location: Option<string>,
    setAdmin: Option<string>,
    profile: Option<string>,
    password: Option<PasswordRefusal>,
    delete: Option<string>)

  const NoFaults: Faults := Faults(None, None, None, None, None, None, None)

  /**
   Harbor's users, the ID the next user gets, the outcomes of calls, and the
   error text Harbor's answer to an unknown user ID carries.
   */
  datatype UserApi = UserApi(users: seq<HarborUser>, nextId: int, faults: Faults, notFoundText: string)

  /** A call's result with the state of Harbor after it. */
  datatype Step<T> = Step(result: Result<T>, api: UserApi)

  /** The error text for a username Harbor has no exact match for. */
  const UserNotFound: string := "user not found"

  /** The text Harbor answers a create for a username it already has with. */
  const UserConflict: string := "username already exists"

  // ---------------------------------------------------------------------------
  // Lookups

  /** The position of the first user with this username, or -1. */
  function IndexOfName(users: seq<HarborUser>, username: string): (i: int)
    ensures -1 <= i < |users|
    ensures i >= 0 ==> users[i].username == username
    ensures forall k :: 0 <= k < (if i < 0 then |users| else i) ==> users[k].username != username
    decreases |users|
  {
    if |users| == 0 then -1
    else if users[0].username == username then 0
    else
      var k := IndexOfName(users[1..], username);
      if k < 0 then -1 else k + 1
  }

  /** The position of the first user with this ID, or -1. */
  function IndexOfId(users: seq<HarborUser>, id: int): (i: int)
    ensures -1 <= i < |users|
    ensures i >= 0 ==> users[i].userId == id
    ensures forall k :: 0 <= k < (if i < 0 then |users| else i) ==> users[k].userId != id
    decreases |users|
  {
    if |users| == 0 then -1
    else if users[0].userId == id then 0
    else
      var k := IndexOfId(users[1..], id);
      if k < 0 then -1 else k + 1
  }

  /** Harbor's user search matches substrings, so it can return other users than the one asked for. */
  function SearchUsers(users: seq<HarborUser>, query: string): (found: seq<HarborUser>)
    ensures forall u :: u in found <==> u in users && Contains(u.username, query)
    decreases |users|
  {
    if |users| == 0 then []
    else (if Contains(users[0].username, query) then [users[0]] else []) + SearchUsers(users[1..], query)
  }

  /** The first user of a search answer whose username is exactly the query. */
  function ExactMatch(found: seq<HarborUser>, username: string): (r: Result<HarborUser>)
    ensures r.Ok? <==> exists k :: 0 <= k < |found| && found[k].username == username
    ensures r.Ok? ==> r.value in found && r.value.username == username
    ensures r.Err? ==> r.msg == UserNotFound
    ensures !r.Panic?
  {
    var k := IndexOfName(found, username);
    if k < 0 then Err(UserNotFound) else Ok(found[k])
  }

  /** `GetUser`: search, then keep only the exact username match. */
  function GetUser(api: UserApi, username: string): (r: Result<HarborUser>)
    ensures api.faults.search.None? ==>
              (r.Ok? <==> exists k :: 0 <= k < |api.users| && api.users[k].username == username)
    ensures r.Ok? ==> r.value in api.users && r.value.username == username
    ensures api.faults.search.None? && r.Err? ==> r.msg == UserNotFound
    ensures api.faults.search.Some? ==> r == Err(WrapMsg("failed to search users", api.faults.search.value))
  {
    match api.faults.search
    case Some(m) => Err(WrapMsg("failed to search users", m))
    case None =>
      var found := SearchUsers(api.users, username);
      SearchKeepsExactMatches(api.users, username);
      ExactMatch(found, username)
  }

  /** A user whose name is exactly the query is among the search's answers. */
  lemma SearchFindsExactMatch(users: seq<HarborUser>, username: string)
    ensures forall k :: 0 <= k < |users| && users[k].username == username ==> users[k] in SearchUsers(users, username)
  {
    ContainsInfix("", username, "");
    assert "" + username + "" == username;
  }

  /** The search finds a user with exactly the queried name exactly when Harbor has one. */
  lemma SearchKeepsExactMatches(users: seq<HarborUser>, username: string)
    ensures (exists k :: 0 <= k < |users| && users[k].username == username) ==>
              (exists j :: 0 <= j < |SearchUsers(users, username)| && SearchUsers(users, username)[j].username == username)
    ensures (exists j :: 0 <= j < |SearchUsers(users, username)| && SearchUsers(users, username)[j].username == username) ==>
              (exists k :: 0 <= k < |users| && users[k].username == username)
  {
    var found := SearchUsers(users, username);
    SearchFindsExactMatch(users, username);
    forall k | 0 <= k < |users| && users[k].username == username
      ensures exists j :: 0 <= j < |found| && found[j].username == username
    {
      assert users[k] in found;
    }
    forall j | 0 <= j < |found| && found[j].username == username
      ensures exists k :: 0 <= k < |users| && users[k].username == username
    {
      assert found[j] in users;
    }
  }

  // ---------------------------------------------------------------------------
  // Writes

  /** The Location header Harbor sends for a new user. */
  function LocationFor(id: int): string {
    "/api/v2.0/users/" + FormatInt(id)
  }

  /** The user ID in a Location header: the base-10 value of its last '/'-separated segment. */
  function UserIdFromLocation(location: string): (r: Result<int>)
    ensures r.Ok? ==> IsInt64(r.value)
    ensures r.Ok? <==> ParseInt(Split(location, '/')[|Split(location, '/')| - 1]).Ok?
    ensures var last := Split(location, '/')[|Split(location, '/')| - 1];
            (ParseInt(last).Ok? ==> r == Ok(ParseInt(last).value))
            && (ParseInt(last).Err? ==> r == Err(WrapMsg("failed to parse user ID from location header", ParseInt(last).msg)))
    ensures !r.Panic?
  {
    var parts := Split(location, '/');
    ParseInt(parts[|parts| - 1]).Wrap("failed to parse user ID from location header")
  }

  /** A signed last segment is read as `strconv.ParseInt` reads it: `+<id>` is `id`. */
  lemma PlusSignedLocation(id: int)
    requires 0 <= id && IsInt64(id)
    ensures UserIdFromLocation("/api/v2.0/users/+" + FormatInt(id)) == Ok(id)
  {
    var seg := "+" + FormatInt(id);
    FormatIntHasNoSlash(id);
    assert '/' !in seg by {
      assert forall k :: 1 <= k < |seg| ==> seg[k] == FormatInt(id)[k - 1];
    }
    var location := "/api/v2.0/users/+" + FormatInt(id);
    assert location == "/api/v2.0/users" + ['/'] + seg;
    SplitLastAfterSep("/api/v2.0/users", seg, '/');
    ParsePlusSigned(id);
  }

  /** `strconv.ParseInt` accepts a leading '+' on a non-negative numeral. */
  lemma ParsePlusSigned(id: int)
    requires 0 <= id && IsInt64(id)
    ensures ParseInt("+" + FormatInt(id)) == Ok(id)
  {
    var f := FormatInt(id);
    ParseFormatInt(id);
    assert SplitSign(f) == (false, f) by {
      assert IsDigit(f[0]);
    }
    assert SplitSign("+" + f) == (false, f) by {
      assert ("+" + f)[1..] == f;
    }
  }

  /** The header Harbor sends reads back as the new user's ID. */
  lemma UserIdFromLocationFor(id: int)
    requires IsInt64(id)
    ensures UserIdFromLocation(LocationFor(id)) == Ok(id)
  {
    FormatIntHasNoSlash(id);
    assert LocationFor(id) == "/api/v2.0/users" + ['/'] + FormatInt(id);
    SplitLastAfterSep("/api/v2.0/users", FormatInt(id), '/');
    ParseFormatInt(id);
  }

  function WithUser(api: UserApi, i: int, u: HarborUser): UserApi
    requires 0 <= i < |api.users|
  {
    api.(users := api.users[i := u])
  }

  /** `SetUserSysAdmin` on Harbor. */
  function SetUserSysAdmin(api: UserApi, id: int, flag: bool): (s: Step<()>)
    ensures s.result.Ok? <==> api.faults.setAdmin.None? && IndexOfId(api.users, id) >= 0
    ensures s.result.Ok? ==> s.api == WithUser(api, IndexOfId(api.users, id),
                                              api.users[IndexOfId(api.users, id)].(sysadminFlag := flag))
    ensures !s.result.Ok? ==> s.api == api
    ensures api.faults.setAdmin.Some? ==> s.result == Err(api.faults.setAdmin.value)
    ensures api.faults.setAdmin.None? && IndexOfId(api.users, id) < 0 ==> s.result == Err(api.notFoundText)
  {
    if api.faults.setAdmin.Some? then Step(Err(api.faults.setAdmin.value), api)
    else
      var i := IndexOfId(api.users, id);
      if i < 0 then Step(Err(api.notFoundText), api)
      else Step(Ok(()), WithUser(api, i, api.users[i].(sysadminFlag := flag)))
  }

  /** The users left after removing every user with this ID. */
  function WithoutId(users: seq<HarborUser>, id: int): (rest: seq<HarborUser>)
    ensures forall u :: u in rest <==> u in users && u.userId != id
    ensures IndexOfId(rest, id) < 0
    decreases |users|
  {
    if |users| == 0 then []
    else if users[0].userId == id then WithoutId(users[1..], id)
    else [users[0]] + WithoutId(users[1..], id)
  }

  /** `DeleteUser`: removes the user; an unknown ID is Harbor's not-found answer. */
  function DeleteUser(api: UserApi, id: int): (s: Step<()>)
    ensures s.result.Ok? <==> api.faults.delete.None? && IndexOfId(api.users, id) >= 0
    ensures s.result.Ok? ==> s.api == api.(users := WithoutId(api.users, id))
    ensures !s.result.Ok? ==> s.api == api
    ensures api.faults.delete.None? && IndexOfId(api.users, id) < 0 ==>
              s.result == Err(WrapMsg("failed to delete user", api.notFoundText))
    ensures !s.result.Panic?
  {
    if api.faults.delete.Some? then Step(Err(WrapMsg("failed to delete user", api.faults.delete.value)), api)
    else if IndexOfId(api.users, id) < 0 then Step(Err(WrapMsg("failed to delete user", api.notFoundText)), api)
    else Step(Ok(()), api.(users := WithoutId(api.users, id)))
  }

  /** Harbor's create call: a new user with the next ID, not yet an administrator. */
  function CreateCall(api: UserApi, username: string, email: string, realname: string, password: string, comment: string): (s: Step<int>)
    ensures s.result.Ok? <==> api.faults.create.None? && IndexOfName(api.users, username) < 0
    ensures s.result.Ok? ==> s.result.value == api.nextId
                             && s.api == api.(users := api.users + [HarborUser(api.nextId, username, email, realname, false, comment, password)],
                                              nextId := api.nextId + 1)
    ensures !s.result.Ok? ==> s.api == api
    ensures !s.result.Panic?
  {
    if api.faults.create.Some? then Step(Err(api.faults.create.value), api)
    else if IndexOfName(api.users, username) >= 0 then Step(Err(UserConflict), api)
    else
      var u := HarborUser(api.nextId, username, email, realname, false, comment, password);
      Step(Ok(api.nextId), api.(users := api.users + [u], nextId := api.nextId + 1))
  }

  /**
   `CreateUser`: create, read the ID from the Location header, and for an
   administrator set the flag; if that fails, try to delete the new user and
   report the failure.
   */
  function CreateUser(api: UserApi, username: string, email: string, realname: string, password: string,
                      admin: bool, comment: string): (s: Step<int>)
    ensures !s.result.Panic?
    ensures api.faults.create.Some? ==> s == Step(Err(WrapMsg("failed to create user", api.faults.create.value)), api)
    ensures api.faults.location == Some("") && CreateCall(api, username, email, realname, password, comment).result.Ok? ==>
              s.result == Err("no location header in create response")
    ensures s.result.Ok? ==> CreateCall(api, username, email, realname, password, comment).result.Ok?
    ensures s.result.Ok? ==>
              var created := CreateCall(api, username, email, realname, password, comment);
              s.result == UserIdFromLocation(api.faults.location.GetOr(LocationFor(created.result.value)))
              && (!admin ==> s.api == created.api)
              && (admin ==> s.api == SetUserSysAdmin(created.api, s.result.value, true).api)
  {
    var created := CreateCall(api, username, email, realname, password, comment);
    match created.result
    case Err(m) => Step(Err(WrapMsg("failed to create user", m)), created.api)
    case Panic(f) => Step(Panic(f), created.api)
    case Ok(newId) =>
      var location := api.faults.location.GetOr(LocationFor(newId));
      if location == "" then Step(Err("no location header in create response"), created.api)
      else
        match UserIdFromLocation(location)
        case Err(m) => Step(Err(m), created.api)
        case Panic(f) => Step(Panic(f), created.api)
        case Ok(userId) =>
          if !admin then Step(Ok(userId), created.api)
          else
            var flagged := SetUserSysAdmin(created.api, userId, admin);
            if flagged.result.Ok? then Step(Ok(userId), flagged.api)
            else
              var cleaned := DeleteUser(flagged.api, userId);
              Step(Err(WrapMsg("failed to set admin flag", flagged.result.msg)), cleaned.api)
  }

  /** `UpdateUser`: the profile, then always the admin flag; either failing fails the update. */
  function UpdateUser(api: UserApi, id: int, email: string, realname: string, admin: bool, comment: string): (s: Step<()>)
    ensures s.result.Ok? <==> api.faults.profile.None? && api.faults.setAdmin.None? && IndexOfId(api.users, id) >= 0
    ensures s.result.Ok? ==>
              var i := IndexOfId(api.users, id);
              s.api == WithUser(api, i, api.users[i].(email := email, realname := realname, comment := comment,
                                                      sysadminFlag := admin))
    ensures api.faults.profile.Some? ==>
              s == Step(Err(WrapMsg("failed to update user profile", api.faults.profile.value)), api)
    ensures api.faults.profile.None? && IndexOfId(api.users, id) < 0 ==>
              s == Step(Err(WrapMsg("failed to update user profile", api.notFoundText)), api)
    ensures api.faults.profile.None? && api.faults.setAdmin.Some? && IndexOfId(api.users, id) >= 0 ==>
              var i := IndexOfId(api.users, id);
              s.result == Err(WrapMsg("failed to update admin flag", api.faults.setAdmin.value))
              && s.api == WithUser(api, i, api.users[i].(email := email, realname := realname, comment := comment))
    ensures !s.result.Panic?
  {
    if api.faults.profile.Some? then Step(Err(WrapMsg("failed to update user profile", api.faults.profile.value)), api)
    else
      var i := IndexOfId(api.users, id);
      if i < 0 then Step(Err(WrapMsg("failed to update user profile", api.notFoundText)), api)
      else
        var profiled := WithUser(api, i, api.users[i].(email := email, realname := realname, comment := comment));
        var flagged := SetUserSysAdmin(profiled, id, admin);
        assert IndexOfId(profiled.users, id) == i by {
          assert forall k :: 0 <= k < |api.users| ==> profiled.users[k].userId == api.users[k].userId;
          IndexOfIdSameIds(api.users, profiled.users, id);
        }
        if flagged.result.Ok? then Step(Ok(()), flagged.api)
        else Step(Err(WrapMsg("failed to update admin flag", flagged.result.msg)), flagged.api)
  }

  /** Changing fields other than the ID does not move a user's position. */
  lemma {:induction false} IndexOfIdSameIds(a: seq<HarborUser>, b: seq<HarborUser>, id: int)
    requires |a| == |b|
    requires forall k :: 0 <= k < |a| ==> a[k].userId == b[k].userId
    ensures IndexOfId(a, id) == IndexOfId(b, id)
    decreases |a|
  {
    if |a| > 0 {
      IndexOfIdSameIds(a[1..], b[1..], id);
    }
  }

  /** `UpdateUserPassword`: a 400 Bad Request answer counts as success and changes nothing. */
  function UpdateUserPassword(api: UserApi, id: int, newPassword: string): (s: Step<()>)
    ensures api.faults.password.Some? && api.faults.password.value.BadRequest? ==> s == Step(Ok(()), api)
    ensures api.faults.password.Some? && api.faults.password.value.OtherFailure? ==>
              s == Step(Err(WrapMsg("failed to update user password", api.faults.password.value.text)), api)
    ensures |s.api.users| == |api.users|
    ensures api.faults.password.None? ==>
              (s.result.Ok? <==> IndexOfId(api.users, id) >= 0)
              && (s.result.Ok? ==> s.api.users[IndexOfId(api.users, id)].password == newPassword)
    ensures !s.result.Panic?
  {
    match api.faults.password
    case Some(BadRequest(_)) => Step(Ok(()), api)
    case Some(OtherFailure(m)) => Step(Err(WrapMsg("failed to update user password", m)), api)
    case None =>
      var i := IndexOfId(api.users, id);
      if i < 0 then Step(Err(WrapMsg("failed to update user password", api.notFoundText)), api)
      else Step(Ok(()), WithUser(api, i, api.users[i].(password := newPassword)))
  }

  // ---------------------------------------------------------------------------
  // Properties

  /** Creating an administrator whose flag cannot be set leaves Harbor's users as they were. */
  lemma FailedAdminCreateCleansUp(api: UserApi, username: string, email: string, realname: string,
                                  password: string, comment: string)
    requires api.faults.create.None? && api.faults.location.None? && api.faults.delete.None?
    requires api.faults.setAdmin.Some?
    requires IndexOfName(api.users, username) < 0
    requires IndexOfId(api.users, api.nextId) < 0
    requires IsInt64(api.nextId)
    ensures var s := CreateUser(api, username, email, realname, password, true, comment);
            s.result.Err? && s.api.users == api.users && s.api.nextId == api.nextId + 1
  {
    var u := HarborUser(api.nextId, username, email, realname, false, comment, password);
    var created := CreateCall(api, username, email, realname, password, comment);
    assert created.result == Ok(api.nextId);
    assert created.api.users == api.users + [u];
    UserIdFromLocationFor(api.nextId);
    var flagged := SetUserSysAdmin(created.api, api.nextId, true);
    assert flagged == Step(Err(api.faults.setAdmin.value), created.api);
    assert created.api.users[|api.users|].userId == api.nextId;
    var cleaned := DeleteUser(created.api, api.nextId);
    assert cleaned.api.users == WithoutId(api.users + [u], api.nextId);
    WithoutIdAppend(api.users, u, api.nextId);
  }

  /** Removing the ID of a just-appended user gives back the earlier list. */
  lemma {:induction false} WithoutIdAppend(users: seq<HarborUser>, u: HarborUser, id: int)
    requires u.userId == id
    requires IndexOfId(users, id) < 0
    ensures WithoutId(users + [u], id) == users
    decreases |users|
  {
    if |users| == 0 {
      assert users + [u] == [u];
    } else {
      assert (users + [u])[1..] == users[1..] + [u];
      assert IndexOfId(users[1..], id) < 0;
      WithoutIdAppend(users[1..], u, id);
    }
  }

  /** A create Harbor serves appends exactly one new user under the next ID, with the admin flag requested. */
  lemma CreateUserAppends(api: UserApi, username: string, email: string, realname: string,
                          password: string, admin: bool, comment: string)
    requires api.faults.create.None? && api.faults.location.None? && api.faults.setAdmin.None?
    requires IndexOfName(api.users, username) < 0
    requires IndexOfId(api.users, api.nextId) < 0
    requires IsInt64(api.nextId)
    ensures var s := CreateUser(api, username, email, realname, password, admin, comment);
            s.result == Ok(api.nextId)
            && s.api.users == api.users + [HarborUser(api.nextId, username, email, realname, admin, comment, password)]
  {
    var u := HarborUser(api.nextId, username, email, realname, false, comment, password);
    var v := u.(sysadminFlag := admin);
    var created := CreateCall(api, username, email, realname, password, comment);
    assert created.result == Ok(api.nextId);
    assert created.api.users == api.users + [u];
    UserIdFromLocationFor(api.nextId);
    var s := CreateUser(api, username, email, realname, password, admin, comment);
    if admin {
      assert created.api.users[|api.users|].userId == api.nextId;
      var flagged := SetUserSysAdmin(created.api, api.nextId, true);
      assert flagged.result.Ok?;
      assert IndexOfId(created.api.users, api.nextId) == |api.users|;
      assert (api.users + [u])[|api.users| := v] == api.users + [v];
      assert s.api.users == api.users + [v];
    } else {
      assert u == v;
    }
  }

  /**
   A create Harbor serves stores exactly one new user under the next ID, with
   the admin flag requested, and a later search by its name finds it.
   */
  lemma CreateUserStoresUser(api: UserApi, username: string, email: string, realname: string,
                             password: string, admin: bool, comment: string)
    requires api.faults.create.None? && api.faults.location.None? && api.faults.setAdmin.None?
    requires api.faults.search.None?
    requires IndexOfName(api.users, username) < 0
    requires IndexOfId(api.users, api.nextId) < 0
    requires IsInt64(api.nextId)
    ensures var s := CreateUser(api, username, email, realname, password, admin, comment);
            s.result == Ok(api.nextId)
            && s.api.users == api.users + [HarborUser(api.nextId, username, email, realname, admin, comment, password)]
            && GetUser(s.api, username) == Ok(HarborUser(api.nextId, username, email, realname, admin, comment, password))
  {
    var v := HarborUser(api.nextId, username, email, realname, admin, comment, password);
    CreateUserAppends(api, username, email, realname, password, admin, comment);
    var s := CreateUser(api, username, email, realname, password, admin, comment);
    OnlyNewUserHasName(api.users, v, username);
    assert s.api.users[|api.users|].username == username;
  }


  /** When the earlier users lack a name, the appended user is the only one holding it. */
  lemma OnlyNewUserHasName(users: seq<HarborUser>, v: HarborUser, username: string)
    requires IndexOfName(users, username) < 0
    requires v.username == username
    ensures forall x :: x in users + [v] && x.username == username ==> x == v
  {
  }
}

=== FILE: usercontroller.dfy ===
/**
 The native User controller: it finds a Harbor user by the external name
 (or the spec's username), copies what Harbor reports into the status,
 compares the fields the spec sets, creates users with a password read from
 a Kubernetes Secret, updates profile, admin flag and password, and deletes
 by the ID kept in the status, treating "not found" as already deleted.
 */
module UserController {
  import opened Common
  import opened GoStrings
  import opened Kube
  import opened UserTypes
  import opened UserClient

  /** The v1alpha1 `User` managed resource: external-name annotation, spec and status. */
  datatype NativeUser = NativeUser(externalName: string, forProvider: UserParameters, atProvider: UserObservation)

  /** What Observe reports, with the resource as Observe leaves it. */
  datatype Observed = Observed(obs: Observation, cr: NativeUser)

  const ErrGetUser: string := "cannot get user"
  const ErrCreateUser: string := "cannot create user"
  const ErrUpdateUser: string := "cannot update user"
  const ErrDeleteUser: string := "cannot delete user"
  const ErrGetPassword: string := "cannot get password from secret"

  /** The text Harbor's clients look for in an error that means "no such user". */
  const NotFoundPhrase: string := "not found"

  // ---------------------------------------------------------------------------
  // Helpers

  /**
   `IsUserNotFound`: the error is the client's own "user not found", or its
   text contains "not found" in any letter case.
   */
  predicate IsUserNotFound(err: string)
    ensures IsUserNotFound(err) <==> Contains(ToLower(err), NotFoundPhrase)
  {
    NotFoundPhraseIsLower();
    if err == UserNotFound then
      assert UserNotFound == "user " + NotFoundPhrase;
      ToLowerNoUpper("user ");
      ToLowerConcat("user ", NotFoundPhrase);
      ContainsInfix("user ", NotFoundPhrase, "");
      assert "user " + NotFoundPhrase + "" == UserNotFound;
      true
    else
      Contains(ToLower(err), ToLower(NotFoundPhrase))
  }

  lemma NotFoundPhraseIsLower()
    ensures ToLower(NotFoundPhrase) == NotFoundPhrase
  {
    ToLowerNoUpper(NotFoundPhrase);
  }

  /** The error a Kubernetes read of a missing Secret returns. */
  function SecretNotFound(name: string): string {
    "secrets \"" + name + "\" not found"
  }

  /**
   `getPassword`: no secret named means no password; otherwise the Secret's
   value under the selected key, or the read's error, or a missing-key error.
   */
  function GetPassword(ref: SecretKeySelector, secrets: Store<Secret>): (r: Result<string>)
    ensures ref.name == "" ==> r == Ok("")
    ensures ref.name != "" ==>
              var read := Get(secrets, ObjectKey(ref.namespace, ref.name));
              (r.Ok? <==> read.Found? && ref.key in read.value.data)
              && (r.Ok? ==> r.value == read.value.data[ref.key])
              && (read.Failed? ==> r == Err(read.msg))
              && (read.NotFound? ==> r == Err(SecretNotFound(ref.name)))
              && (read.Found? && ref.key !in read.value.data ==> r == Err("key " + ref.key + " not found in secret"))
    ensures !r.Panic?
  {
    if ref.name == "" then Ok("")
    else
      match Get(secrets, ObjectKey(ref.namespace, ref.name))
      case Failed(m) => Err(m)
      case NotFound => Err(SecretNotFound(ref.name))
      case Found(secret) =>
        if ref.key in secret.data then Ok(secret.data[ref.key])
        else Err("key " + ref.key + " not found in secret")
  }

  /** The username Observe looks for: the external name, else the spec's username. */
  function ObservedUsername(cr: NativeUser): (name: string)
    ensures cr.externalName != "" ==> name == cr.externalName
    ensures cr.externalName == "" ==> name == StringValue(cr.forProvider.username)
  {
    if cr.externalName != "" then cr.externalName else StringValue(cr.forProvider.username)
  }

  /** The username Create asks Harbor for: the spec's username, else the external name. */
  function CreatedUsername(cr: NativeUser): (name: string)
    ensures StringValue(cr.forProvider.username) != "" ==> name == cr.forProvider.username.value
    ensures StringValue(cr.forProvider.username) == "" ==> name == cr.externalName
  {
    var name := StringValue(cr.forProvider.username);
    if name == "" && cr.externalName != "" then cr.externalName else name
  }

  /** The status Observe records for a user Harbor reports. */
  function StatusFor(u: HarborUser): (s: UserObservation)
    ensures s.id == Some(FormatInt(u.userId))
    ensures s.username == Some(u.username) && s.email == Some(u.email) && s.fullName == Some(u.realname)
    ensures s.admin == Some(u.sysadminFlag) && s.comment == Some(u.comment)
  {
    UserObservation(Some(FormatInt(u.userId)), Some(u.username), Some(u.email), Some(u.realname),
                    Some(u.sysadminFlag), Some(u.comment))
  }

  /** A user matches the spec when every field the spec sets has Harbor's value. */
  predicate UpToDate(p: UserParameters, u: HarborUser) {
    (p.email.None? || p.email.value == u.email)
    && (p.fullName.None? || p.fullName.value == u.realname)
    && (p.admin.None? || p.admin.value == u.sysadminFlag)
    && (p.comment.None? || p.comment.value == u.comment)
  }

  // ---------------------------------------------------------------------------
  // Controller

  /**
   `Observe`: no username means no user; a not-found error means no user;
   otherwise the status is filled in, the external name is set if it was
   empty, and the resource is up to date when the set fields match.
   */
  function Observe(cr: NativeUser, api: UserApi): (r: Result<Observed>)
    ensures ObservedUsername(cr) == "" ==> r == Ok(Observed(Absent, cr))
    ensures ObservedUsername(cr) != "" ==>
              var read := GetUser(api, ObservedUsername(cr));
              (read.Ok? ==> r.Ok? && r.value.obs.resourceExists
                            && (r.value.obs.upToDate <==> UpToDate(cr.forProvider, read.value))
                            && r.value.cr.atProvider == StatusFor(read.value)
                            && r.value.cr.forProvider == cr.forProvider)
              && (read.Err? && IsUserNotFound(read.msg) ==> r == Ok(Observed(Absent, cr)))
              && (read.Err? && !IsUserNotFound(read.msg) ==> r == Err(WrapMsg(ErrGetUser, read.msg)))
    ensures r.Ok? && r.value.obs.resourceExists ==>
              r.value.cr.externalName == (if cr.externalName != "" then cr.externalName else r.value.cr.atProvider.username.value)
    ensures !r.Panic?
  {
    var username := ObservedUsername(cr);
    if username == "" then Ok(Observed(Absent, cr))
    else
      match GetUser(api, username)
      case Err(m) => if IsUserNotFound(m) then Ok(Observed(Absent, cr)) else Err(WrapMsg(ErrGetUser, m))
      case Panic(f) => Panic(f)
      case Ok(u) =>
        var named := if cr.externalName == "" then u.username else cr.externalName;
        Ok(Observed(Observation(true, UpToDate(cr.forProvider, u), map[]),
                    cr.(externalName := named, atProvider := StatusFor(u))))
  }

  /**
   `Create`: reads the password, creates the user with the spec's fields
   (absent ones empty or false), then records the username as the external
   name and the new ID in the status.
   */
  function Create(cr: NativeUser, api: UserApi, secrets: Store<Secret>): (s: Step<NativeUser>)
    ensures GetPassword(cr.forProvider.passwordSecretRef, secrets).Err? ==>
              s == Step(Err(WrapMsg(ErrGetPassword, GetPassword(cr.forProvider.passwordSecretRef, secrets).msg)), api)
    ensures GetPassword(cr.forProvider.passwordSecretRef, secrets).Ok? ==>
              var p := cr.forProvider;
              var made := CreateUser(api, CreatedUsername(cr), StringValue(p.email), StringValue(p.fullName),
                                     GetPassword(p.passwordSecretRef, secrets).value, BoolValue(p.admin),
                                     StringValue(p.comment));
              s.api == made.api
              && (s.result.Ok? <==> made.result.Ok?)
              && (made.result.Err? ==> s.result == Err(WrapMsg(ErrCreateUser, made.result.msg)))
              && (made.result.Ok? ==> s.result.value == cr.(externalName := CreatedUsername(cr),
                                                             atProvider := cr.atProvider.(id := Some(FormatInt(made.result.value)))))
    ensures !s.result.Panic?
  {
    var p := cr.forProvider;
    match GetPassword(p.passwordSecretRef, secrets)
    case Err(m) => Step(Err(WrapMsg(ErrGetPassword, m)), api)
    case Panic(f) => Step(Panic(f), api)
    case Ok(password) =>
      var username := CreatedUsername(cr);
      var made := CreateUser(api, username, StringValue(p.email), StringValue(p.fullName), password,
                             BoolValue(p.admin), StringValue(p.comment));
      match made.result
      case Err(m) => Step(Err(WrapMsg(ErrCreateUser, m)), made.api)
      case Panic(f) => Step(Panic(f), made.api)
      case Ok(id) =>
        Step(Ok(cr.(externalName := username, atProvider := cr.atProvider.(id := Some(FormatInt(id))))), made.api)
  }

  /** The status ID as a 64-bit integer; an absent ID reads as "" and fails to parse. */
  function StatusId(cr: NativeUser): (r: Result<int>)
    ensures r.Ok? ==> IsInt64(r.value) && cr.atProvider.id.Some?
    ensures r.Ok? <==> ParseInt(StringValue(cr.atProvider.id)).Ok?
    ensures !r.Panic?
  {
    ParseInt(StringValue(cr.atProvider.id)).Wrap("failed to parse user ID")
  }

  /** The password Update sends, if any: only a named secret holding a non-empty value yields one. */
  function PasswordToSet(ref: SecretKeySelector, secrets: Store<Secret>): (r: Result<Option<string>>)
    ensures ref.name == "" ==> r == Ok(None)
    ensures r.Ok? && r.value.Some? ==> r.value.value != "" && GetPassword(ref, secrets) == Ok(r.value.value)
    ensures GetPassword(ref, secrets) == Ok("") ==> r == Ok(None)
    ensures GetPassword(ref, secrets).Err? ==> r == Err(WrapMsg(ErrGetPassword, GetPassword(ref, secrets).msg))
    ensures !r.Panic?
  {
    if ref.name == "" then Ok(None)
    else
      match GetPassword(ref, secrets)
      case Err(m) => Err(WrapMsg(ErrGetPassword, m))
      case Panic(f) => Panic(f)
      case Ok(password) => if password == "" then Ok(None) else Ok(Some(password))
  }

  /**
   `Update`: parses the status ID, updates profile and admin flag, then the
   password when the secret holds one.
   */
  function Update(cr: NativeUser, api: UserApi, secrets: Store<Secret>): (s: Step<()>)
    ensures StatusId(cr).Err? ==> s == Step(Err(StatusId(cr).msg), api)
    ensures StatusId(cr).Ok? ==>
              var p := cr.forProvider;
              var profiled := UpdateUser(api, StatusId(cr).value, StringValue(p.email), StringValue(p.fullName),
                                         BoolValue(p.admin), StringValue(p.comment));
              (profiled.result.Err? ==> s == Step(Err(WrapMsg(ErrUpdateUser, profiled.result.msg)), profiled.api))
              && (profiled.result.Ok? && PasswordToSet(p.passwordSecretRef, secrets) == Ok(None) ==>
                    s == Step(Ok(()), profiled.api))
              && (profiled.result.Ok? && PasswordToSet(p.passwordSecretRef, secrets).Err? ==>
                    s == Step(Err(PasswordToSet(p.passwordSecretRef, secrets).msg), profiled.api))
    ensures StatusId(cr).Ok? ==>
              var p := cr.forProvider;
              var profiled := UpdateUser(api, StatusId(cr).value, StringValue(p.email), StringValue(p.fullName),
                                         BoolValue(p.admin), StringValue(p.comment));
              var pw := PasswordToSet(p.passwordSecretRef, secrets);
              profiled.result.Ok? && pw.Ok? && pw.value.Some? ==>
                var changed := UpdateUserPassword(profiled.api, StatusId(cr).value, pw.value.value);
                s.api == changed.api
                && (s.result.Ok? <==> changed.result.Ok?)
                && (changed.result.Err? ==> s.result == Err(WrapMsg("failed to update password", changed.result.msg)))
    ensures !s.result.Panic?
  {
    match StatusId(cr)
    case Err(m) => Step(Err(m), api)
    case Panic(f) => Step(Panic(f), api)
    case Ok(id) =>
      var p := cr.forProvider;
      var profiled := UpdateUser(api, id, StringValue(p.email), StringValue(p.fullName), BoolValue(p.admin),
                                 StringValue(p.comment));
      match profiled.result
      case Err(m) => Step(Err(WrapMsg(ErrUpdateUser, m)), profiled.api)
      case Panic(f) => Step(Panic(f), profiled.api)
      case Ok(_) =>
        match PasswordToSet(p.passwordSecretRef, secrets)
        case Err(m) => Step(Err(m), profiled.api)
        case Panic(f) => Step(Panic(f), profiled.api)
        case Ok(None) => Step(Ok(()), profiled.api)
        case Ok(Some(password)) =>
          var changed := UpdateUserPassword(profiled.api, id, password);
          match changed.result
          case Err(m) => Step(Err(WrapMsg("failed to update password", m)), changed.api)
          case Panic(f) => Step(Panic(f), changed.api)
          case Ok(_) => Step(Ok(()), changed.api)
  }

  /** `Delete`: parses the status ID and deletes; a not-found answer counts as already deleted. */
  function Delete(cr: NativeUser, api: UserApi): (s: Step<()>)
    ensures StatusId(cr).Err? ==> s == Step(Err(StatusId(cr).msg), api)
    ensures StatusId(cr).Ok? ==>
              var gone := DeleteUser(api, StatusId(cr).value);
              s.api == gone.api
              && (s.result.Ok? <==> gone.result.Ok? || IsUserNotFound(gone.result.msg))
              && (s.result.Err? ==> s.result.msg == WrapMsg(ErrDeleteUser, gone.result.msg))
    ensures !s.result.Panic?
  {
    match StatusId(cr)
    case Err(m) => Step(Err(m), api)
    case Panic(f) => Step(Panic(f), api)
    case Ok(id) =>
      var gone := DeleteUser(api, id);
      match gone.result
      case Err(m) => if IsUserNotFound(m) then Step(Ok(()), gone.api) else Step(Err(WrapMsg(ErrDeleteUser, m)), gone.api)
      case Panic(f) => Step(Panic(f), gone.api)
      case Ok(_) => Step(Ok(()), gone.api)
  }

  // ---------------------------------------------------------------------------
  // Properties

  /** Observe sets the external name only when it was empty, and then to the username Harbor reports. */
  lemma ObserveKeepsExternalName(cr: NativeUser, api: UserApi)
    requires cr.externalName != ""
    ensures Observe(cr, api).Ok? ==> Observe(cr, api).value.cr.externalName == cr.externalName
  {
  }

  /**
   A fault-free Update with a password to set stores that password on the
   user with the status ID, after the profile update.
   */
  lemma UpdateStoresPassword(cr: NativeUser, api: UserApi, secrets: Store<Secret>, password: string)
    requires api.faults.profile.None? && api.faults.setAdmin.None? && api.faults.password.None?
    requires StatusId(cr).Ok? && IndexOfId(api.users, StatusId(cr).value) >= 0
    requires PasswordToSet(cr.forProvider.passwordSecretRef, secrets) == Ok(Some(password))
    ensures var s := Update(cr, api, secrets);
            s.result.Ok? && |s.api.users| == |api.users|
            && s.api.users[IndexOfId(api.users, StatusId(cr).value)].password == password
  {
  }

  /**
   After an update Harbor serves, the next observation finds the user up to
   date: every field the spec sets now has the spec's value. This holds whether
   or not the update also sets a password.
   */
  lemma UpdateThenObserveUpToDate(cr: NativeUser, api: UserApi, secrets: Store<Secret>, u: HarborUser)
    requires api.faults.profile.None? && api.faults.setAdmin.None? && api.faults.password.None?
    requires StatusId(cr).Ok?
    requires PasswordToSet(cr.forProvider.passwordSecretRef, secrets).Ok?
    requires u in Update(cr, api, secrets).api.users && u.userId == StatusId(cr).value
    requires IndexOfId(api.users, StatusId(cr).value) >= 0
    requires forall k, j :: 0 <= k < j < |api.users| ==> api.users[k].userId != api.users[j].userId
    ensures Update(cr, api, secrets).result.Ok?
    ensures UpToDate(cr.forProvider, u)
  {
    var id := StatusId(cr).value;
    var p := cr.forProvider;
    var i := IndexOfId(api.users, id);
    var profiled := UpdateUser(api, id, StringValue(p.email), StringValue(p.fullName), BoolValue(p.admin),
                               StringValue(p.comment));
    assert profiled.result.Ok? && profiled.api.faults == api.faults;
    var users := profiled.api.users;
    assert |users| == |api.users| && users[i].userId == id;
    assert UpToDate(p, users[i]);
    var final := Update(cr, api, secrets).api.users;
    match PasswordToSet(p.passwordSecretRef, secrets).value
    case None =>
      assert final == users;
    case Some(password) =>
      PasswordKeepsOthers(profiled.api, i, id, password);
      assert final == users[i := users[i].(password := password)];
      assert UpToDate(p, final[i]);
    var j :| 0 <= j < |final| && final[j] == u;
    assert final[j].userId == api.users[j].userId;
    assert j == i;
  }

  /** With no password fault, setting a password changes only the password of the user at `i`. */
  lemma PasswordKeepsOthers(api: UserApi, i: int, id: int, password: string)
    requires api.faults.password.None?
    requires 0 <= i < |api.users| && IndexOfId(api.users, id) == i
    ensures UpdateUserPassword(api, id, password).result.Ok?
    ensures UpdateUserPassword(api, id, password).api.users == api.users[i := api.users[i].(password := password)]
  {
  }

  /**
   Deleting an ID Harbor no longer has succeeds exactly when Harbor's
   not-found text contains "not found" in some letter case.
   */
  lemma DeleteMissingUser(cr: NativeUser, api: UserApi)
    requires StatusId(cr).Ok? && api.faults.delete.None?
    requires IndexOfId(api.users, StatusId(cr).value) < 0
    ensures Delete(cr, api).api == api
    ensures Delete(cr, api).result.Ok? <==> Contains(ToLower(WrapMsg("failed to delete user", api.notFoundText)), NotFoundPhrase)
  {
  }

  /** In particular, deleting a missing user succeeds when Harbor says "user not found". */
  lemma DeleteMissingUserNotFound(cr: NativeUser, api: UserApi)
    requires StatusId(cr).Ok? && api.faults.delete.None?
    requires IndexOfId(api.users, StatusId(cr).value) < 0
    requires api.notFoundText == UserNotFound
    ensures Delete(cr, api).result.Ok?
  {
    var prefix := "failed to delete user: ";
    assert WrapMsg("failed to delete user", api.notFoundText) == prefix + "user " + NotFoundPhrase;
    ToLowerConcat(prefix + "user ", NotFoundPhrase);
    NotFoundPhraseIsLower();
    ContainsInfix(ToLower(prefix + "user "), NotFoundPhrase, "");
    assert ToLower(prefix + "user ") + NotFoundPhrase + "" == ToLower(prefix + "user " + NotFoundPhrase);
  }

  /**
   A second delete after a successful one also succeeds, provided Harbor's
   answer for a missing user says "not found".
   */
  lemma DeleteTwice(cr: NativeUser, api: UserApi)
    requires StatusId(cr).Ok? && api.faults.delete.None?
    requires Delete(cr, api).result.Ok?
    requires api.notFoundText == UserNotFound
    ensures Delete(cr, Delete(cr, api).api).result.Ok?
  {
    var id := StatusId(cr).value;
    var once := Delete(cr, api).api;
    if IndexOfId(api.users, id) >= 0 {
      assert once == api.(users := WithoutId(api.users, id));
    }
    DeleteMissingUserNotFound(cr, once);
  }

  /**
   A user created through a Harbor that serves every call is observed next
   as existing and up to date, with its new ID in the status.
   */
  lemma CreateThenObserve(cr: NativeUser, api: UserApi, secrets: Store<Secret>)
    requires api.faults.create.None? && api.faults.location.None? && api.faults.setAdmin.None?
    requires api.faults.search.None?
    requires GetPassword(cr.forProvider.passwordSecretRef, secrets).Ok?
    requires CreatedUsername(cr) != ""
    requires IndexOfName(api.users, CreatedUsername(cr)) < 0
    requires IndexOfId(api.users, api.nextId) < 0
    requires IsInt64(api.nextId)
    ensures var made := Create(cr, api, secrets);
            made.result.Ok?
            && var seen := Observe(made.result.value, made.api);
               seen.Ok? && seen.value.obs.resourceExists && seen.value.obs.upToDate
               && seen.value.cr.atProvider.id == Some(FormatInt(api.nextId))
  {
    var p := cr.forProvider;
    var password := GetPassword(p.passwordSecretRef, secrets).value;
    var username := CreatedUsername(cr);
    CreateUserStoresUser(api, username, StringValue(p.email), StringValue(p.fullName), password,
                         BoolValue(p.admin), StringValue(p.comment));
  }
}

=== FILE: usergen.dfy ===
/**
 The `UserWithGeneratedPassword` controller. It creates a Harbor user in two
 reconcile passes: first a Kubernetes Secret holding a freshly generated
 password, and on a later pass a child `User` object named `<name>-user`
 whose password reference points at that Secret. The external "resource"
 is the pair (secret, child); Update and Delete do nothing because the
 child's own controller and Kubernetes garbage collection take over.
 */
module UserGen {
  import opened Common
  import opened Kube
  import opened UserTypes
  import GoStrings

  // ---------------------------------------------------------------------------
  // The record and the child object

  /** Where to store a generated password; empty strings and nil mean "use the default". */
  datatype GenConfig = GenConfig(name: string, namespace: string, key: string, length: Option<int>)

  /** The parts of crossplane's `ResourceSpec` that are copied to the child unchanged. */
  datatype ResourceSpec = ResourceSpec(providerConfigName: string, deletionPolicy: string)

  /** A `UserWithGeneratedPassword` managed resource (cluster scoped, so `namespace` is usually empty). */
  datatype Record = Record(
    apiVersion: string,
    kind: string,
    name: string,
    namespace: string,
    uid: string,
    resourceSpec: ResourceSpec,
    forProvider: UserParameters,
    generate: Option<GenConfig>,
    initProvider: UserInitParameters)

  datatype UserSpec = UserSpec(resourceSpec: ResourceSpec, forProvider: UserParameters, initProvider: UserInitParameters)

  /** The child v1alpha1 `User` object. */
  datatype User = User(meta: Meta, spec: UserSpec)

  /** The two kinds of object the controller reads and writes. */
  datatype Cluster = Cluster(secrets: Store<Secret>, users: Store<User>)

  const DefaultPasswordLength: int := 16
  const MinPasswordLength: int := 8
  const DefaultSecretKey: string := "password"

  const ErrGeneratePassword: string := "cannot generate secure password"
  const ErrCreateSecret: string := "cannot create password secret"
  const ErrCreateUser: string := "cannot create underlying user resource"
  const ErrCheckSecret: string := "cannot check if password secret exists"
  const ErrCheckUser: string := "cannot check if underlying user exists"

  // ---------------------------------------------------------------------------
  // Defaults and names

  /** The secret's namespace: the configured one, else the record's, else "default". */
  function SecretNamespace(gen: GenConfig, recordNamespace: string): (ns: string)
    ensures ns != ""
    ensures gen.namespace != "" ==> ns == gen.namespace
    ensures gen.namespace == "" && recordNamespace != "" ==> ns == recordNamespace
    ensures gen.namespace == "" && recordNamespace == "" ==> ns == "default"
  {
    if gen.namespace != "" then gen.namespace
    else if recordNamespace != "" then recordNamespace
    else "default"
  }

  /** The key the password is stored under: the configured one, else "password". */
  function SecretKey(gen: GenConfig): (key: string)
    ensures key != ""
    ensures gen.key != "" ==> key == gen.key
    ensures gen.key == "" ==> key == DefaultSecretKey
  {
    if gen.key != "" then gen.key else DefaultSecretKey
  }

  function SecretObjectKey(rec: Record, gen: GenConfig): ObjectKey {
    ObjectKey(SecretNamespace(gen, rec.namespace), gen.name)
  }

  /** The child User is cluster scoped and named after the record. */
  function ChildKey(rec: Record): ObjectKey {
    ObjectKey("", rec.name + "-user")
  }

  /** The single controller owner reference both created objects carry. */
  function OwnerFor(rec: Record): OwnerRef {
    OwnerRef(rec.apiVersion, rec.kind, rec.name, rec.uid, true)
  }

  // ---------------------------------------------------------------------------
  // Password generation

  /**
   The 70 characters a generated password is drawn from: the lower-case
   letters, the upper-case letters, the digits and eight symbols, in that order.
   */
  const Charset: string := LowerLetters + UpperLetters + DigitChars + SymbolChars

  const LowerLetters: string := "abcdefghijklmnopqrstuvwxyz"
  const UpperLetters: string := "ABCDEFGHIJKLMNOPQRSTUVWXYZ"
  const DigitChars: string := "0123456789"
  const SymbolChars: string := "!@#$%^&*"

  /** The characters a generated password may contain. */
  predicate IsPasswordChar(c: char) {
    'a' <= c <= 'z' || 'A' <= c <= 'Z' || '0' <= c <= '9'
    || c == '!' || c == '@' || c == '#' || c == '$' || c == '%' || c == '^' || c == '&' || c == '*'
  }

  /** The charset lists exactly the password characters, 70 of them, each once. */
  lemma CharsetShape()
    ensures |Charset| == 70
    ensures forall i :: 0 <= i < |Charset| ==> IsPasswordChar(Charset[i])
    ensures forall c :: IsPasswordChar(c) ==> c in Charset
    ensures forall i, j :: 0 <= i < j < |Charset| ==> Charset[i] != Charset[j]
  {
    CharsetPieces();
    CharsetComplete();
    CharsetDistinct();
  }

  /** The four runs of the charset, character by character. */
  lemma CharsetPieces()
    ensures forall i :: 0 <= i < |LowerLetters| ==> LowerLetters[i] as int == 'a' as int + i
    ensures forall i :: 0 <= i < |UpperLetters| ==> UpperLetters[i] as int == 'A' as int + i
    ensures forall i :: 0 <= i < |DigitChars| ==> DigitChars[i] as int == '0' as int + i
    ensures forall i, j :: 0 <= i < j < |SymbolChars| ==> SymbolChars[i] != SymbolChars[j]
    ensures forall i :: 0 <= i < |SymbolChars| ==>
              (IsPasswordChar(SymbolChars[i]) && !('a' <= SymbolChars[i] <= 'z')
               && !('A' <= SymbolChars[i] <= 'Z') && !('0' <= SymbolChars[i] <= '9'))
  {
  }

  /** Every password character has a place in the charset, one run at a time. */
  lemma CharsetComplete()
    ensures forall c :: IsPasswordChar(c) ==> c in Charset
  {
    forall c | IsPasswordChar(c)
      ensures c in Charset
    {
      if 'a' <= c <= 'z' {
        LowerInCharset(c);
      } else if 'A' <= c <= 'Z' {
        UpperInCharset(c);
      } else if '0' <= c <= '9' {
        DigitInCharset(c);
      } else {
        assert c in SymbolChars;
        assert Charset[62..] == SymbolChars;
      }
    }
  }

  lemma LowerInCharset(c: char)
    requires 'a' <= c <= 'z'
    ensures c in Charset
  {
    CharsetPieces();
    var i := c as int - 'a' as int;
    assert Charset[i] == LowerLetters[i];
  }

  lemma UpperInCharset(c: char)
    requires 'A' <= c <= 'Z'
    ensures c in Charset
  {
    CharsetPieces();
    var i := c as int - 'A' as int;
    assert Charset[26..52] == UpperLetters;
    assert Charset[26 + i] == Charset[26..52][i];
  }

  lemma DigitInCharset(c: char)
    requires '0' <= c <= '9'
    ensures c in Charset
  {
    CharsetPieces();
    var i := c as int - '0' as int;
    assert Charset[52..62] == DigitChars;
    assert Charset[52 + i] == Charset[52..62][i];
  }

  lemma CharsetDistinct()
    ensures forall i, j :: 0 <= i < j < |Charset| ==> Charset[i] != Charset[j]
  {
    CharsetPieces();
    forall i, j | 0 <= i < j < |Charset|
      ensures Charset[i] != Charset[j]
    {
      if j < 26 {
      } else if j < 52 {
        if i >= 26 {
          assert Charset[i] == UpperLetters[i - 26];
        }
      } else if j < 62 {
        assert Charset[j] == DigitChars[j - 52];
      } else {
        assert Charset[j] == SymbolChars[j - 62];
        if i >= 62 {
          assert Charset[i] == SymbolChars[i - 62];
        }
      }
    }
  }

  /** A requested length below the minimum falls back to the default. */
  function EffectiveLength(length: int): (n: nat)
    ensures n >= MinPasswordLength
    ensures length >= MinPasswordLength ==> n == length
    ensures length < MinPasswordLength ==> n == DefaultPasswordLength
  {
    if length < MinPasswordLength then DefaultPasswordLength else length
  }

  /** Each random byte picks the charset character at its value modulo 70. */
  function PasswordOf(random: seq<byte>): (p: string)
    ensures |p| == |random|
    ensures forall i :: 0 <= i < |p| ==> p[i] in Charset && IsPasswordChar(p[i])
  {
    CharsetShape();
    seq(|random|, i requires 0 <= i < |random| => Charset[random[i] % |Charset|])
  }

  /**
   The loop of `generateSecurePassword`, rewriting a buffer of random bytes
   in place into charset characters.
   */
  method MapToCharset(random: seq<byte>) returns (p: string)
    ensures p == PasswordOf(random)
  {
    var buf := new char[|random|];
    var i := 0;
    while i < |random|
      invariant 0 <= i <= |random|
      invariant forall k :: 0 <= k < i ==> buf[k] == Charset[random[k] % |Charset|]
    {
      buf[i] := Charset[random[i] % |Charset|];
      i := i + 1;
    }
    p := buf[..];
  }

  /**
   `generateSecurePassword(length)`: the random bytes come from `pool`, the
   bytes `crypto/rand` would deliver; a pool too short for the effective
   length is the read failing.
   */
  function GenerateSecurePassword(length: int, pool: seq<byte>): (r: Result<string>)
    ensures r.Ok? <==> |pool| >= EffectiveLength(length)
    ensures r.Ok? ==> |r.value| == EffectiveLength(length)
    ensures r.Ok? ==> forall i :: 0 <= i < |r.value| ==> IsPasswordChar(r.value[i])
    ensures r.Ok? ==> r.value == PasswordOf(pool[..EffectiveLength(length)])
    ensures r.Err? ==> r.msg == WrapMsg("failed to generate random bytes", "unexpected EOF")
  {
    var n := EffectiveLength(length);
    if |pool| < n then Err(WrapMsg("failed to generate random bytes", "unexpected EOF"))
    else Ok(PasswordOf(pool[..n]))
  }

  /** The password length a record asks for: its `length`, else the default. */
  function RequestedLength(gen: GenConfig): int {
    gen.length.GetOr(DefaultPasswordLength)
  }

  // ---------------------------------------------------------------------------
  // The objects the controller creates

  /** `createPasswordSecret`: an Opaque secret owned by the record, holding only the password. */
  function PasswordSecretFor(rec: Record, name: string, namespace: string, key: string, password: string): (s: Secret)
    ensures s.meta.name == name && s.meta.namespace == namespace
    ensures s.meta.owners == [OwnerFor(rec)] && s.meta.owners[0].controller
    ensures s.data.Keys == {key} && s.data[key] == password
    ensures "harbor.crossplane.io/user" in s.meta.labels && s.meta.labels["harbor.crossplane.io/user"] == rec.name
    ensures s.secretType == SecretTypeOpaque
  {
    Secret(
      Meta(name, namespace, [OwnerFor(rec)],
           map["app.kubernetes.io/managed-by" := "provider-harbor",
               "harbor.crossplane.io/user" := rec.name,
               "harbor.crossplane.io/generated" := "true",
               "harbor.crossplane.io/secret-type" := "password"]),
      SecretTypeOpaque,
      map[key := password])
  }

  /** The password reference the child gets: the generated secret, else the record's own reference. */
  function PasswordSecretRefFor(rec: Record): (ref: SecretKeySelector)
    ensures rec.generate.Some? ==>
              ref == SecretKeySelector(rec.generate.value.name,
                                       SecretNamespace(rec.generate.value, rec.namespace),
                                       SecretKey(rec.generate.value))
    ensures rec.generate.None? ==> ref == rec.forProvider.passwordSecretRef
  {
    match rec.generate
    case Some(gen) => SecretKeySelector(gen.name, SecretNamespace(gen, rec.namespace), SecretKey(gen))
    case None => rec.forProvider.passwordSecretRef
  }

  /** The phase-2 child: named `<name>-user`, owned by the record, with the user fields copied. */
  function ChildUserFor(rec: Record): (u: User)
    ensures u.meta.name == rec.name + "-user" && u.meta.namespace == ""
    ensures u.meta.owners == [OwnerFor(rec)]
    ensures u.spec.forProvider == rec.forProvider.(passwordSecretRef := PasswordSecretRefFor(rec))
    ensures u.spec.initProvider == rec.initProvider && u.spec.resourceSpec == rec.resourceSpec
  {
    User(
      Meta(rec.name + "-user", "", [OwnerFor(rec)], map[]),
      UserSpec(rec.resourceSpec,
               UserParameters(rec.forProvider.admin, rec.forProvider.comment, rec.forProvider.email,
                              rec.forProvider.fullName, rec.forProvider.username, PasswordSecretRefFor(rec)),
               rec.initProvider))
  }

  // ---------------------------------------------------------------------------
  // The external client

  /** The secret phase is over: no secret is needed, or it is present. */
  predicate SecretReady(rec: Record, c: Cluster) {
    rec.generate.None? || Get(c.secrets, SecretObjectKey(rec, rec.generate.value)).Found?
  }

  /** A read that fails for a reason other than not-found happens on the path Observe takes. */
  predicate ObserveFails(rec: Record, c: Cluster) {
    (rec.generate.Some? && Get(c.secrets, SecretObjectKey(rec, rec.generate.value)).Failed?)
    || (SecretReady(rec, c) && Get(c.users, ChildKey(rec)).Failed?)
  }

  /** `Observe`: exists (and is up to date) only when the secret, if needed, and the child are both there. */
  function Observe(rec: Record, c: Cluster): (r: Result<Observation>)
    ensures r.Err? <==> ObserveFails(rec, c)
    ensures !r.Panic?
    ensures r.Ok? ==> (r.value.resourceExists <==> SecretReady(rec, c) && Get(c.users, ChildKey(rec)).Found?)
    ensures r.Ok? ==> r.value.upToDate == r.value.resourceExists && r.value.details == map[]
  {
    var secretPhase: Result<bool> :=
      match rec.generate
      case None => Ok(true)
      case Some(gen) =>
        match Get(c.secrets, SecretObjectKey(rec, gen))
        case Failed(m) => Err(WrapMsg(ErrCheckSecret, m))
        case NotFound => Ok(false)
        case Found(_) => Ok(true);
    if secretPhase.Err? then Err(secretPhase.msg)
    else if !secretPhase.value then Ok(Absent)
    else
      match Get(c.users, ChildKey(rec))
      case Failed(m) => Err(WrapMsg(ErrCheckUser, m))
      case NotFound => Ok(Absent)
      case Found(_) => Ok(Observation(true, true, map[]))
  }

  /** `createPasswordSecretPhase`: generate a password and store it; the child is not touched. */
  function CreatePasswordSecretPhase(rec: Record, gen: GenConfig, c: Cluster, pool: seq<byte>): (r: Result<Cluster>)
    ensures r.Ok? ==> r.value.users == c.users
    ensures r.Ok? ==> exists p :: GenerateSecurePassword(RequestedLength(gen), pool) == Ok(p)
                        && r.value.secrets.objects == c.secrets.objects[SecretObjectKey(rec, gen) :=
                             PasswordSecretFor(rec, gen.name, SecretNamespace(gen, rec.namespace), SecretKey(gen), p)]
    ensures r.Ok? <==> (GenerateSecurePassword(RequestedLength(gen), pool).Ok?
                        && SecretObjectKey(rec, gen) !in c.secrets.createFaults
                        && SecretObjectKey(rec, gen) !in c.secrets.objects)
    ensures GenerateSecurePassword(RequestedLength(gen), pool).Err? ==>
              r == Err(WrapMsg(ErrGeneratePassword, GenerateSecurePassword(RequestedLength(gen), pool).msg))
    ensures GenerateSecurePassword(RequestedLength(gen), pool).Ok? && r.Err? ==>
              r.msg == WrapMsg(ErrCreateSecret, if SecretObjectKey(rec, gen) in c.secrets.createFaults
                                                then c.secrets.createFaults[SecretObjectKey(rec, gen)]
                                                else "secrets \"" + gen.name + "\" already exists")
    ensures !r.Panic?
  {
    match GenerateSecurePassword(RequestedLength(gen), pool)
    case Err(m) => Err(WrapMsg(ErrGeneratePassword, m))
    case Ok(password) =>
      var ns := SecretNamespace(gen, rec.namespace);
      var secret := PasswordSecretFor(rec, gen.name, ns, SecretKey(gen), password);
      match Kube.Create(c.secrets, "secrets", ObjectKey(ns, gen.name), secret)
      case Ok(s) => Ok(c.(secrets := s))
      case Err(m) => Err(WrapMsg(ErrCreateSecret, m))
      case Panic(f) => Panic(f)
  }

  /** `createHarborUserPhase`: create the child User; the secrets are not touched. */
  function CreateHarborUserPhase(rec: Record, c: Cluster): (r: Result<Cluster>)
    ensures r.Ok? <==> ChildKey(rec) !in c.users.createFaults && ChildKey(rec) !in c.users.objects
    ensures r.Ok? ==> r.value.secrets == c.secrets
    ensures r.Ok? ==> r.value.users.objects == c.users.objects[ChildKey(rec) := ChildUserFor(rec)]
    ensures r.Err? ==> GoStrings.HasPrefix(r.msg, ErrCreateUser + ": ")
    ensures !r.Panic?
  {
    match Kube.Create(c.users, "users", ChildKey(rec), ChildUserFor(rec))
    case Ok(u) => Ok(c.(users := u))
    case Err(m) => Err(WrapMsg(ErrCreateUser, m))
    case Panic(f) => Panic(f)
  }

  /**
   `Create`: with password generation, a missing secret means phase 1 (write
   the secret only) and a present one means phase 2 (write the child only).
   */
  function Create(rec: Record, c: Cluster, pool: seq<byte>): (r: Result<Cluster>)
    ensures !r.Panic?
    ensures rec.generate.Some? && Get(c.secrets, SecretObjectKey(rec, rec.generate.value)).Failed? ==> r.Err?
    ensures rec.generate.Some? && Get(c.secrets, SecretObjectKey(rec, rec.generate.value)).NotFound? ==>
              r == CreatePasswordSecretPhase(rec, rec.generate.value, c, pool)
    ensures SecretReady(rec, c) ==> r == CreateHarborUserPhase(rec, c)
  {
    match rec.generate
    case None => CreateHarborUserPhase(rec, c)
    case Some(gen) =>
      match Get(c.secrets, SecretObjectKey(rec, gen))
      case NotFound => CreatePasswordSecretPhase(rec, gen, c, pool)
      case Failed(m) => Err(WrapMsg(ErrCheckSecret, m))
      case Found(_) => CreateHarborUserPhase(rec, c)
  }

  /** `Update`: the child's own controller handles updates, so nothing changes. */
  function Update(rec: Record, c: Cluster): (r: Result<Cluster>)
    ensures r == Ok(c)
  {
    Ok(c)
  }

  /** `Delete`: owner references make Kubernetes clean up, so nothing changes here. */
  function Delete(rec: Record, c: Cluster): (r: Result<Cluster>)
    ensures r == Ok(c)
  {
    Ok(c)
  }

  // ---------------------------------------------------------------------------
  // Properties

  /** While the secret is missing, Observe reports absence without reading the child at all. */
  lemma ObserveSkipsChildWhileSecretMissing(rec: Record, c1: Cluster, c2: Cluster)
    requires rec.generate.Some?
    requires c1.secrets == c2.secrets
    requires Get(c1.secrets, SecretObjectKey(rec, rec.generate.value)).NotFound?
    ensures Observe(rec, c1) == Observe(rec, c2) == Ok(Absent)
  {
  }

  /** The two-phase protocol in a fault-free cluster: secret, then child, then observed as existing. */
  lemma TwoPhaseCreate(rec: Record, c0: Cluster, pool1: seq<byte>, pool2: seq<byte>)
    requires rec.generate.Some?
    requires Healthy(c0.secrets) && Healthy(c0.users)
    requires SecretObjectKey(rec, rec.generate.value) !in c0.secrets.objects
    requires ChildKey(rec) !in c0.users.objects
    requires |pool1| >= EffectiveLength(RequestedLength(rec.generate.value))
    ensures Observe(rec, c0) == Ok(Absent)
    ensures Create(rec, c0, pool1).Ok?
    ensures var c1 := Create(rec, c0, pool1).value;
            Observe(rec, c1) == Ok(Absent)
            && c1.users == c0.users
            && Create(rec, c1, pool2).Ok?
            && Create(rec, c1, pool2).value.secrets == c1.secrets
            && Observe(rec, Create(rec, c1, pool2).value) == Ok(Observation(true, true, map[]))
  {
    var gen := rec.generate.value;
    var key := SecretObjectKey(rec, gen);
    var c1 := Create(rec, c0, pool1).value;
    assert Get(c1.secrets, key).Found?;
    var c2 := Create(rec, c1, pool2).value;
    assert Get(c2.users, ChildKey(rec)).Found?;
  }

  /** The phase-1 secret has one controller owner, the record, and holds a charset password under the chosen key. */
  lemma GeneratedSecretShape(rec: Record, c: Cluster, pool: seq<byte>)
    requires rec.generate.Some?
    requires Get(c.secrets, SecretObjectKey(rec, rec.generate.value)).NotFound?
    requires Create(rec, c, pool).Ok?
    ensures var gen := rec.generate.value;
            var s := Create(rec, c, pool).value.secrets.objects[SecretObjectKey(rec, gen)];
            |s.meta.owners| == 1 && s.meta.owners[0].controller && s.meta.owners[0].name == rec.name
            && s.meta.owners[0].uid == rec.uid
            && s.data.Keys == {SecretKey(gen)}
            && |s.data[SecretKey(gen)]| == EffectiveLength(RequestedLength(gen))
            && forall i :: 0 <= i < |s.data[SecretKey(gen)]| ==> IsPasswordChar(s.data[SecretKey(gen)][i])
  {
    var gen := rec.generate.value;
    var p :| GenerateSecurePassword(RequestedLength(gen), pool) == Ok(p)
             && Create(rec, c, pool).value.secrets.objects == c.secrets.objects[SecretObjectKey(rec, gen) :=
                  PasswordSecretFor(rec, gen.name, SecretNamespace(gen, rec.namespace), SecretKey(gen), p)];
  }

  /** The phase-2 child points at the generated secret: its name, its defaulted namespace and key. */
  lemma ChildReferencesGeneratedSecret(rec: Record, c: Cluster, pool: seq<byte>)
    requires rec.generate.Some?
    requires Get(c.secrets, SecretObjectKey(rec, rec.generate.value)).Found?
    requires Create(rec, c, pool).Ok?
    ensures var gen := rec.generate.value;
            var u := Create(rec, c, pool).value.users.objects[ChildKey(rec)];
            u.meta.name == rec.name + "-user"
            && u.spec.forProvider.passwordSecretRef.name == gen.name
            && u.spec.forProvider.passwordSecretRef.namespace == SecretNamespace(gen, rec.namespace)
            && u.spec.forProvider.passwordSecretRef.key == SecretKey(gen)
  {
  }
}

=== FILE: usertypes.dfy ===
/**
 The v1alpha1 `User` resource's parameter and status shapes, shared by the
 native User controller and the generated-password controller that creates
 User objects. Go pointers are Options.
 */
module UserTypes {
  import opened Common
  import opened Kube

  datatype UserParameters = UserParameters(
    admin: Option<bool>,
    comment: Option<string>,
    email: Option<string>,
    fullName: Option<string>,
    username: Option<string>,
    passwordSecretRef: SecretKeySelector)

  datatype UserInitParameters = UserInitParameters(
    admin: Option<bool>,
    comment: Option<string>,
    email: Option<string>,
    fullName: Option<string>,
    username: Option<string>)

  datatype UserObservation = UserObservation(
    id: Option<string>,
    username: Option<string>,
    email: Option<string>,
    fullName: Option<string>,
    admin: Option<bool>,
    comment: Option<string>)
}

=== FILE: userv1beta1.dfy ===
/**
 The v1beta1 User controller: it observes a Harbor user by the username in
 its spec, reports drift in the email and the administrator flag, and
 creates, updates and deletes through the provider's Harbor client. Every
 user it sees is given the identifier 1.

 The client's user calls, and the `UserSpec` and `UserStatus` types they
 exchange, are not part of the provider's Harbor client file; their shapes
 here are the fields this controller reads and writes, and the calls are a
 parameter (`UserService`). The password read from the referenced secret
 is the fixed text the controller supplies in place of a secret read.
 */
module UserV1Beta1 {
  import opened Common
  import Kube
  import HarborClient

  datatype UserParameters = UserParameters(
    username: string,
    email: string,
    passwordSecretRef: Option<Kube.SecretKeySelector>,
    realname: Option<string>,
    comment: Option<string>,
    sysAdminFlag: Option<bool>)

  /** The status fields this controller writes. */
  datatype UserObservation = UserObservation(id: Option<int>, creationTime: Option<int>, updateTime: Option<int>)

  datatype User = User(forProvider: UserParameters, atProvider: UserObservation)

  /** The request the client's user calls take. */
  datatype UserSpec = UserSpec(username: string, email: string, password: string, adminFlag: bool)

  /** What the client's user calls answer. */
  datatype UserStatus = UserStatus(username: string, email: string, adminFlag: bool, createdAt: int)

  /** The user calls of the Harbor client. */
  datatype UserService = UserService(
    get: string -> Result<UserStatus>,
    create: UserSpec -> Result<UserStatus>,
    update: (string, UserSpec) -> Result<UserStatus>,
    delete: string -> Result<()>)

  /** What Observe reports, with the resource as Observe leaves it. */
  datatype Observed = Observed(obs: Observation, cr: User)

  /** What Create and Update report: the connection details, with the resource as they leave it. */
  datatype Written = Written(details: ConnectionDetails, cr: User)

  /** The identifier every user is given. */
  const MockId: int := 1

  /** The password `getPasswordFromSecret` supplies for any reference. */
  const MockPassword: string := "mock-password"

  /** The published details: the username as Harbor reports it, and the identifier "1". */
  function Details(username: string): (d: ConnectionDetails)
    ensures d.Keys == {"username", "user_id"}
    ensures d["username"] == username && d["user_id"] == "1"
  {
    map["username" := username, "user_id" := "1"]
  }

  /** `upToDate`: the email must match, and the administrator flag too when the spec sets one. */
  predicate IsUpToDate(p: UserParameters, status: UserStatus) {
    p.email == status.email && (p.sysAdminFlag.None? || p.sysAdminFlag.value == status.adminFlag)
  }

  /**
   The request Create and Update send: username and email as given, the
   administrator flag with false as the default, and a password only when
   a secret is referenced.
   */
  function SpecFor(p: UserParameters): (s: UserSpec)
    ensures s.username == p.username && s.email == p.email
    ensures s.adminFlag <==> p.sysAdminFlag == Some(true)
    ensures p.passwordSecretRef.Some? ==> s.password == MockPassword
    ensures p.passwordSecretRef.None? ==> s.password == ""
  {
    var password := if p.passwordSecretRef.Some? then MockPassword else "";
    UserSpec(p.username, p.email, password, BoolValue(p.sysAdminFlag))
  }

  /**
   `Observe`: any error from the lookup means the user does not exist;
   otherwise the identifier and the creation time (unless zero) are recorded.
   */
  function Observe(cr: User, svc: UserService): (r: Result<Observed>)
    ensures !r.Err?
    ensures svc.get(cr.forProvider.username).Err? ==> r == Ok(Observed(Absent, cr))
    ensures svc.get(cr.forProvider.username).Ok? ==>
              var status := svc.get(cr.forProvider.username).value;
              r.Ok? && r.value.obs.resourceExists
              && (r.value.obs.upToDate <==> IsUpToDate(cr.forProvider, status))
              && r.value.obs.details == Details(status.username)
              && r.value.cr.atProvider.id == Some(MockId)
              && (status.createdAt != HarborClient.ZeroTime ==> r.value.cr.atProvider.creationTime == Some(status.createdAt))
              && (status.createdAt == HarborClient.ZeroTime ==> r.value.cr.atProvider.creationTime == cr.atProvider.creationTime)
    ensures r.Ok? ==> r.value.cr.forProvider == cr.forProvider
  {
    match svc.get(cr.forProvider.username)
    case Err(_) => Ok(Observed(Absent, cr))
    case Panic(f) => Panic(f)
    case Ok(status) =>
      var creationTime := if status.createdAt != HarborClient.ZeroTime then Some(status.createdAt) else cr.atProvider.creationTime;
      var seen := cr.atProvider.(id := Some(MockId), creationTime := creationTime);
      Ok(Observed(Observation(true, IsUpToDate(cr.forProvider, status), Details(status.username)), cr.(atProvider := seen)))
  }

  /** `Create`: the request is sent; the created user's name is published. */
  function Create(cr: User, svc: UserService): (r: Result<Written>)
    ensures var sent := svc.create(SpecFor(cr.forProvider));
            (r.Ok? <==> sent.Ok?)
            && (sent.Err? ==> r == Err(WrapMsg("cannot create Harbor user", sent.msg)))
            && (sent.Ok? ==> r.value.details == Details(sent.value.username)
                             && r.value.cr.atProvider.id == Some(MockId)
                             && (sent.value.createdAt != HarborClient.ZeroTime ==>
                                   r.value.cr.atProvider.creationTime == Some(sent.value.createdAt)))
    ensures r.Ok? ==> r.value.cr.forProvider == cr.forProvider
  {
    match svc.create(SpecFor(cr.forProvider))
    case Err(m) => Err(WrapMsg("cannot create Harbor user", m))
    case Panic(f) => Panic(f)
    case Ok(status) =>
      var creationTime := if status.createdAt != HarborClient.ZeroTime then Some(status.createdAt) else cr.atProvider.creationTime;
      var written := cr.atProvider.(id := Some(MockId), creationTime := creationTime);
      Ok(Written(Details(status.username), cr.(atProvider := written)))
  }

  /** `Update`: the request is sent under the spec's username; the update time is now, unless Harbor reports no creation time. */
  function Update(cr: User, svc: UserService, now: int): (r: Result<Written>)
    ensures var sent := svc.update(cr.forProvider.username, SpecFor(cr.forProvider));
            (r.Ok? <==> sent.Ok?)
            && (sent.Err? ==> r == Err(WrapMsg("cannot update Harbor user", sent.msg)))
            && (sent.Ok? ==> r.value.details == Details(sent.value.username)
                             && (sent.value.createdAt != HarborClient.ZeroTime ==> r.value.cr.atProvider.updateTime == Some(now))
                             && (sent.value.createdAt == HarborClient.ZeroTime ==>
                                   r.value.cr.atProvider.updateTime == cr.atProvider.updateTime))
    ensures r.Ok? ==> r.value.cr.forProvider == cr.forProvider
  {
    match svc.update(cr.forProvider.username, SpecFor(cr.forProvider))
    case Err(m) => Err(WrapMsg("cannot update Harbor user", m))
    case Panic(f) => Panic(f)
    case Ok(status) =>
      var updateTime := if status.createdAt != HarborClient.ZeroTime then Some(now) else cr.atProvider.updateTime;
      Ok(Written(Details(status.username), cr.(atProvider := cr.atProvider.(updateTime := updateTime))))
  }

  /** `Delete`. */
  function Delete(cr: User, svc: UserService): (r: Result<()>)
    ensures var sent := svc.delete(cr.forProvider.username);
            (r.Ok? <==> sent.Ok?) && (sent.Err? ==> r == Err(WrapMsg("cannot delete Harbor user", sent.msg)))
  {
    match svc.delete(cr.forProvider.username)
    case Err(m) => Err(WrapMsg("cannot delete Harbor user", m))
    case Panic(f) => Panic(f)
    case Ok(_) => Ok(())
  }

  // ---------------------------------------------------------------------------
  // Properties

  /** Harbor echoing the request back is never drift. */
  lemma OwnRequestUpToDate(p: UserParameters, createdAt: int)
    ensures var s := SpecFor(p); IsUpToDate(p, UserStatus(s.username, s.email, s.adminFlag, createdAt))
  {
  }

  /**
   The real name and the comment are neither sent nor compared: two specs
   that differ only there send the same request and agree on drift.
   */
  lemma RealnameAndCommentIgnored(p: UserParameters, realname: Option<string>, comment: Option<string>, status: UserStatus)
    ensures SpecFor(p.(realname := realname, comment := comment)) == SpecFor(p)
    ensures IsUpToDate(p.(realname := realname, comment := comment), status) <==> IsUpToDate(p, status)
  {
  }

  /**
   Against a Harbor that stores what it is sent, a created user is found
   up to date and publishes the details its creation published.
   */
  lemma CreateThenObserve(cr: User, svc: UserService)
    requires svc.create(SpecFor(cr.forProvider)).Ok?
    requires svc.get(cr.forProvider.username) == svc.create(SpecFor(cr.forProvider))
    requires var s := SpecFor(cr.forProvider); var st := svc.create(s).value;
             st.username == s.username && st.email == s.email && st.adminFlag == s.adminFlag
    ensures var made := Create(cr, svc);
            var seen := Observe(made.value.cr, svc);
            made.Ok? && seen.Ok? && seen.value.obs.resourceExists && seen.value.obs.upToDate
            && seen.value.obs.details == made.value.details
            && made.value.details["username"] == cr.forProvider.username
  {
  }

  /** A spec whose email differs from Harbor's is drift whatever the administrator flag. */
  lemma EmailDrift(p: UserParameters, status: UserStatus)
    requires p.email != status.email
    ensures !IsUpToDate(p, status)
    ensures !IsUpToDate(p.(sysAdminFlag := None), status)
  {
  }
}
